=== FILE: README.md ===
# Yomitan dictionary builder — a Dafny model of the conversion core

This project models the core of a C++ tool that turns dictionary-source XML
pages into two target formats. The first is the Yomitan term-bank format:
chunked JSON arrays of positional rows, plus an index file. The second is the
flat MDict source text: key/content records that the external `mdict`
compiler consumes. Each part of the model is a module of pure functions over
immutable datatypes:

- `KanjiUtils`: the Unicode script classifiers (kanji, hiragana, katakana,
  hentaigana), the kanji stem, and the common-prefix and common-suffix lengths.
- `KanaConvert`: hiragana/katakana conversion through the two 78-entry tables.
- `KeyMatcher`: `matchKanaWithKanji`, the recursive matcher that pairs index
  keys containing kanji with their kana readings. It builds on `KeyPairs` (the
  result pairs and the three entry lists), `KeyGroups` (the forms grouped by
  residue), `KeyPasses` (the four matching passes), `KeyShapes` and
  `KeyBranches` (the results of each branch of one level). Its properties
  are in `KeyMatcherProperties` and `KeyMatcherExamples`.
- `FileUtils`: the `.xml` file iterator and its batches, the next term-bank
  number, and the user-name folder.
- `HtmlContent` and `Entries`: the structured-content tree (`HTMLElement`) and
  the dictionary entry (`DicEntry`) with its validation and its `toList` row.
- `XmlParser`: tag resolution through the tag mapping (`getTargetTag`),
  attribute and class collection, the recursive XML-to-content conversion, and
  element text.
- `YomitanDictionary`: the chunked term-bank writer (`addEntry`,
  `flushChunkToDisk`, `exportDictionary`).
- `YomitanParser`: `parseEntry`.
- `IndexReader`: the tab-separated page index and the jukugo (compound)
  page/item index.
- `YdpParser`: the YDP per-file driver (headword, key matching, one entry per
  pair).
- `KjtExtraction`: the KJT key-extraction strategy (variations, readings,
  de-duplication).
- `MdictLinks`: the MDict and NDS link-rewriting strategies (sub-item, audio,
  appendix and internal hrefs; page and item ids).
- `SubItems`: the MDict sub-item processor (the shell of ancestor tags, the
  wrapped content, entry ids).
- `MdictParser`: the MDict per-file driver (link rewriting, `SubItemG`
  removal, keys, the page entry).
- `MdictExporter`: the buffered MDict writer (content section, key section,
  finalisation).
- `ConfigLoader`: the line-based YAML configuration reader and `parseSimpleSet`.
- `Text`, `Numbers` and `Wrappers`: shared helpers. `Numbers` has the `std::stoi`,
  `std::stol` and base-16 `stoi` parses with their 32/64-bit range errors, and
  decimal printing.

Conventions:

- Strings are `seq<char>`, that is, sequences of code points.
- Operations that the source performs by mutation return the new value.
- Operations that throw or return `false` return a `Result`, a flag, or an
  outcome datatype.
- The file system, the clock and the user's environment are parameters: a
  directory listing, `exists`/`opens` flags, the contents of `HOME`, and
  success flags for each write.
- A serialiser, a key normaliser and a path resolver that the source takes
  from libraries it does not contain are also function parameters.

Where the code and its published description differ, the model follows the
code:

- `validateElement` tests whether the tag NAME contains `href`. No allowed tag
  does, so an element is refused exactly when its tag is not allowed
  (`Entries.HrefGateIsDead`). An `href` on a `span` is accepted.
- `getClassList` keeps only the LAST whitespace-separated class, with `-`
  replaced by `_` (`XmlParser.ClassList`).
- `getAttributeData` skips an attribute whose VALUE is `class`, not the class
  attribute itself.
- In `matchKanaWithKanji` the kana still unmatched after the passes are
  filtered against the set of matched KANJI (line 534). Every kana therefore
  recurses, and at the recursion limit it comes back in the kanji slot.
- The katakana pass of `writeKeySection` widens each UTF-8 byte to a code
  point and tests that for katakana. No byte is katakana, so the pass writes
  nothing (`MdictExporter.KatakanaPassWritesNothing`).
- The `YomitanDictionary` destructor flushes only when the current chunk is
  EMPTY, so the flush it performs writes nothing.

## Model

| member | source | states |
|---|---|---|
| KanjiUtils.ScriptsDisjoint | src/utils/jptools/kanji_utils.cpp:11-70 | the four range tables are pairwise disjoint: a code point is in at most one script |
| KanjiUtils.AllInScript | src/utils/jptools/kanji_utils.cpp:105-116 | `is<Script>String` holds exactly when every character is in the script (true for the empty string at this level; the string predicates add non-emptiness) |
| KanjiUtils.AnyInScript | src/utils/jptools/kanji_utils.cpp:118-129 | `contains<Script>` holds exactly when some character is in the script |
| KanjiUtils.ScriptStringExcludes | src/utils/jptools/kanji_utils.cpp:150-205 | a non-empty string entirely in one script contains that script and no other |
| KanjiUtils.ExtractKanjiStem | src/utils/jptools/kanji_utils.cpp:562-575 | the stem holds only kanji |
| KanjiUtils.NonKanjiPart | src/utils/jptools/kanji_utils.cpp:367-385 | the residue used as the group key holds no kanji |
| KanjiUtils.StemAndResidue | src/utils/jptools/kanji_utils.cpp:562-575 | stem and residue together are a permutation of the input (multiset and length) |
| KanjiUtils.StemEmpty | src/utils/jptools/kanji_utils.cpp:562-575 | the stem is empty exactly when the string contains no kanji |
| KanjiUtils.ResidueEmpty | src/utils/jptools/kanji_utils.cpp:367-385 | the residue is empty exactly when every character is kanji |
| KanjiUtils.LongestCommonSuffix | src/utils/jptools/kanji_utils.cpp:577-593 | the result is the length of a common suffix that cannot be extended by one more character |
| KanjiUtils.LongestCommonPrefix | src/utils/jptools/kanji_utils.cpp:595-611 | the result is the length of a common prefix that cannot be extended by one more character |
| KanaConvert.TableEntries | src/utils/jptools/kana_convert.cpp:7-167 | sample entries of both tables; small kana such as ぁ, and ゔ, are not in the tables |
| KanaConvert.HiraganaToKatakana | src/utils/jptools/kana_convert.cpp:169-187 | same length; each character is replaced by its table image when it has one and kept otherwise |
| KanaConvert.KatakanaToHiragana | src/utils/jptools/kana_convert.cpp:189-207 | same length; each character is replaced by its table image when it has one and kept otherwise |
| KanaConvert.HiraganaToKatakanaIdempotent | src/utils/jptools/kana_convert.cpp:169-187 | no table hiragana survives the conversion, so converting twice is converting once |
| KanaConvert.KatakanaToHiraganaIdempotent | src/utils/jptools/kana_convert.cpp:189-207 | no table katakana survives the conversion, so converting twice is converting once |
| KanaConvert.HiraganaRoundTrip | src/utils/jptools/kana_convert.cpp:7-207 | text without table katakana comes back unchanged from hiragana to katakana to hiragana |
| KanaConvert.KatakanaRoundTrip | src/utils/jptools/kana_convert.cpp:7-207 | text without table hiragana comes back unchanged from katakana to hiragana to katakana |
| KanaConvert.ConversionExampleVowels | test/kana_convert_test.cpp:7-16 | あいうえお and アイウエオ convert into each other |
| KanaConvert.ConversionExampleName | test/kana_convert_test.cpp:8 | the long hiragana name converts to its katakana form |
| KanaConvert.ConversionExampleNameBack | test/kana_convert_test.cpp:17 | the katakana name converts back |
| KanaConvert.ConversionExampleMixed | test/kana_convert_test.cpp:9 | in mixed text only the hiragana change; the kanji pass through |
| KanaConvert.ConversionExampleMixedBack | test/kana_convert_test.cpp:18 | in mixed text only the katakana change; the kanji pass through |
| KeyShapes.PartitionFacts | src/utils/jptools/kanji_utils.cpp:271-295 | the three partitions: kanji entries contain a kanji; kana entries are pure kana; the foreign entries are the rest |
| KeyPairs.Unpaired | src/utils/jptools/kanji_utils.cpp:263-269 | at the recursion limit every entry comes back alone in the kanji slot |
| KeyPairs.ReadingsOnly | src/utils/jptools/kanji_utils.cpp:297-300 | every foreign entry comes back alone in the reading slot, in order |
| KeyPairs.PairsWith | src/utils/jptools/kanji_utils.cpp:302-308 | every kanji entry is paired with the given reading, in order |
| KeyPairs.CrossPairs | src/utils/jptools/kanji_utils.cpp:331-337 | every ruru kana is paired with every ruru kanji, and nothing else is produced |
| KeyPairs.RuruEntries | src/utils/jptools/kanji_utils.cpp:310-330 | exactly the entries ending in るる |
| KeyPairs.Without | src/utils/jptools/kanji_utils.cpp:338-352 | the entries not in the removed list |
| KeyPairs.Unmatched | src/utils/jptools/kanji_utils.cpp:524-537 | the entries not in the matched set |
| KeyGroups.GroupIndex | src/utils/jptools/kanji_utils.cpp:367-385 | finds the group with the key, or there is none |
| KeyGroups.AddToGroups | src/utils/jptools/kanji_utils.cpp:367-385 | the entry joins the group of its residue key; earlier memberships are kept |
| KeyGroups.GroupByResidue | src/utils/jptools/kanji_utils.cpp:367-385 | every group holds only its own key's entries, and every kanji entry is in the group of its key |
| KeyPasses.ExactPass | src/utils/jptools/kanji_utils.cpp:391-402 | a group whose key is a kana entry has all its members paired with that kana |
| KeyPasses.ExactStep | src/utils/jptools/kanji_utils.cpp:391-402 | one group of the exact pass: its members are paired with the key when the key is a kana entry |
| KeyPasses.BestMatches | src/utils/jptools/kanji_utils.cpp:404-449 | the candidates are the unmatched members of the groups with the greatest common affix length at or above the minimum |
| KeyPasses.MatchByAffix | src/utils/jptools/kanji_utils.cpp:404-496 | one kana of the suffix or prefix pass: only pairs meeting the affix rule are added |
| KeyPasses.SimilarityPass | src/utils/jptools/kanji_utils.cpp:404-496 | the suffix pass (minimum 1) and the prefix pass (minimum 3) add only pairs meeting the affix rule |
| KeyPasses.FirstPlausible | src/utils/jptools/kanji_utils.cpp:498-522 | the first unmatched candidate ending in kanji that is a plausible reading, or there is none |
| KeyPasses.PlausiblePass | src/utils/jptools/kanji_utils.cpp:498-522 | the plausible pass adds only plausible pairs with unmatched kanji |
| KeyPasses.RunPasses | src/utils/jptools/kanji_utils.cpp:391-522 | a kanji entry whose residue is a kana entry is always paired with it |
| KeyMatcher.MatchKanaWithKanji | src/utils/jptools/kanji_utils.cpp:260-560 | every pair's slots hold input entries; every input entry appears in some pair; at the limit everything is unpaired; below it the branches' results |
| KeyMatcher.RuruBranch | src/utils/jptools/kanji_utils.cpp:310-364 | the ruru branch keeps the foreign pairs first and contains the full ruru cross product |
| KeyMatcher.GroupingBranch | src/utils/jptools/kanji_utils.cpp:367-559 | the grouping branch keeps the foreign pairs first and contains every pass's pairs |
| KeyBranches.SingleReading | src/utils/jptools/kanji_utils.cpp:302-308 | one reading: the foreign pairs, then every kanji entry paired with it |
| KeyMatcherProperties.ReadingsOnlyComeBackUnpaired | src/utils/jptools/kanji_utils.cpp:524-559 | entries that are all kana recurse to the limit and come back each alone in the kanji slot (the line-534 behaviour) |
| KeyMatcherProperties.RuruCrossProduct | src/utils/jptools/kanji_utils.cpp:331-337 | in the ruru branch, every ruru kana is paired with every ruru kanji in the final result |
| KeyMatcherProperties.ExactResidueMatch | src/utils/jptools/kanji_utils.cpp:391-402 | in the grouping branch, a kanji entry whose residue is a kana entry is paired with it in the final result |
| KeyMatcherProperties.SingleReadingPairsAll | src/utils/jptools/kanji_utils.cpp:297-308 | with exactly one reading, the result is the foreign pairs followed by every kanji paired with that reading |
| KeyMatcherExamples.SingleReadingExample | src/utils/jptools/kanji_utils.cpp:302-308 | 漢字 with かんじ gives the single pair |
| KeyMatcherExamples.KanaOnlyExample | src/utils/jptools/kanji_utils.cpp:524-559 | a lone kana entry comes back unpaired in the kanji slot |
| FileUtils.FileName | include/yomitan_dictionary_builder/utils/file_utils.h:143-166 | the last path component: a suffix of the path with no slash |
| FileUtils.Extension | include/yomitan_dictionary_builder/utils/file_utils.h:21-35 | the extension starts at the last dot and is a proper suffix of the name |
| FileUtils.XmlFiles | include/yomitan_dictionary_builder/utils/file_utils.h:21-35 | exactly the paths of the listed regular files with extension `.xml` |
| FileUtils.NewFileIterator | include/yomitan_dictionary_builder/utils/file_utils.h:21-35 | fails exactly when the directory does not exist; otherwise starts at 0 over the `.xml` files |
| FileUtils.GetNextBatch | include/yomitan_dictionary_builder/utils/file_utils.h:42-54 | returns the next at most `batchSize` files and advances the position by that many, stopping at the end |
| FileUtils.EmptyBatchNoProgress | include/yomitan_dictionary_builder/utils/file_utils.h:42-54 | a batch size of 0 returns nothing and does not move |
| FileUtils.Batches | include/yomitan_dictionary_builder/utils/file_utils.h:42-63 | draining the iterator yields non-empty batches no larger than the batch size |
| FileUtils.BatchesCoverFiles | include/yomitan_dictionary_builder/utils/file_utils.h:42-63 | the batches, concatenated, are exactly the remaining files in order |
| FileUtils.TermBankDigits | include/yomitan_dictionary_builder/utils/file_utils.h:143-166 | recognises exactly `term_bank_<digits>.json` |
| FileUtils.BankNumbers | include/yomitan_dictionary_builder/utils/file_utils.h:143-166 | the numbers of exactly the listed term banks |
| FileUtils.NextTermBankNumber | include/yomitan_dictionary_builder/utils/file_utils.h:143-166 | 1 for a missing folder; a bank number `stoi` cannot hold is exactly the failure; otherwise one more than the highest bank number, above every bank present, except that a highest number `INT_MAX` wraps to `INT_MIN`, and that happens exactly when a bank numbered `INT_MAX` is present |
| FileUtils.FirstBankIsOne | include/yomitan_dictionary_builder/utils/file_utils.h:143-166 | a folder without term banks gives bank 1 |
| FileUtils.UsernameFolder | include/yomitan_dictionary_builder/utils/file_utils.h:168-192 | none without a non-empty HOME name; otherwise the last component with an upper-cased first ASCII letter |
| HtmlContent.NewElement | src/core/dictionary/html_element.cpp:4 | a new element has its tag, no content, no href and no data |
| HtmlContent.NewElementWith | src/core/dictionary/html_element.cpp:6 | a new element with one content item |
| HtmlContent.NewElementWithAll | src/core/dictionary/html_element.cpp:8 | a new element with a list of content items |
| HtmlContent.AddContent | src/core/dictionary/html_element.cpp:10-24 | appends one item, creating the list when absent; tag, href and data unchanged |
| HtmlContent.AddContentsAppends | src/core/dictionary/html_element.cpp:10-24 | adding items one by one appends them in order |
| HtmlContent.SetHref | src/core/dictionary/html_element.cpp:26-29 | replaces the href; nothing else changes |
| HtmlContent.SetData | src/core/dictionary/html_element.cpp:31-34 | replaces the data map (no merge); nothing else changes |
| HtmlContent.CreateHtmlElement | src/core/dictionary/html_element.cpp:69-98 | fails exactly for the empty tag; otherwise carries the given tag, href, data and content |
| HtmlContent.ItemsTextAppend | src/core/dictionary/html_element.cpp:10-24 | the text of appended content is the concatenation of the texts |
| HtmlContent.ItemsAllowedAppend | src/core/dictionary/common.h:9-14 | a content list is all allowed exactly when both halves are |
| Entries.NewDicEntry | src/core/dictionary/dicentry.cpp:5-17 | an empty term is replaced by the reading, and the reading becomes empty |
| Entries.TermEmptyOnlyIfBoth | src/core/dictionary/dicentry.cpp:5-17 | the term is empty only when both term and reading were |
| Entries.ValidateElement | src/core/dictionary/dicentry.cpp:25-32 | a tag outside the allowed set is refused as unsupported |
| Entries.HrefGateIsDead | src/core/dictionary/dicentry.cpp:25-32 | an element is refused exactly when its tag is not allowed: the `href` name test never fires |
| Entries.NoAllowedTagNamesHref | src/core/dictionary/common.h:9-14 | no allowed tag name contains `href` |
| Entries.AddElement | src/core/dictionary/dicentry.cpp:19-23 | fails exactly for a disallowed tag; otherwise appends the element after the existing content |
| Entries.SetInfoTag | src/core/dictionary/dicentry.cpp:34-37 | sets the info tag; every other field unchanged |
| Entries.SetPosTag | src/core/dictionary/dicentry.cpp:39-42 | sets the part-of-speech tag; every other field unchanged |
| Entries.SetSearchRank | src/core/dictionary/dicentry.cpp:44-47 | sets the search rank; every other field unchanged |
| Entries.SetSequenceNumber | src/core/dictionary/dicentry.cpp:49-52 | sets the sequence number; every other field unchanged |
| Entries.ToList | src/core/dictionary/dicentry.cpp:74-92 | the row carries the fields in order, one structured-content map holding the elements, and an empty extra field |
| Entries.ToListInjective | src/core/dictionary/dicentry.cpp:74-92 | two entries give the same row exactly when they are equal |
| XmlParser.AttributeValue | src/core/xml_parser.cpp:111-113 | the value of the first attribute with the name, present exactly when such an attribute exists |
| XmlParser.LastWord | src/core/xml_parser.cpp:116-122 | the last whitespace-separated word, or empty when there is none |
| XmlParser.ClassList | src/core/xml_parser.cpp:109-127 | absent exactly when the class attribute is missing or empty; otherwise one class, the last word, without `-` |
| XmlParser.AttributeData | src/core/xml_parser.cpp:130-161 | the keys are exactly the kept attributes' names with `-` replaced; each keeps the first value |
| XmlParser.WithClasses | src/core/xml_parser.cpp:185-191 | every class becomes a key with the empty value; other keys keep their values |
| XmlParser.FirstMapped | src/core/xml_parser.cpp:38-103 | the mapping of the first selector that has one, or none when no selector is mapped |
| XmlParser.FirstMappedSkip | src/core/xml_parser.cpp:38-103 | unmapped selectors in front do not change the lookup |
| XmlParser.ParentSelectors | src/core/xml_parser.cpp:36-61 | the `parent.class tag` selectors, then `parent tag` last |
| XmlParser.OwnSelectors | src/core/xml_parser.cpp:82-100 | the `tag.class` selectors, then the bare tag last |
| XmlParser.GetTargetTag | src/core/xml_parser.cpp:16-106 | an allowed tag is kept; otherwise the result is a mapping value or `span` |
| XmlParser.NoSelectorsBareLookup | src/core/xml_parser.cpp:30 | without parent selectors in the table the parents are never consulted |
| XmlParser.DepthlessLookupStopsAtParent | src/core/xml_parser.cpp:69-78 | without a recursion depth only the direct parent is tried before the own selectors |
| XmlParser.ResolvedTag | src/core/xml_parser.cpp:171 | the tag a node resolves to, with the parent chain only when the table has parent selectors |
| XmlParser.Convert | src/core/xml_parser.cpp:164-196 | allowed tags are kept and others become `span` carrying the tag as a data key; a non-empty collected data map replaces that marker; no href |
| XmlParser.ConvertChildrenKept | src/core/xml_parser.cpp:198-214 | one item per non-empty text or CDATA child (its text as it stands) or element child (converted), in document order; other children are dropped |
| XmlParser.ConvertContent | src/core/xml_parser.cpp:198-216 | the converted element's content is exactly those items, and it has no content list when no child is kept |
| XmlParser.ConvertElement | src/core/xml_parser.cpp:166-167 | a null node gives no element; otherwise an element whose tags are all allowed |
| XmlParser.ConvertTagsAllowed | src/core/xml_parser.cpp:164-217 | every tag in a converted tree is in the allowed set |
| XmlParser.ChildrenTagsAllowed | src/core/xml_parser.cpp:198-214 | every tag in converted children is in the allowed set |
| XmlParser.ConvertKeepsText | src/core/xml_parser.cpp:164-243 | the text of the converted tree equals `getElementText` of the source node |
| XmlParser.ChildrenKeepText | src/core/xml_parser.cpp:198-243 | the same for a list of children |
| YomitanDictionary.NewDictionary | src/core/dictionary/yomitan_dictionary.cpp:11-19 | an empty dictionary with the given chunk size |
| YomitanDictionary.FlushChunk | src/core/dictionary/yomitan_dictionary.cpp:104-157 | an empty chunk succeeds without writing; a write appends exactly one bank and clears the chunk; a failure keeps the chunk; accepted entries are unchanged; a non-empty chunk is written exactly when the temp directory, the numbering, the file and the JSON all succeed; the written bank is named `term_bank_<n>.json` with `n` from the numbering of the folder |
| YomitanDictionary.NextBankNameIsNew | src/core/dictionary/yomitan_dictionary.cpp:120-122 | a bank the folder lists as a regular file, numbered 1 to `INT_MAX`, never has the name of the next bank |
| YomitanDictionary.FlushNameIsNew | src/core/dictionary/yomitan_dictionary.cpp:120-122 | when the file system lets the flush succeed and the folder lists every bank written so far, each numbered 1 to `INT_MAX`, the flush succeeds and writes under a name no earlier bank has |
| YomitanDictionary.BankNameRecognised | src/core/dictionary/yomitan_dictionary.cpp:120-124 | the file name of bank n is recognised as a bank, with number n |
| YomitanDictionary.NegativeBankNameUnrecognised | include/yomitan_dictionary_builder/utils/file_utils.h:151-161 | the file name of a negative bank number, such as the wrapped `INT_MIN`, is not recognised as a bank by the numbering |
| YomitanDictionary.AddEntry | src/core/dictionary/yomitan_dictionary.cpp:34-65 | a null entry is refused; otherwise the entry is accepted and counted, and the result is true exactly when the chunk stays below the chunk size or the flush it triggers succeeds; the chunk stays below the chunk size after a successful flush |
| YomitanDictionary.AddAllAccounts | src/core/dictionary/yomitan_dictionary.cpp:34-65 | after adding many entries, the accepted entries (written plus pending) are the old ones followed by the non-null new ones |
| YomitanDictionary.Destroy | src/core/dictionary/yomitan_dictionary.cpp:21-32 | the destructor writes no bank |
| YomitanDictionary.ExportDictionary | src/core/dictionary/yomitan_dictionary.cpp:278-300 | flush, then index, then move; each step runs only when the previous one succeeded; success exactly when the index and the requested move succeed |
| YomitanDictionary.IndexAuthor | src/core/dictionary/yomitan_dictionary.cpp:173 | the configured author, or the user-name folder when it is empty |
| YomitanParser.TaggedEntry | src/core/yomitan_parser.cpp:19-49 | term and reading as in the entry constructor; only non-empty tags are set; rank and sequence default to 0 |
| YomitanParser.ConvertedRoot | src/core/yomitan_parser.cpp:51-62 | no tree for a missing root; otherwise the converted root, all of whose tags are allowed |
| YomitanParser.ParseEntry | src/core/yomitan_parser.cpp:19-72 | a missing root adds nothing; otherwise the tagged entry with the converted tree is added to the dictionary |
| YomitanParser.AddConvertedTree | src/core/yomitan_parser.cpp:64-69 | attaching a converted tree never fails, and to an entry without content it becomes the one element |
| YomitanParser.ExportDictionary | src/core/yomitan_parser.cpp:75-85 | exports with term banks moved and keeps the accepted entries |
| IndexReader.KeysForFile | src/index/index_reader.cpp:8-15 | the keys stored for the file, or none |
| IndexReader.AddPages | src/index/index_reader.cpp:62-71 | the files after adding are the old ones and the listed pages |
| IndexReader.LoadIndex | src/index/index_reader.cpp:17-87 | a missing file fails and keeps the old map; an unopenable one fails and clears it; otherwise the map is built from the lines |
| IndexReader.Occurrences | src/index/index_reader.cpp:62-71 | a line's key, once per mention of the file; an empty field names no file |
| IndexReader.AddPagesLookup | src/index/index_reader.cpp:62-71 | the keys of a file after a line are the old keys followed by the line's mentions |
| IndexReader.AddLinesLookup | src/index/index_reader.cpp:36-75 | the keys of a file after many lines are the old keys followed by each line's mentions in order |
| IndexReader.LoadedKeys | src/index/index_reader.cpp:17-87 | after a successful load the keys of a file are exactly those of the lines listing it, in order |
| IndexReader.TwoPagesExample | test/index_reader_test.cpp:7-16 | a key listed on two pages is found from the second page |
| IndexReader.GroupedEntriesForPage | src/index/jukugo_index_reader.cpp:98-106 | the page's item map, or the empty map |
| IndexReader.PageItem | src/index/jukugo_index_reader.cpp:66-72 | a field without `-` parses as page and item both equal to its number; fails exactly when `stoi` does |
| IndexReader.ParseField | src/index/jukugo_index_reader.cpp:64-72 | an empty field is skipped; an unparsable one is rejected; otherwise page and item |
| IndexReader.ParseFields | src/index/jukugo_index_reader.cpp:62-74 | each field parsed in order |
| IndexReader.LoadJukugoIndex | src/index/jukugo_index_reader.cpp:17-95 | a missing file fails and keeps the old map; an unopenable one fails and clears it; otherwise the map is built from the lines |
| IndexReader.RejectedFieldEndsLine | src/index/jukugo_index_reader.cpp:60-80 | the first unparsable field abandons the rest of its line; earlier fields are kept |
| IndexReader.Mentions | src/index/jukugo_index_reader.cpp:62-74 | only the line's key is mentioned |
| IndexReader.AddItemsLookup | src/index/jukugo_index_reader.cpp:62-74 | the keys at a page and item after a line are the old keys followed by the line's mentions of that pair |
| IndexReader.NoDashExample | src/index/jukugo_index_reader.cpp:66-70 | the field `12` is page 12, item 12 |
| YdpParser.FirstHeadword | src/parsers/YDP/parser.cpp:52-61 | the first element named as a headword, or none |
| YdpParser.FindInIsFirstInPreorder | src/parsers/YDP/parser.cpp:52-61 | the XPath search returns the first headword in document order |
| YdpParser.ExtractHeadword | src/parsers/YDP/parser.cpp:52-61 | empty for a missing root; otherwise the text of the first headword |
| YdpParser.SkippedPairs | src/parsers/YDP/parser.cpp:23-43 | a pair is skipped exactly when its term falls back to empty while the reading is not empty |
| YdpParser.ProcessPairs | src/parsers/YDP/parser.cpp:23-43 | the returned count is at most one per call; nothing for a missing root; with a root, the count is every call when the calls fit in the chunk without a flush (they are then only buffered) or when every flush succeeds |
| YdpParser.ProcessPairsAccounts | src/parsers/YDP/parser.cpp:23-43 | the dictionary ends with one converted entry per call, in order, and the dictionary's entry count grows by the number of calls, whatever the flushes do |
| YdpParser.CallOutcome | src/parsers/YDP/parser.cpp:31-41 | with a root, one call returns true exactly when it triggers no flush or the flush succeeds; without a flush it only buffers its entry |
| YdpParser.FailedFlushNotCounted | src/parsers/YDP/parser.cpp:31-41 | a call whose flush fails adds nothing to the returned count while the dictionary's entry count still grows by one |
| YdpParser.CallStep | src/parsers/YDP/parser.cpp:25-41 | one pair's entry is the tagged entry with the converted page |
| YdpParser.ProcessFile | src/parsers/YDP/parser.cpp:7-49 | nothing for a missing root; the count never exceeds the number of matched pairs; with a root it is the number of calls the pairs make when those fit in the chunk or every flush succeeds |
| YdpParser.ProcessFileAccounts | src/parsers/YDP/parser.cpp:7-49 | the file adds, in order, one entry per non-skipped pair of the matched index keys and headword |
| KjtExtraction.DedupeFrom | src/strategies/key/kjt_extraction_strategy.cpp:165-180 | no duplicates; exactly the elements not already seen |
| KjtExtraction.RemoveDuplicates | src/strategies/key/kjt_extraction_strategy.cpp:165-180 | no duplicates, the same elements, and the first element first |
| KjtExtraction.RemoveDuplicatesKeepsFirsts | src/strategies/key/kjt_extraction_strategy.cpp:165-180 | de-duplication keeps the first occurrence of each element, in order |
| KjtExtraction.RemoveDuplicatesOfDistinct | src/strategies/key/kjt_extraction_strategy.cpp:165-180 | a list without duplicates is unchanged |
| KjtExtraction.ExtractReadingVariations | src/strategies/key/kjt_extraction_strategy.cpp:183-213 | one reading, without parentheses or spaces |
| KjtExtraction.CleanDropsSpan | src/strategies/key/kjt_extraction_strategy.cpp:183-213 | a parenthesised span is dropped, and the text around it is cleaned |
| KjtExtraction.CleanPlain | src/strategies/key/kjt_extraction_strategy.cpp:183-213 | without parentheses, cleaning only removes spaces |
| KjtExtraction.CleanIdempotent | src/strategies/key/kjt_extraction_strategy.cpp:183-213 | cleaning twice is cleaning once |
| KjtExtraction.Alternatives | src/strategies/key/kjt_extraction_strategy.cpp:79-117 | the prefix, the inside of the parentheses, and each remaining variation |
| KjtExtraction.Variations | src/strategies/key/kjt_extraction_strategy.cpp:39-118 | at least one variation, no duplicates, none containing the middle dot |
| KjtExtraction.PairVariants | src/strategies/key/kjt_extraction_strategy.cpp:79-117 | the with-parentheses and without-parentheses variants, de-duplicated, in order |
| KjtExtraction.ExtractVariations | src/strategies/key/kjt_extraction_strategy.cpp:39-118 | nothing when the headword has gaiji; otherwise at least one variation without duplicates or middle dots |
| KjtExtraction.DotSplitsVariants | src/strategies/key/kjt_extraction_strategy.cpp:50-63 | a middle dot splits the text, and the variations of both sides are joined without duplicates |
| KjtExtraction.UnpairedText | src/strategies/key/kjt_extraction_strategy.cpp:66-77 | without a pair of parentheses, the one variation is the text before the opening one |
| KjtExtraction.PairedText | src/strategies/key/kjt_extraction_strategy.cpp:79-117 | with a pair of parentheses, the variations are built from both readings of the span |
| KjtExtraction.FirstText | src/strategies/key/kjt_extraction_strategy.cpp:6-36 | the first text child, or none |
| KjtExtraction.ExtractKeys | src/strategies/key/kjt_extraction_strategy.cpp:6-36 | no keys without a root; otherwise the headword variations followed by the reading |
| KjtExtraction.ReadingComesLast | src/strategies/key/kjt_extraction_strategy.cpp:6-36 | when the reading is present, it is the last key |
| MdictLinks.SubItemFrom | include/yomitan_dictionary_builder/strategies/link/mdict_link_handling_strategy.h:7-9 | the sub-item pattern matches at some position |
| MdictLinks.DigitsAreNoSubItemLink | include/yomitan_dictionary_builder/strategies/link/mdict_link_handling_strategy.h:7-9 | a link of digits only is not a sub-item link |
| MdictLinks.FirstDigitRun | src/strategies/key/mdict_link_handling_strategy.cpp:147-164 | the first run of digits, empty exactly when there is no digit |
| MdictLinks.PageId | src/strategies/key/mdict_link_handling_strategy.cpp:147-164 | a non-negative 32-bit page number, or -1 |
| MdictLinks.PageIdReads | src/strategies/key/mdict_link_handling_strategy.cpp:147-164 | the page id is the value of the first digit run, or -1 when `stoi` overflows |
| MdictLinks.ExtractItemId | src/strategies/key/mdict_link_handling_strategy.cpp:108-144 | empty without a dash or with fewer than three characters after it; otherwise each character is a digit or `-` (the hex `stoi` accepts a sign) |
| MdictLinks.ItemIdOfHex | src/strategies/key/mdict_link_handling_strategy.cpp:108-144 | the last three hex digits, converted to decimal and padded to three |
| MdictLinks.SubItemHref | src/strategies/key/mdict_link_handling_strategy.cpp:80-85 | `entry://80` followed by the page id and the item id |
| MdictLinks.SubItemHrefOf | src/strategies/key/mdict_link_handling_strategy.cpp:80-144 | the href of a `page-…hhh` link, spelled out |
| MdictLinks.SubItemLinksDistinct | src/strategies/key/mdict_link_handling_strategy.cpp:80-144 | below item 1000, different page/item pairs give different hrefs |
| MdictLinks.AudioHref | src/strategies/key/mdict_link_handling_strategy.cpp:38-47 | `sound://` followed by the link, with `audio/` inserted when missing |
| MdictLinks.FirstJapanese | src/strategies/key/mdict_link_handling_strategy.cpp:50-77 | the first kanji or kana position, or none |
| MdictLinks.AppendixHref | src/strategies/key/mdict_link_handling_strategy.cpp:50-77 | empty without `.html` or without Japanese before it; otherwise the appendix entry href |
| MdictLinks.InternalHref | src/strategies/key/mdict_link_handling_strategy.cpp:88-105 | non-empty exactly for digits, or digits before the first dash; then `entry://` and the page id |
| MdictLinks.InternalHrefOfDigitsDash | src/strategies/key/mdict_link_handling_strategy.cpp:88-105 | `digits-…` goes to the page of the digits |
| MdictLinks.RouteOf | src/strategies/key/mdict_link_handling_strategy.cpp:14-35 | appendix first, then sub-item, then audio, then internal |
| MdictLinks.NewHref | src/strategies/key/mdict_link_handling_strategy.cpp:14-35 | empty, `entry://` or `sound://`; each route takes its own href: sub-item, internal, appendix and audio |
| MdictLinks.SoundOnlyForAudio | src/strategies/key/mdict_link_handling_strategy.cpp:14-47 | a `sound://` href comes exactly from the audio route |
| MdictLinks.NdsNewHref | src/strategies/link/nds_link_extraction_strategy.cpp:11-28 | sub-item links as in MDict; digits become `entry://` links; anything else is empty |
| MdictLinks.DigitsHref | src/strategies/link/nds_link_extraction_strategy.cpp:11-28 | empty exactly for a non-digit link |
| MdictLinks.NdsKeepsDigits | src/strategies/link/nds_link_extraction_strategy.cpp:11-28 | NDS keeps the digits verbatim, while MDict re-prints the parsed page id |
| MdictLinks.StrategiesAgreeOnPages | src/strategies/link/nds_link_extraction_strategy.cpp:11-28 | for a canonical page number both strategies give the same href |
| MdictLinks.EmptyPageExample | src/strategies/key/mdict_link_handling_strategy.cpp:88-105 | `-001` goes to `entry://-1`, because the page id of an empty digit run is -1 |
| MdictLinks.NdsEmptyExample | src/strategies/link/nds_link_extraction_strategy.cpp:11-28 | the empty link counts as digits and gives `entry://` |
| SubItems.LocatedNodesArePreorder | src/parsers/MDict/subitem_processor.cpp:15-24 | the XPath search visits the nodes in document order |
| SubItems.SubItemNodes | src/parsers/MDict/subitem_processor.cpp:15-24 | exactly the elements named after the sub-item element, in document order (the preorder of the tree filtered by that name), each with its true ancestors |
| SubItems.FirstChildNamed | src/parsers/MDict/subitem_processor.cpp:73-91 | the first child with the name, or none |
| SubItems.HeadContent | src/parsers/MDict/subitem_processor.cpp:73-91 | empty, or a `<head>` … `</head>` block |
| SubItems.ParentTags | src/parsers/MDict/subitem_processor.cpp:94-102 | the non-empty names of the ancestors, nearest first, taken only up to the first ancestor that is not an element |
| SubItems.NamesOfRun | src/parsers/MDict/subitem_processor.cpp:94-102 | the names of a run of element ancestors are the first one's name, then the names of the run of the rest |
| SubItems.ParentTagsFromElements | src/parsers/MDict/subitem_processor.cpp:94-102 | every tag is the non-empty name of an element ancestor before the first ancestor that is not an element |
| SubItems.ShellNests | src/parsers/MDict/subitem_processor.cpp:105-125 | prefix, content and suffix nest the content inside the ancestor tags |
| SubItems.WrapContent | src/parsers/MDict/subitem_processor.cpp:132-143 | the shell prefix, then exactly the serialised children of the sub-item, then the shell suffix |
| SubItems.FirstShellNests | src/parsers/MDict/subitem_processor.cpp:65-143 | the first sub-item is wrapped in its own ancestors |
| SubItems.ItemStep | src/parsers/MDict/subitem_processor.cpp:24-53 | an item without `id` is skipped; an item is skipped exactly when its id parses and its number has no keys; an id that `stoi` rejects ends the loop; an entry is added exactly when the item has keys, its entry id parses and the exporter is open, and it is the item's entry: entry id, the item's keys, wrapped content |
| SubItems.ItemStepShell | src/parsers/MDict/subitem_processor.cpp:38-39 | a keyed item that finds no shell builds it from itself |
| SubItems.ProcessItems | src/parsers/MDict/subitem_processor.cpp:15-62 | no more entries are counted than there are sub-items; the sub-item element name is kept; the shell, once built, is never rebuilt |
| SubItems.ProcessItemsAdds | src/parsers/MDict/subitem_processor.cpp:41-52 | exactly as many entries as counted are appended after the existing ones, each content starting with the shell prefix and ending with its suffix; their ids, keys and whole content are those of `ProcessItemsEntries` |
| SubItems.ProcessItemsEntries | src/parsers/MDict/subitem_processor.cpp:15-62 | with an open exporter and a built shell, the added entries are the first entries of the keyed sub-items, in document order |
| SubItems.ProcessItemsComplete | src/parsers/MDict/subitem_processor.cpp:15-62 | when no id is rejected, every keyed sub-item adds its entry; with no shell built, no sub-item has keys |
| SubItems.ProcessItemsShell | src/parsers/MDict/subitem_processor.cpp:38-39 | a shell built by the loop is the shell of the first sub-item with keys |
| SubItems.ProcessSubItems | src/parsers/MDict/subitem_processor.cpp:15-62 | no sub-item element name, nothing; written output unchanged; the added entries are the entries of the keyed sub-items in document order, all of them when no id is rejected, each wrapped in the shell of the first keyed sub-item |
| SubItems.ProcessItemsKeepsOutput | src/parsers/MDict/subitem_processor.cpp:15-62 | processing sub-items writes nothing to the output file |
| SubItems.NoKeysNoEntries | src/parsers/MDict/subitem_processor.cpp:32-36 | a page without jukugo keys adds no entry |
| SubItems.EntryIdDigits | src/parsers/MDict/subitem_processor.cpp:44 | the entry id is the number spelled `80`, page, item |
| SubItems.LinksReachSubItems | src/parsers/MDict/subitem_processor.cpp:44 | the href a sub-item link is rewritten to names the entry id its target is stored under |
| MdictParser.InitializeProcessing | src/parsers/MDict/mdict_parser.cpp:26-39 | fails without an output path, or when the directory or file cannot be created; otherwise a fresh exporter |
| MdictParser.SetFirst | src/parsers/MDict/mdict_parser.cpp:171 | `set_value` on the first `href`: only that attribute becomes the new one and every other stays in place; absent, nothing changes |
| MdictParser.RemoveFirst | src/parsers/MDict/mdict_parser.cpp:190 | `remove_attribute` drops exactly the first attribute with the name, the others keep their order; absent, nothing changes |
| MdictParser.RewriteOne | src/parsers/MDict/mdict_parser.cpp:131-204 | a link that is not rewritable is unchanged; otherwise its href is rewritten, removed or wrapped |
| MdictParser.RewriteKeepsNodeText | src/parsers/MDict/mdict_parser.cpp:131-204 | link rewriting keeps the text of a node |
| MdictParser.RewriteKeepsText | src/parsers/MDict/mdict_parser.cpp:131-204 | link rewriting keeps the text of a page |
| MdictParser.NothingToRewrite | src/parsers/MDict/mdict_parser.cpp:131-204 | a page without rewritable links is unchanged |
| MdictParser.NdsLinksAreKept | src/parsers/MDict/mdict_parser.cpp:154-159 | an NDS rewrite yields a kept href, so a second pass leaves the link alone |
| MdictParser.RemoveNamedLeavesNone | src/parsers/MDict/mdict_parser.cpp:97-98 | no `SubItemG` element is left |
| MdictParser.RemoveNamedNoneIsIdentity | src/parsers/MDict/mdict_parser.cpp:97-98 | a page without `SubItemG` is unchanged |
| MdictParser.RemoveSubItemGroups | src/parsers/MDict/mdict_parser.cpp:97-98 | the document has no `SubItemG` element left |
| MdictParser.PageKeys | src/parsers/MDict/mdict_parser.cpp:86-90 | the index keys of the page, or the extracted keys when the index has none |
| MdictParser.ProcessFile | src/parsers/MDict/mdict_parser.cpp:72-115 | a file that does not load counts 0; nothing is written; a throw requires a finalised exporter; a page with empty content counts 0 and keeps only its sub-item entries |
| MdictParser.ProcessFileAddsPage | src/parsers/MDict/mdict_parser.cpp:72-112 | a page with content adds the sub-item entries, then one entry for the page with its id, keys and content |
| MdictParser.FinalizeProcessing | src/parsers/MDict/mdict_parser.cpp:42-69 | an exporter not yet finalised writes the source text of all its entries after the earlier output and empties the buffer; a finalised one is left alone; the result is finalised exactly when it was already or the conversion succeeds, and the flag reports that; entries and sub-item state are kept |
| MdictExporter.NewExporter | src/parsers/MDict/mdict_exporter.cpp:6-37 | no entries, no buffer, no output, zero statistics, not finalised |
| MdictExporter.AddEntry | src/parsers/MDict/mdict_exporter.cpp:60-70 | refused after finalisation; otherwise the entry is appended and the statistics count it and its keys |
| MdictExporter.AddEntryKeepsStats | src/parsers/MDict/mdict_exporter.cpp:60-70 | the statistics keep counting the entries and their keys |
| MdictExporter.FlushBuffer | src/parsers/MDict/mdict_exporter.cpp:207-223 | the buffer moves to the output: the text written so far is unchanged |
| MdictExporter.Append | src/parsers/MDict/mdict_exporter.cpp:99-122 | the record is added to the text written so far, and the buffer stays within 2 MiB |
| MdictExporter.ContentRecord | src/parsers/MDict/mdict_exporter.cpp:99-122 | a record starts with the page id line and ends with `</>` |
| MdictExporter.WriteContentSection | src/parsers/MDict/mdict_exporter.cpp:99-122 | writes one content record per entry, in order, and flushes |
| MdictExporter.KeyRecord | src/parsers/MDict/mdict_exporter.cpp:125-156 | a link record: key, `@@@LINK=`, page id, end marker |
| MdictExporter.WriteHiraganaKeys | src/parsers/MDict/mdict_exporter.cpp:134-156 | writes the hiragana-mode link records of one entry |
| MdictExporter.WidenedChar | src/parsers/MDict/mdict_exporter.cpp:159-184 | a byte widened as a signed char: ASCII unchanged, high bytes wrap to near 2^32 |
| MdictExporter.NoByteIsKatakana | src/parsers/MDict/mdict_exporter.cpp:159-184 | no widened byte is a katakana code point |
| MdictExporter.KatakanaPassWritesNothing | src/parsers/MDict/mdict_exporter.cpp:159-184 | the katakana pass writes no record |
| MdictExporter.KeySectionIsHiragana | src/parsers/MDict/mdict_exporter.cpp:125-189 | the key section is exactly the hiragana link records |
| MdictExporter.WriteKeySection | src/parsers/MDict/mdict_exporter.cpp:125-189 | writes the key records of every entry and flushes |
| MdictExporter.SourceTextIsContentThenLinks | src/parsers/MDict/mdict_exporter.cpp:73-96 | the source text is the content records followed by the link records |
| MdictExporter.Finalize | src/parsers/MDict/mdict_exporter.cpp:73-96 | a finalised exporter is left alone; otherwise the source text is written; the flag is set only when conversion succeeds |
| MdictExporter.Destroy | src/parsers/MDict/mdict_exporter.cpp:39-57 | the destructor finalises an exporter that is not yet finalised |
| MdictExporter.AddAllThenFinalize | src/parsers/MDict/mdict_exporter.cpp:60-96 | adding entries and finalising writes exactly their source text |
| MdictExporter.AddAllKeeps | src/parsers/MDict/mdict_exporter.cpp:60-70 | adding many entries appends them and keeps the statistics in step |
| MdictExporter.FinalizedIsFinal | src/parsers/MDict/mdict_exporter.cpp:62-75 | once finalised, further finalising and adding change nothing |
| MdictExporter.RetryWritesTwice | src/parsers/MDict/mdict_exporter.cpp:73-96 | a finalisation that fails and is retried writes the source text twice |
| ConfigLoader.Unquote | src/config/config_loader.cpp:102-169 | surrounding double quotes are stripped, otherwise the value is kept |
| ConfigLoader.ValueOf | src/config/config_loader.cpp:47-169 | the text two characters after the first colon, unquoted; missing exactly when the line is too short |
| ConfigLoader.ReadInt | src/config/config_loader.cpp:102-169 | succeeds exactly when `stoi` does, with its value |
| ConfigLoader.ReadSize | src/config/config_loader.cpp:102-169 | succeeds exactly when `stol` does; the value wraps modulo 2^64 into `size_t` |
| ConfigLoader.Clean | src/config/config_loader.cpp:183-207 | drops whitespace and quotes; a plain item is unchanged |
| ConfigLoader.CleanItems | src/config/config_loader.cpp:183-207 | exactly the non-empty cleaned items |
| ConfigLoader.ParseSimpleSet | src/config/config_loader.cpp:185-207 | empty without braces; with them, exactly the non-empty cleaned comma-separated items; every member is a plain item |
| ConfigLoader.SimpleSetRoundTrip | src/config/config_loader.cpp:183-207 | a braced, comma-joined list of plain items parses back to exactly its items |
| ConfigLoader.GeneralProperty | src/config/config_loader.cpp:47-68 | changes only the defaults: `author`, `showProgress` and `parsingBatchSize` each set their default; unknown keys change nothing; only a batch size that is not a number fails |
| ConfigLoader.YomitanProperty | src/config/config_loader.cpp:102-169 | `title` sets the title; only `format` and `chunk_size` can fail |
| ConfigLoader.ParserProperty | src/config/config_loader.cpp:139-168 | never changes the dictionary type; `ignoredElements` is parsed as a set; unknown keys change nothing; only a batch size that is not a number fails |
| ConfigLoader.DictionaryProperty | src/config/config_loader.cpp:101-169 | a property changes only the current dictionary, by the section's property function, and every other dictionary stays as it was; outside a section it is ignored |
| ConfigLoader.LoadFromFile | src/config/config_loader.cpp:12-15 | a file that does not open fails |
| ConfigLoader.GetDictionaryInfo | src/config/config_loader.cpp:175-182 | the entry for a configured name, or the not-found error |
| ConfigLoader.StepAtName | src/config/config_loader.cpp:71-83 | a two-space entry line starts a dictionary of that name |
| ConfigLoader.StepAtGeneral | src/config/config_loader.cpp:47-68 | a two-space entry line in the general section is a general property |
| ConfigLoader.StepAtHeader | src/config/config_loader.cpp:86-99 | a four-space entry line below a dictionary selects a section by name; before any dictionary it is ignored |
| ConfigLoader.StepAtProperty | src/config/config_loader.cpp:102-169 | a six-space entry line is a property of the current dictionary |
| ConfigLoader.DictionaryPropertyConsistent | src/config/config_loader.cpp:102-169 | a property keeps every dictionary's type equal to its name |
| ConfigLoader.StepConsistent | src/config/config_loader.cpp:29-169 | every line keeps every dictionary's type equal to its name |
| ConfigLoader.LinesConsistent | src/config/config_loader.cpp:7-172 | the whole file keeps every dictionary's type equal to its name |
| ConfigLoader.LoadedTypesAreNames | src/config/config_loader.cpp:71-83 | every loaded dictionary's parser type is its own name |
| ConfigLoader.CommentsIgnored | src/config/config_loader.cpp:29-31 | an empty or comment line changes nothing |
| ConfigLoader.DictionaryLine | src/config/config_loader.cpp:71-83 | `  name:` creates the dictionary with default settings and makes it current |
| ConfigLoader.TitleLine | src/config/config_loader.cpp:102-169 | `      title: v` sets the current dictionary's title to v |
| ConfigLoader.KeyLineShape | src/config/config_loader.cpp:47-52 | an indented `key:` line has its first colon right after the key and is indented by exactly that much |
| ConfigLoader.GeneralHeaderLine | src/config/config_loader.cpp:34-38 | `general:` selects the general section and clears the current dictionary |
| ConfigLoader.DictionariesHeaderLine | src/config/config_loader.cpp:41-44 | `dictionaries:` leaves every section and keeps the current dictionary |
| ConfigLoader.GeneralPropertyLine | src/config/config_loader.cpp:47-68 | `  key: v` in the general section applies the general property with v unquoted |
| ConfigLoader.SectionHeaderLine | src/config/config_loader.cpp:86-99 | `    YomitanDictionaryConfig:` and `    ParserConfig:` select their sections below a dictionary, any other name leaves both; ignored before any dictionary |
| ConfigLoader.Step | src/config/config_loader.cpp:29-169 | a blank or comment line changes nothing; no line removes a dictionary |
| ConfigLoader.Lines | src/config/config_loader.cpp:26-170 | no dictionary is removed while the file is read |
| ConfigLoader.LinesAppend | src/config/config_loader.cpp:26-170 | reading two runs of lines one after the other is reading their concatenation |

## Left out

- Console output, progress bars, timing, thread-local buffers and the
  batch-size logging are left out: none of them affects a result.
- pugixml is not part of this model. The XML document is an immutable tree,
  `XNode` (kind, name, attributes, value, children). An XPath `//name` search
  is a preorder filter. Serialisation and saving are function parameters.
- The key normaliser used by the YDP parser, the jukugo `extractKeys` of the
  MDict parser, and the resolution of configured paths (`resolve`) come from
  code that is not part of this model; they are function parameters.
- `shouldAddGaiji` is a parameter (`hasGaiji`): it reads the gaiji image
  table, which is not part of this model.
- The UTF-8 encoder that `writeKeySection` applies to each key is a
  parameter (`utf8`).
- Asset copying, `writeTitleFile`, the `mdict` command run by
  `runMdictConvert`, `moveTermBanksToOutput` and the index JSON itself are
  file-system effects. They are modelled as success flags (`ExportIo`,
  `convertOk`). Their file contents are not modelled.
- Hash-map iteration order in `matchKanaWithKanji` (the kanji groups) is
  unspecified in the source. The model takes the order in which each group
  key first occurs.
- The length thresholds of the affix passes count code points, as the
  source does on its UTF-32 strings.
- `loadTagMapping` (JSON parsing of the tag mapping) is left out. The mapping
  is a `map<string, string>` parameter; `HasParentSelectors` recomputes the
  dot/space test from it.
- The static XPath of the sub-item processor is built once, from the
  sub-item element name of the first processor. The model keeps one
  processor per run, so a second name is not modelled.
- An XPath built from an invalid element name is modelled only for the empty
  name, which adds nothing.
- CR-LF line endings in the configuration and index files are not handled
  specially, as in the source.
- MdictLinks.SubItemLinksDistinct: distinctness is stated only below item
  1000. A four-digit item id makes `80<page><item>` ambiguous. For example,
  page 1 item 2345 and page 12 item 345 both give `entry://8012345`.
- MdictLinks.AppendixPrefix: the separator between the appendix name and the
  page is written as the source's mis-decoded bytes (`ï¼š`), not as the
  full-width colon that was evidently meant.
- MdictLinks.NewHref: the source's branch for a link element without a
  parent cannot be reached from `processAllLinkElements`, so it is not
  modelled.
- MdictParser.ProcessFile: a page whose serialised content is empty returns
  0 but still keeps the sub-item entries added before the check, as in the
  source. A page id of -1 makes every sub-item id of that page `stol` of
  `80-1…`, which is 80.
- MdictExporter.AddEntry: adding to a finalised exporter is modelled as a
  `false` flag, and the caller's outcome as `Threw`, rather than as a C++
  exception.
- IndexReader.LoadJukugoIndex: a field that `stoi` rejects abandons the rest
  of its line, as the try block around the whole line does.
- FileUtils.NextTermBankNumber: `maxNumber + 1` on a largest bank number
  `INT_MAX` is signed overflow, which C++ leaves undefined. The model takes
  the two's-complement wrap to `INT_MIN`, so it promises a result of at least
  1 only when no bank numbered `INT_MAX` is present. The intended name of the
  flush's bank is then `term_bank_-2147483648.json`, which the numbering does
  not recognise (`NegativeBankNameUnrecognised`).
- YomitanDictionary.FlushChunk: the source keeps the bank's file name in a
  `std::string_view` bound to a temporary string, which is destroyed at the
  end of that declaration (src/core/dictionary/yomitan_dictionary.cpp:121).
  The path built on the next line therefore reads freed memory. The model
  gives the bank the intended name, `term_bank_<n>.json`.
- YdpParser.ProcessPairs: the returned count is stated only for calls that
  trigger no flush or whose flushes all succeed. When a flush fails the
  count depends on where the chunk boundaries fall, and only the bound and
  `FailedFlushNotCounted` are stated.
- YdpParser.ProcessFile: the same gap as `ProcessPairs`. The count is
  stated only when the calls trigger no flush or every flush succeeds.
  Otherwise it depends on where the chunk boundaries fall, and only the
  bound is stated.
- YomitanDictionary.Destroy: the destructor's flush runs only when the
  current chunk is empty, as written, so pending entries are lost.
- ConfigLoader.LoadFromFile: only the open failure and the consistency of
  the loaded types are stated for the whole file. Each line is covered by
  its own lemma: `CommentsIgnored`, `GeneralHeaderLine`,
  `DictionariesHeaderLine`, `GeneralPropertyLine`, `DictionaryLine`,
  `SectionHeaderLine` and `TitleLine`, with the general forms `StepAtGeneral`,
  `StepAtName`, `StepAtHeader` and `StepAtProperty`. `LinesAppend` composes
  runs of lines.
- MdictLinks.ExtractItemId: the three characters after the dash are
  counted as characters, while the source's `substr` counts UTF-8 bytes. The
  two differ only when the id ends in non-ASCII characters. For example, for
  `1-4aé` the source takes `a` and the two bytes of `é`, and `stoi` reads
  `a`, which gives `010`. The model takes `4aé` and reads `4a`, which gives
  `074`.
- MdictExporter.Append: the 1 MiB flush threshold and the 2 MiB buffer
  bound count the characters of the model's strings, while the source
  counts the bytes of its UTF-8 strings.

=== FILE: config_loader.dfy ===
/** The configuration loader (`ConfigLoader`): a small indentation-based
    YAML subset read line by line into one pair of configurations per
    dictionary.

    Reading the file is not part of this model: it is the outcome `fileOpen`
    and the sequence of its lines.  Paths are resolved against the parent
    of the working directory by the parameter `resolve`.
 */
module ConfigLoader {
  import opened Wrappers
  import opened Text
  import opened Numbers

  const TWO_SPACES: string := "  "
  const FOUR_SPACES: string := "    "
  const SIX_SPACES: string := "      "
  const EIGHT_SPACES: string := "        "

  /** `size_t` is 64 bits wide. */
  const SIZE_MODULUS: int := 0x1_0000_0000_0000_0000

  datatype YomitanConfig = YomitanConfig(
    title: string, author: string, url: string, description: string, attribution: string,
    revision: string, format: int, chunkSize: nat, formatPretty: bool, tempDir: Option<string>)

  /** The defaults of `YomitanDictionaryConfig`. */
  function DefaultYomitanConfig(): YomitanConfig {
    YomitanConfig("", "", "", "", "", "", 3, 10000, true, None)
  }

  datatype ParserConfig = ParserConfig(
    dictionaryType: string, linkStrategyType: string, imageStrategyType: string,
    dictionaryPath: string, tagMappingPath: Option<string>, indexPath: Option<string>,
    jmdictPath: Option<string>, audioPath: Option<string>, appendixPath: Option<string>,
    ignoredElements: Option<set<string>>, expressionElement: Option<string>,
    parseAllLinks: bool, showProgress: bool, parsingBatchSize: int)

  /** The defaults of `ParserConfig`. */
  function DefaultParserConfig(): ParserConfig {
    ParserConfig("", "default", "default", "", None, None, None, None, None, None, None, false, false, 250)
  }

  datatype ConfigPair = ConfigPair(yomitan: YomitanConfig, parser: ParserConfig)

  datatype Section = NoSection | GeneralSection | YomitanSection | ParserSection

  /** The loop's variables: the section, the current dictionary, the
      defaults gathered from the general section, and the map built. */
  datatype LoadState = LoadState(
    section: Section, currentDict: string,
    defaultYomitan: YomitanConfig, defaultParser: ParserConfig,
    dictionaries: map<string, ConfigPair>)

  /** The exceptions that escape `loadFromFile`: the file does not open, a
      property line ends in its colon (`substr` past the end), or a number
      does not parse or fit. */
  datatype LoadError = CannotOpen | MissingValue | BadNumber(error: ParseError)

  function InitialState(): LoadState {
    LoadState(NoSection, "", DefaultYomitanConfig(), DefaultParserConfig(), map[])
  }

  // ---------------------------------------------------------------------
  // Line shapes

  /** Indented by exactly `indent` (a line of `indent` spaces not followed
      by two more), as the `starts_with` pairs test it. */
  predicate IndentedBy(line: string, indent: string, deeper: string) {
    StartsWith(line, indent) && !StartsWith(line, deeper)
  }

  /** A line of that indentation with a colon somewhere. */
  predicate Entry(line: string, indent: string, deeper: string) {
    IndentedBy(line, indent, deeper) && ':' in line
  }

  /** The double quotes around a value removed, if both are there. */
  function Unquote(v: string): (r: string)
    ensures |v| >= 2 && v[0] == '"' && v[|v| - 1] == '"' ==> r == v[1..|v| - 1]
    ensures !(|v| >= 2 && v[0] == '"' && v[|v| - 1] == '"') ==> r == v
  {
    if |v| >= 2 && v[0] == '"' && v[|v| - 1] == '"' then v[1..|v| - 1] else v
  }

  /** The key between the indentation and the first colon. */
  function KeyOf(line: string, indent: nat): (r: string)
    requires ':' in line && indent <= Find(line, ':').value
  {
    line[indent..Find(line, ':').value]
  }

  /** `substr(colonPos + 2)` with the quotes removed; it throws when the
      colon is the last character. */
  function ValueOf(line: string): (r: Result<string, LoadError>)
    requires ':' in line
    ensures r.Failure? <==> Find(line, ':').value + 2 > |line|
    ensures r.Success? ==> r.value == Unquote(line[Find(line, ':').value + 2..])
  {
    var colon := Find(line, ':').value;
    if colon + 2 > |line| then Failure(MissingValue) else Success(Unquote(line[colon + 2..]))
  }

  /** A colon of an indented line lies after its indentation. */
  lemma ColonAfterIndent(line: string, indent: string)
    requires StartsWith(line, indent) && ':' in line
    requires forall i :: 0 <= i < |indent| ==> indent[i] == ' '
    ensures |indent| <= Find(line, ':').value
  {
    forall j | 0 <= j < |indent| ensures line[j] != ':' {
      assert line[j] == line[..|indent|][j] == indent[j];
    }
  }

  // ---------------------------------------------------------------------
  // Numbers and sets

  /** `std::stoi`, its failure an escaping exception. */
  function ReadInt(v: string): (r: Result<int, LoadError>)
    ensures r.Success? <==> StoI(v).Success?
    ensures r.Success? ==> r.value == StoI(v).value
  {
    match StoI(v)
    case Success(n) => Success(n)
    case Failure(e) => Failure(BadNumber(e))
  }

  /** `std::stol` stored in a `size_t`: a negative value wraps around. */
  function ReadSize(v: string): (r: Result<nat, LoadError>)
    ensures r.Success? <==> StoL(v).Success?
    ensures r.Success? ==> r.value < SIZE_MODULUS && r.value % SIZE_MODULUS == StoL(v).value % SIZE_MODULUS
  {
    match StoL(v)
    case Success(n) => Success(if n < 0 then n + SIZE_MODULUS else n)
    case Failure(e) => Failure(BadNumber(e))
  }

  /** An item of a set display: non-empty, no comma, no white space, no
      quote. */
  predicate PlainItem(x: string) {
    x != "" && ',' !in x && forall i :: 0 <= i < |x| ==> !IsCSpace(x[i]) && x[i] != '"'
  }

  /** An item with white space and double quotes erased. */
  function Clean(item: string): (r: string)
    ensures forall c :: c in r ==> c in item && !IsCSpace(c) && c != '"'
    ensures (forall i :: 0 <= i < |item| ==> !IsCSpace(item[i]) && item[i] != '"') ==> r == item
  {
    if |item| == 0 then ""
    else if IsCSpace(item[0]) || item[0] == '"' then Clean(item[1..])
    else [item[0]] + Clean(item[1..])
  }

  /** The items cleaned, in order. */
  function Cleaned(items: seq<string>): (r: seq<string>)
    ensures |r| == |items|
  {
    if |items| == 0 then [] else [Clean(items[0])] + Cleaned(items[1..])
  }

  /** Plain items are their own cleaned form. */
  lemma {:induction false} CleanedPlain(items: seq<string>)
    requires forall i :: 0 <= i < |items| ==> PlainItem(items[i])
    ensures Cleaned(items) == items
    decreases |items|
  {
    if |items| > 0 {
      CleanedPlain(items[1..]);
    }
  }

  /** The non-empty cleaned items, as a set. */
  function CleanItems(items: seq<string>): (r: set<string>)
    ensures forall x :: x in r <==> x != "" && x in Cleaned(items)
  {
    if |items| == 0 then {}
    else (if Clean(items[0]) != "" then {Clean(items[0])} else {}) + CleanItems(items[1..])
  }

  /** `parseSimpleSet`: "{a, b, ...}" to its set of non-empty items, white
      space and quotes erased; anything not in braces gives the empty set.
      A trailing empty item, which `getline` does not produce, is dropped
      either way. */
  function ParseSimpleSet(input: string): (r: set<string>)
    ensures !(|input| >= 2 && input[0] == '{' && input[|input| - 1] == '}') ==> r == {}
    ensures |input| >= 2 && input[0] == '{' && input[|input| - 1] == '}' ==>
              forall x :: x in r <==> x != "" && x in Cleaned(Split(input[1..|input| - 1], ','))
    ensures forall x :: x in r ==> PlainItem(x)
  {
    if |input| < 2 || input[0] != '{' || input[|input| - 1] != '}' then {}
    else
      var pieces := Split(input[1..|input| - 1], ',');
      CleanedArePlain(pieces);
      CleanItems(pieces)
  }

  /** Cleaning comma-free items leaves no comma, white space or quote. */
  lemma {:induction false} CleanedArePlain(items: seq<string>)
    requires forall i :: 0 <= i < |items| ==> ',' !in items[i]
    ensures forall x :: x in Cleaned(items) && x != "" ==> PlainItem(x)
    decreases |items|
  {
    if |items| > 0 {
      CleanedArePlain(items[1..]);
      var x := Clean(items[0]);
      assert forall i :: 0 <= i < |x| ==> x[i] in x;
    }
  }

  /** Printing plain items as "{a,b,...}" and parsing gives them back as a
      set. */
  lemma SimpleSetRoundTrip(items: seq<string>)
    requires |items| >= 1 && forall i :: 0 <= i < |items| ==> PlainItem(items[i])
    ensures forall x :: x in ParseSimpleSet("{" + Join(items, ",") + "}") <==> x in items
  {
    var body := Join(items, ",");
    var input := "{" + body + "}";
    assert Split(input[1..|input| - 1], ',') == items by {
      assert input[1..|input| - 1] == body;
      assert forall i :: 0 <= i < |items| ==> ',' !in items[i];
      SplitJoin(items, ',');
    }
    assert Cleaned(items) == items by {
      CleanedPlain(items);
    }
    assert forall x :: x in items ==> x != "";
  }

  // ---------------------------------------------------------------------
  // Properties

  /** A property of the general section, into the defaults; unknown keys
      are ignored, and only a batch size that is not a number throws. */
  function GeneralProperty(st: LoadState, key: string, value: string): (r: Result<LoadState, LoadError>)
    ensures r.Success? ==> r.value.dictionaries == st.dictionaries && r.value.currentDict == st.currentDict
    ensures r.Success? ==> r.value.section == st.section
    ensures r.Success? ==> r.value.defaultParser.dictionaryType == st.defaultParser.dictionaryType
    ensures r.Failure? <==> key == "parsingBatchSize" && StoI(value).Failure?
    ensures key == "author" ==> r == Success(st.(defaultYomitan := st.defaultYomitan.(author := value)))
    ensures key == "showProgress" ==>
              r == Success(st.(defaultParser := st.defaultParser.(showProgress := value == "true")))
    ensures key == "parsingBatchSize" && r.Success? ==>
              r.value == st.(defaultParser := st.defaultParser.(parsingBatchSize := StoI(value).value))
    ensures key !in {"author", "showProgress", "parsingBatchSize"} ==> r == Success(st)
  {
    if key == "author" then Success(st.(defaultYomitan := st.defaultYomitan.(author := value)))
    else if key == "showProgress" then Success(st.(defaultParser := st.defaultParser.(showProgress := value == "true")))
    else if key == "parsingBatchSize" then
      match ReadInt(value)
      case Failure(e) => Failure(e)
      case Success(n) => Success(st.(defaultParser := st.defaultParser.(parsingBatchSize := n)))
    else Success(st)
  }

  /** A property of a dictionary's `YomitanDictionaryConfig` section;
      unknown keys are ignored. */
  function YomitanProperty(c: YomitanConfig, key: string, value: string): (r: Result<YomitanConfig, LoadError>)
    ensures key == "title" ==> r == Success(c.(title := value))
    ensures key !in {"format", "chunk_size"} ==> r.Success?
    ensures (r.Success? && key !in {"title", "author", "url", "description", "attribution", "revision",
                                    "format", "chunk_size", "formatPretty", "tempDir"}) ==> r.value == c
  {
    if key == "title" then Success(c.(title := value))
    else if key == "author" then Success(c.(author := value))
    else if key == "url" then Success(c.(url := value))
    else if key == "description" then Success(c.(description := value))
    else if key == "attribution" then Success(c.(attribution := value))
    else if key == "revision" then Success(c.(revision := value))
    else if key == "format" then
      match ReadInt(value)
      case Failure(e) => Failure(e)
      case Success(n) => Success(c.(format := n))
    else if key == "chunk_size" then
      match ReadSize(value)
      case Failure(e) => Failure(e)
      case Success(n) => Success(c.(chunkSize := n))
    else if key == "formatPretty" then Success(c.(formatPretty := value == "true"))
    else if key == "tempDir" then Success(c.(tempDir := Some(value)))
    else Success(c)
  }

  /** The keys a `ParserConfig` section knows. */
  const PARSER_KEYS: set<string> :=
    {"linkStrategyType", "imageStrategyType", "dictionaryPath", "tagMappingPath", "indexPath",
     "jmdictPath", "audioPath", "appendixPath", "ignoredElements", "expressionElement",
     "parseAllLinks", "showProgress", "parsingBatchSize"}

  /** A property of a dictionary's `ParserConfig` section; paths are
      resolved, unknown keys ignored.  The dictionary type is not among the
      keys. */
  function ParserProperty(c: ParserConfig, key: string, value: string, resolve: string -> string): (r: Result<ParserConfig, LoadError>)
    ensures r.Success? ==> r.value.dictionaryType == c.dictionaryType
    ensures key == "ignoredElements" ==> r == Success(c.(ignoredElements := Some(ParseSimpleSet(value))))
    ensures r.Failure? <==> key == "parsingBatchSize" && StoI(value).Failure?
    ensures key == "parsingBatchSize" && r.Success? ==> r.value == c.(parsingBatchSize := StoI(value).value)
    ensures key !in PARSER_KEYS ==> r == Success(c)
  {
    if key == "linkStrategyType" then Success(c.(linkStrategyType := value))
    else if key == "imageStrategyType" then Success(c.(imageStrategyType := value))
    else if key == "dictionaryPath" then Success(c.(dictionaryPath := resolve(value)))
    else if key == "tagMappingPath" then Success(c.(tagMappingPath := Some(resolve(value))))
    else if key == "indexPath" then Success(c.(indexPath := Some(resolve(value))))
    else if key == "jmdictPath" then Success(c.(jmdictPath := Some(resolve(value))))
    else if key == "audioPath" then Success(c.(audioPath := Some(resolve(value))))
    else if key == "appendixPath" then Success(c.(appendixPath := Some(resolve(value))))
    else if key == "ignoredElements" then Success(c.(ignoredElements := Some(ParseSimpleSet(value))))
    else if key == "expressionElement" then Success(c.(expressionElement := Some(value)))
    else if key == "parseAllLinks" then Success(c.(parseAllLinks := value == "true"))
    else if key == "showProgress" then Success(c.(showProgress := value == "true"))
    else if key == "parsingBatchSize" then
      match ReadInt(value)
      case Failure(e) => Failure(e)
      case Success(n) => Success(c.(parsingBatchSize := n))
    else Success(c)
  }

  /** `dictionaries_[name]`: the stored pair, or a default-constructed one. */
  function PairOf(m: map<string, ConfigPair>, name: string): (r: ConfigPair)
    ensures name in m ==> r == m[name]
  {
    if name in m then m[name] else ConfigPair(DefaultYomitanConfig(), DefaultParserConfig())
  }

  /** A property line of the current dictionary's section. */
  function DictionaryProperty(st: LoadState, key: string, value: string, resolve: string -> string): (r: Result<LoadState, LoadError>)
    ensures r.Success? ==> r.value.section == st.section && r.value.currentDict == st.currentDict
    ensures r.Success? ==> r.value.defaultYomitan == st.defaultYomitan && r.value.defaultParser == st.defaultParser
    ensures st.section !in {YomitanSection, ParserSection} ==> r == Success(st)
    ensures r.Success? ==> forall n :: n != st.currentDict ==>
              (n in r.value.dictionaries <==> n in st.dictionaries)
              && (n in st.dictionaries ==> r.value.dictionaries[n] == st.dictionaries[n])
    ensures st.section == YomitanSection ==>
              var pair := PairOf(st.dictionaries, st.currentDict);
              var y := YomitanProperty(pair.yomitan, key, value);
              (r.Success? <==> y.Success?)
              && (r.Success? ==> st.currentDict in r.value.dictionaries
                                 && r.value.dictionaries[st.currentDict] == pair.(yomitan := y.value))
    ensures st.section == ParserSection ==>
              var pair := PairOf(st.dictionaries, st.currentDict);
              var p := ParserProperty(pair.parser, key, value, resolve);
              (r.Success? <==> p.Success?)
              && (r.Success? ==> st.currentDict in r.value.dictionaries
                                 && r.value.dictionaries[st.currentDict] == pair.(parser := p.value))
  {
    var pair := PairOf(st.dictionaries, st.currentDict);
    if st.section == YomitanSection then
      match YomitanProperty(pair.yomitan, key, value)
      case Failure(e) => Failure(e)
      case Success(y) => Success(st.(dictionaries := st.dictionaries[st.currentDict := pair.(yomitan := y)]))
    else if st.section == ParserSection then
      match ParserProperty(pair.parser, key, value, resolve)
      case Failure(e) => Failure(e)
      case Success(p) => Success(st.(dictionaries := st.dictionaries[st.currentDict := pair.(parser := p)]))
    else Success(st)
  }

  // ---------------------------------------------------------------------
  // The line loop

  /** One line of `loadFromFile`, its tests in the source's order: blank
      lines and comments; the two root headers; a general property; a
      dictionary name, which starts the dictionary from the current
      defaults and its own name as type; a section header; a property of
      the current dictionary.  Other lines are ignored. */
  function Step(st: LoadState, line: string, resolve: string -> string): (r: Result<LoadState, LoadError>)
    ensures r.Success? ==> st.dictionaries.Keys <= r.value.dictionaries.Keys
    ensures line == "" || line[0] == '#' ==> r == Success(st)
  {
    if line == "" || line[0] == '#' then Success(st)
    else if line == "general:" then Success(st.(section := GeneralSection, currentDict := ""))
    else if line == "dictionaries:" then Success(st.(section := NoSection))
    else if st.section == GeneralSection && Entry(line, TWO_SPACES, FOUR_SPACES) then
      ColonAfterIndent(line, TWO_SPACES);
      match ValueOf(line)
      case Failure(e) => Failure(e)
      case Success(value) => GeneralProperty(st, KeyOf(line, 2), value)
    else if Entry(line, TWO_SPACES, FOUR_SPACES) then
      ColonAfterIndent(line, TWO_SPACES);
      var name := KeyOf(line, 2);
      var defaults := st.defaultParser.(dictionaryType := name);
      Success(st.(currentDict := name, section := NoSection, defaultParser := defaults,
                  dictionaries := st.dictionaries[name := ConfigPair(st.defaultYomitan, defaults)]))
    else if Entry(line, FOUR_SPACES, SIX_SPACES) && st.currentDict != "" then
      ColonAfterIndent(line, FOUR_SPACES);
      var name := KeyOf(line, 4);
      Success(st.(section := if name == "YomitanDictionaryConfig" then YomitanSection
                             else if name == "ParserConfig" then ParserSection
                             else NoSection))
    else if Entry(line, SIX_SPACES, EIGHT_SPACES) && st.currentDict != "" then
      ColonAfterIndent(line, SIX_SPACES);
      match ValueOf(line)
      case Failure(e) => Failure(e)
      case Success(value) => DictionaryProperty(st, KeyOf(line, 6), value, resolve)
    else Success(st)
  }

  /** The lines in order; the first exception ends the load.  No line
      removes a dictionary. */
  function Lines(st: LoadState, lines: seq<string>, resolve: string -> string): (r: Result<LoadState, LoadError>)
    ensures r.Success? ==> st.dictionaries.Keys <= r.value.dictionaries.Keys
    decreases |lines|
  {
    if |lines| == 0 then Success(st)
    else match Step(st, lines[0], resolve)
      case Failure(e) => Failure(e)
      case Success(st1) => Lines(st1, lines[1..], resolve)
  }

  /** `loadFromFile`. */
  function LoadFromFile(fileOpen: bool, lines: seq<string>, resolve: string -> string): (r: Result<map<string, ConfigPair>, LoadError>)
    ensures !fileOpen ==> r == Failure(CannotOpen)
  {
    if !fileOpen then Failure(CannotOpen)
    else match Lines(InitialState(), lines, resolve)
      case Failure(e) => Failure(e)
      case Success(st) => Success(st.dictionaries)
  }

  /** `getDictionaryInfo`: the pair of a known dictionary; an unknown name
      throws. */
  function GetDictionaryInfo(dictionaries: map<string, ConfigPair>, name: string): (r: Result<ConfigPair, string>)
    ensures r.Success? <==> name in dictionaries
    ensures r.Success? ==> r.value == dictionaries[name]
    ensures r.Failure? ==> r.error == "Dictionary not found: " + name
  {
    if name in dictionaries then Success(dictionaries[name]) else Failure("Dictionary not found: " + name)
  }

  // ---------------------------------------------------------------------
  // Properties of the loop

  /** Every stored dictionary has its own name as its type, and the current
      dictionary is stored. */
  predicate Consistent(st: LoadState) {
    (forall name :: name in st.dictionaries ==> st.dictionaries[name].parser.dictionaryType == name)
    && (st.currentDict != "" ==> st.currentDict in st.dictionaries)
  }

  /** The dictionary-name branch of `Step`. */
  lemma StepAtName(st: LoadState, line: string, resolve: string -> string)
    requires line != "" && line[0] == ' ' && st.section != GeneralSection && Entry(line, TWO_SPACES, FOUR_SPACES)
    ensures 2 <= Find(line, ':').value
    ensures var name := KeyOf(line, 2);
            var defaults := st.defaultParser.(dictionaryType := name);
            Step(st, line, resolve) == Success(st.(currentDict := name, section := NoSection, defaultParser := defaults,
                                                   dictionaries := st.dictionaries[name := ConfigPair(st.defaultYomitan, defaults)]))
  {
    ColonAfterIndent(line, TWO_SPACES);
  }

  /** The general-property branch of `Step`. */
  lemma StepAtGeneral(st: LoadState, line: string, resolve: string -> string)
    requires line != "" && line[0] == ' ' && st.section == GeneralSection && Entry(line, TWO_SPACES, FOUR_SPACES)
    ensures 2 <= Find(line, ':').value
    ensures Step(st, line, resolve) == match ValueOf(line)
                                       case Failure(e) => Failure(e)
                                       case Success(value) => GeneralProperty(st, KeyOf(line, 2), value)
  {
    ColonAfterIndent(line, TWO_SPACES);
  }

  /** The section-header branch of `Step`; before any dictionary the line
      falls through every branch. */
  lemma StepAtHeader(st: LoadState, line: string, resolve: string -> string)
    requires line != "" && line[0] == ' ' && Entry(line, FOUR_SPACES, SIX_SPACES)
    ensures 4 <= Find(line, ':').value
    ensures st.currentDict != "" ==>
              var name := KeyOf(line, 4);
              Step(st, line, resolve)
              == Success(st.(section := if name == "YomitanDictionaryConfig" then YomitanSection
                                        else if name == "ParserConfig" then ParserSection
                                        else NoSection))
    ensures st.currentDict == "" ==> Step(st, line, resolve) == Success(st)
  {
    ColonAfterIndent(line, FOUR_SPACES);
    assert !IndentedBy(line, TWO_SPACES, FOUR_SPACES);
    assert !IndentedBy(line, SIX_SPACES, EIGHT_SPACES) by {
      assert !StartsWith(line, SIX_SPACES);
    }
  }

  /** The property branch of `Step` for a dictionary's sections. */
  lemma StepAtProperty(st: LoadState, line: string, resolve: string -> string)
    requires line != "" && line[0] == ' ' && StartsWith(line, FOUR_SPACES)
    requires Entry(line, SIX_SPACES, EIGHT_SPACES) && st.currentDict != ""
    ensures 6 <= Find(line, ':').value
    ensures Step(st, line, resolve) == match ValueOf(line)
                                       case Failure(e) => Failure(e)
                                       case Success(value) => DictionaryProperty(st, KeyOf(line, 6), value, resolve)
  {
    ColonAfterIndent(line, SIX_SPACES);
    assert !IndentedBy(line, TWO_SPACES, FOUR_SPACES);
    assert !IndentedBy(line, FOUR_SPACES, SIX_SPACES);
  }

  /** A property of the current dictionary keeps every type. */
  lemma DictionaryPropertyConsistent(st: LoadState, key: string, value: string, resolve: string -> string)
    requires Consistent(st) && st.currentDict != ""
    ensures DictionaryProperty(st, key, value, resolve).Success? ==> Consistent(DictionaryProperty(st, key, value, resolve).value)
  {
    var pair := PairOf(st.dictionaries, st.currentDict);
    assert pair.parser.dictionaryType == st.currentDict;
  }

  lemma StepConsistent(st: LoadState, line: string, resolve: string -> string)
    requires Consistent(st)
    ensures Step(st, line, resolve).Success? ==> Consistent(Step(st, line, resolve).value)
  {
    if line == "" || line[0] == '#' || line == "general:" || line == "dictionaries:" {
    } else if st.section == GeneralSection && Entry(line, TWO_SPACES, FOUR_SPACES) {
    } else if Entry(line, TWO_SPACES, FOUR_SPACES) {
      StepAtName(st, line, resolve);
    } else if Entry(line, FOUR_SPACES, SIX_SPACES) && st.currentDict != "" {
    } else if Entry(line, SIX_SPACES, EIGHT_SPACES) && st.currentDict != "" {
      StepAtProperty(st, line, resolve);
      match ValueOf(line)
      case Failure(_) =>
      case Success(value) => DictionaryPropertyConsistent(st, KeyOf(line, 6), value, resolve);
    }
  }

  /** Loading keeps every dictionary's type equal to its name. */
  lemma {:induction false} LinesConsistent(st: LoadState, lines: seq<string>, resolve: string -> string)
    requires Consistent(st)
    ensures Lines(st, lines, resolve).Success? ==> Consistent(Lines(st, lines, resolve).value)
    decreases |lines|
  {
    if |lines| > 0 {
      StepConsistent(st, lines[0], resolve);
      match Step(st, lines[0], resolve)
      case Failure(_) =>
      case Success(st1) => LinesConsistent(st1, lines[1..], resolve);
    }
  }

  /** Every dictionary of a loaded configuration has its name as its type. */
  lemma LoadedTypesAreNames(fileOpen: bool, lines: seq<string>, resolve: string -> string, name: string)
    requires LoadFromFile(fileOpen, lines, resolve).Success?
    requires name in LoadFromFile(fileOpen, lines, resolve).value
    ensures GetDictionaryInfo(LoadFromFile(fileOpen, lines, resolve).value, name).value.parser.dictionaryType == name
  {
    LinesConsistent(InitialState(), lines, resolve);
  }

  /** Blank lines and comments change nothing. */
  lemma {:induction false} CommentsIgnored(st: LoadState, before: seq<string>, comment: string, after: seq<string>,
                                           resolve: string -> string)
    requires comment == "" || comment[0] == '#'
    ensures Lines(st, before + [comment] + after, resolve) == Lines(st, before + after, resolve)
    decreases |before|
  {
    if |before| == 0 {
      assert before + [comment] + after == [comment] + after;
      assert ([comment] + after)[1..] == after;
      assert before + after == after;
    } else {
      assert (before + [comment] + after)[0] == before[0];
      assert (before + [comment] + after)[1..] == before[1..] + [comment] + after;
      assert (before + after)[1..] == before[1..] + after;
      match Step(st, before[0], resolve)
      case Failure(_) =>
      case Success(st1) => CommentsIgnored(st1, before[1..], comment, after, resolve);
    }
  }

  /** A dictionary line "  name:" starts the dictionary with the defaults
      gathered so far and its name as type. */
  lemma DictionaryLine(st: LoadState, name: string, resolve: string -> string)
    requires st.section != GeneralSection
    requires ':' !in name && !StartsWith(name, "  ")
    ensures var r := Step(st, TWO_SPACES + name + ":", resolve);
            r.Success? && r.value.currentDict == name && r.value.section == NoSection
            && name in r.value.dictionaries
            && r.value.dictionaries[name] == ConfigPair(st.defaultYomitan, st.defaultParser.(dictionaryType := name))
  {
    var line := TWO_SPACES + name + ":";
    NameLineShape(name);
    StepAtName(st, line, resolve);
  }

  /** The shape of "  name:": indented by two, key `name`. */
  lemma NameLineShape(name: string)
    requires ':' !in name && !StartsWith(name, "  ")
    ensures var line := TWO_SPACES + name + ":";
            line != "" && line[0] == ' ' && Entry(line, TWO_SPACES, FOUR_SPACES)
            && Find(line, ':') == Some(|line| - 1) && line[2..|line| - 1] == name
  {
    var line := TWO_SPACES + name + ":";
    assert line[0] == ' ';
    assert line[..2] == TWO_SPACES;
    assert !StartsWith(line, FOUR_SPACES) by {
      if |name| >= 2 {
        assert line[..4][2..] == name[..2];
      } else {
        assert |line| <= 4 && line[|line| - 1] == ':';
      }
    }
    assert line[|line| - 1] == ':';
    assert Find(line, ':') == Some(|line| - 1) by {
      assert ':' !in line[..|line| - 1] by {
        assert line[..|line| - 1] == TWO_SPACES + name;
      }
    }
    assert line[2..|line| - 1] == name;
  }

  /** In a dictionary's `YomitanDictionaryConfig` section, "      title: v"
      sets its title to v without quotes. */
  lemma TitleLine(st: LoadState, v: string, resolve: string -> string)
    requires st.section == YomitanSection && st.currentDict != ""
    ensures var r := Step(st, SIX_SPACES + "title: " + v, resolve);
            r.Success? && st.currentDict in r.value.dictionaries
            && r.value.dictionaries[st.currentDict].yomitan.title == Unquote(v)
  {
    var line := SIX_SPACES + "title: " + v;
    TitleLineShape(v);
    StepAtProperty(st, line, resolve);
    assert ValueOf(line) == Success(Unquote(v));
  }

  /** The shape of "      title: v": indented by six, key "title", value v. */
  lemma TitleLineShape(v: string)
    ensures var line := SIX_SPACES + "title: " + v;
            line != "" && line[0] == ' ' && StartsWith(line, FOUR_SPACES) && Entry(line, SIX_SPACES, EIGHT_SPACES)
            && Find(line, ':') == Some(11) && line[6..11] == "title" && line[13..] == v
  {
    var line := SIX_SPACES + "title: " + v;
    assert line[..6] == SIX_SPACES && line[6] == 't';
    assert line[..4] == FOUR_SPACES;
    assert !StartsWith(line, EIGHT_SPACES) by {
      assert line[..8][6] == 't';
    }
    assert line[11] == ':';
    assert Find(line, ':') == Some(11) by {
      assert ':' !in line[..11] by {
        assert line[..11] == SIX_SPACES + "title";
      }
    }
    assert line[6..11] == "title";
    assert line[13..] == v;
  }

  /** The shape of `indent + key + ":" + rest`: indented by exactly
      `indent`, its first colon right after `key`. */
  lemma KeyLineShape(indent: string, key: string, rest: string)
    requires |indent| > 0 && forall i :: 0 <= i < |indent| ==> indent[i] == ' '
    requires ':' !in key && !StartsWith(key, TWO_SPACES)
    ensures var line := indent + key + ":" + rest;
            line != "" && line[0] == ' ' && ':' in line
            && StartsWith(line, indent) && !StartsWith(line, indent + TWO_SPACES)
            && Find(line, ':') == Some(|indent| + |key|)
            && line[|indent|..|indent| + |key|] == key && line[|indent| + |key| + 1..] == rest
  {
    var line := indent + key + ":" + rest;
    var colon: nat := |indent| + |key|;
    assert line[0] == indent[0];
    assert line[..|indent|] == indent;
    assert line[colon] == ':';
    assert line[..colon] == indent + key;
    assert ':' !in indent + key by {
      forall i | 0 <= i < colon ensures (indent + key)[i] != ':' {
        if i >= |indent| {
          assert (indent + key)[i] == key[i - |indent|];
        }
      }
    }
    assert !StartsWith(line, indent + TWO_SPACES) by {
      if |key| >= 2 {
        assert line[..|indent| + 2][|indent|..] == key[..2];
      } else {
        assert line[colon] == ':';
      }
    }
    assert line[|indent|..colon] == key;
    assert line[colon + 1..] == rest;
  }

  /** "general:" selects the general section and leaves the current
      dictionary. */
  lemma GeneralHeaderLine(st: LoadState, rest: seq<string>, resolve: string -> string)
    ensures Lines(st, ["general:"] + rest, resolve)
            == Lines(st.(section := GeneralSection, currentDict := ""), rest, resolve)
  {
    assert (["general:"] + rest)[1..] == rest;
  }

  /** "dictionaries:" leaves every section and keeps the current dictionary. */
  lemma DictionariesHeaderLine(st: LoadState, rest: seq<string>, resolve: string -> string)
    ensures Lines(st, ["dictionaries:"] + rest, resolve) == Lines(st.(section := NoSection), rest, resolve)
  {
    assert (["dictionaries:"] + rest)[1..] == rest;
  }

  /** In the general section, "  key: v" is a property of the defaults. */
  lemma GeneralPropertyLine(st: LoadState, key: string, v: string, resolve: string -> string)
    requires st.section == GeneralSection
    requires ':' !in key && !StartsWith(key, TWO_SPACES)
    ensures Step(st, TWO_SPACES + key + ": " + v, resolve) == GeneralProperty(st, key, Unquote(v))
  {
    var line := TWO_SPACES + key + ": " + v;
    assert line == TWO_SPACES + key + ":" + (" " + v);
    KeyLineShape(TWO_SPACES, key, " " + v);
    assert TWO_SPACES + TWO_SPACES == FOUR_SPACES;
    assert Entry(line, TWO_SPACES, FOUR_SPACES);
    StepAtGeneral(st, line, resolve);
    assert ValueOf(line) == Success(Unquote(v)) by {
      assert line[|key| + 4..] == v;
    }
    assert KeyOf(line, 2) == key;
  }

  /** Below a dictionary, "    name:" selects its `YomitanDictionaryConfig`
      or `ParserConfig` section by name, and any other name leaves both;
      before any dictionary the line is ignored. */
  lemma SectionHeaderLine(st: LoadState, name: string, resolve: string -> string)
    requires ':' !in name && !StartsWith(name, TWO_SPACES)
    ensures st.currentDict != "" ==>
              Step(st, FOUR_SPACES + name + ":", resolve)
              == Success(st.(section := if name == "YomitanDictionaryConfig" then YomitanSection
                                        else if name == "ParserConfig" then ParserSection
                                        else NoSection))
    ensures st.currentDict == "" ==> Step(st, FOUR_SPACES + name + ":", resolve) == Success(st)
  {
    var line := FOUR_SPACES + name + ":";
    assert line == FOUR_SPACES + name + ":" + "";
    KeyLineShape(FOUR_SPACES, name, "");
    assert FOUR_SPACES + TWO_SPACES == SIX_SPACES;
    assert Entry(line, FOUR_SPACES, SIX_SPACES);
    StepAtHeader(st, line, resolve);
    assert KeyOf(line, 4) == name;
  }

  /** Loading lines one after another is loading their concatenation. */
  lemma {:induction false} LinesAppend(st: LoadState, first: seq<string>, second: seq<string>,
                                       resolve: string -> string)
    ensures Lines(st, first + second, resolve) == match Lines(st, first, resolve)
                                                  case Failure(e) => Failure(e)
                                                  case Success(st1) => Lines(st1, second, resolve)
    decreases |first|
  {
    if |first| == 0 {
      assert first + second == second;
    } else {
      assert (first + second)[0] == first[0];
      assert (first + second)[1..] == first[1..] + second;
      match Step(st, first[0], resolve)
      case Failure(_) =>
      case Success(st1) => LinesAppend(st1, first[1..], second, resolve);
    }
  }
}

=== FILE: dic_entry.dfy ===
/** A dictionary entry (`DicEntry`): term, reading, tags, rank, sequence
    number and the structured-content elements, plus the positional record
    the term banks hold (`DicEntryFormat`).
 */
module Entries {
  import opened Wrappers
  import opened Text
  import opened HtmlContent

  datatype DicEntry = DicEntry(
    term: string,
    reading: string,
    infoTag: string,
    posTag: string,
    searchRank: int,
    content: seq<HtmlElement>,
    sequenceNumber: int)

  /** `DicEntry(term, reading)`: when the term is empty the reading takes its
      place and the reading becomes empty; the other fields start empty or 0. */
  function NewDicEntry(term: string, reading: string): (e: DicEntry)
    ensures term == "" ==> e.term == reading && e.reading == ""
    ensures term != "" ==> e.term == term && e.reading == reading
    ensures e.infoTag == "" && e.posTag == "" && e.searchRank == 0 && e.content == [] && e.sequenceNumber == 0
  {
    if term == "" then DicEntry(reading, "", "", "", 0, [], 0)
    else DicEntry(term, reading, "", "", 0, [], 0)
  }

  /** The term of an entry is empty only when both arguments were. */
  lemma TermEmptyOnlyIfBoth(term: string, reading: string)
    ensures NewDicEntry(term, reading).term == "" <==> term == "" && reading == ""
  {
  }

  /** Why an element is refused. */
  datatype ElementError = UnsupportedElement(tag: string) | HrefNotAllowed(tag: string)

  /** `validateElement`: the tag must be allowed; the second test asks
      whether the tag NAME contains "href" and only then whether it may
      carry one.  Only the top-level element is looked at. */
  function ValidateElement(el: HtmlElement): (r: Option<ElementError>)
    ensures el.tag !in ALLOWED_ELEMENTS ==> r == Some(UnsupportedElement(el.tag))
  {
    if el.tag !in ALLOWED_ELEMENTS then Some(UnsupportedElement(el.tag))
    else if Contains(el.tag, "href") && el.tag !in ALLOWED_HREF_ELEMENTS then Some(HrefNotAllowed(el.tag))
    else None
  }

  /** No allowed tag contains "href", so the second test never fires: an
      element is refused exactly when its tag is not allowed, whatever its
      href or its children. */
  lemma HrefGateIsDead(el: HtmlElement)
    ensures ValidateElement(el).Some? <==> el.tag !in ALLOWED_ELEMENTS
  {
    if el.tag in ALLOWED_ELEMENTS {
      NoAllowedTagNamesHref(el.tag);
    }
  }

  /** No allowed tag has "href" in its name: in none of them is an 'h'
      followed by an 'r'. */
  lemma NoAllowedTagNamesHref(t: string)
    requires t in ALLOWED_ELEMENTS
    ensures !Contains(t, "href")
  {
    forall j: nat | j + 4 <= |t|
      ensures !OccursAt(t, "href", j)
    {
      if t[j] == 'h' {
        assert t[j + 1] != 'r';
        assert t[j..j + 4][1] == t[j + 1];
      } else {
        assert t[j..j + 4][0] == t[j];
      }
    }
  }

  /** `addElement`: a refused element leaves the entry as it was (the source
      throws); an accepted one is appended after the existing content. */
  function AddElement(e: DicEntry, el: HtmlElement): (r: Result<DicEntry, ElementError>)
    ensures r.Failure? <==> el.tag !in ALLOWED_ELEMENTS
    ensures r.Success? ==> r.value == e.(content := e.content + [el])
  {
    HrefGateIsDead(el);
    match ValidateElement(el)
    case Some(err) => Failure(err)
    case None => Success(e.(content := e.content + [el]))
  }

  /** The setters change their own field and nothing else. */
  function SetInfoTag(e: DicEntry, infoTag: string): (r: DicEntry)
    ensures r.infoTag == infoTag
    ensures r.term == e.term && r.reading == e.reading && r.posTag == e.posTag && r.searchRank == e.searchRank && r.content == e.content && r.sequenceNumber == e.sequenceNumber
  {
    e.(infoTag := infoTag)
  }

  function SetPosTag(e: DicEntry, posTag: string): (r: DicEntry)
    ensures r.posTag == posTag
    ensures r.term == e.term && r.reading == e.reading && r.infoTag == e.infoTag && r.searchRank == e.searchRank && r.content == e.content && r.sequenceNumber == e.sequenceNumber
  {
    e.(posTag := posTag)
  }

  function SetSearchRank(e: DicEntry, searchRank: int): (r: DicEntry)
    ensures r.searchRank == searchRank
    ensures r.term == e.term && r.reading == e.reading && r.infoTag == e.infoTag && r.posTag == e.posTag && r.content == e.content && r.sequenceNumber == e.sequenceNumber
  {
    e.(searchRank := searchRank)
  }

  function SetSequenceNumber(e: DicEntry, sequenceNumber: int): (r: DicEntry)
    ensures r.sequenceNumber == sequenceNumber
    ensures r.term == e.term && r.reading == e.reading && r.infoTag == e.infoTag && r.posTag == e.posTag && r.searchRank == e.searchRank && r.content == e.content
  {
    e.(sequenceNumber := sequenceNumber)
  }

  /** The single structured-content map of a term-bank row:
      `{type: "structured-content", content: elements}`. */
  datatype StructuredContent = StructuredContent(kind: string, elements: seq<HtmlElement>)

  /** A term-bank row, in its positional order: term, reading, info tag,
      part-of-speech tag, search rank, content, sequence number, extra. */
  datatype DicEntryFormat = DicEntryFormat(
    term: string,
    reading: string,
    infoTag: string,
    posTag: string,
    searchRank: int,
    content: seq<StructuredContent>,
    sequenceNumber: int,
    extraField: string)

  /** `toList`: the fields copied, the elements wrapped in one
      structured-content map, and an empty extra field. */
  function ToList(e: DicEntry): (r: DicEntryFormat)
    ensures r.term == e.term && r.reading == e.reading && r.infoTag == e.infoTag && r.posTag == e.posTag
    ensures r.searchRank == e.searchRank && r.sequenceNumber == e.sequenceNumber && r.extraField == ""
    ensures r.content == [StructuredContent("structured-content", e.content)]
  {
    DicEntryFormat(e.term, e.reading, e.infoTag, e.posTag, e.searchRank,
                   [StructuredContent("structured-content", e.content)], e.sequenceNumber, "")
  }

  /** The row and the entry determine each other: `toList` loses nothing. */
  lemma ToListInjective(a: DicEntry, b: DicEntry)
    ensures ToList(a) == ToList(b) <==> a == b
  {
    if ToList(a) == ToList(b) {
      assert ToList(a).content[0].elements == a.content;
    }
  }
}

=== FILE: file_utils.dfy ===
/** File helpers (`FileUtils`): the batching iterator over the XML files of
    a directory, the numbering of term-bank files, and the user name taken
    from the home directory.  A directory listing is a parameter: the
    entries the directory iterator yields, in its order.
 */
module FileUtils {
  import opened Wrappers
  import opened Text
  import opened Numbers

  datatype DirEntry = DirEntry(path: string, isRegularFile: bool)

  /** Index of the last `c` in `s`, if any (`rfind`). */
  function LastIndex(s: string, c: char): (r: Option<nat>)
    ensures r.Some? ==> r.value < |s| && s[r.value] == c && c !in s[r.value + 1..]
    ensures r.None? ==> c !in s
  {
    if |s| == 0 then None
    else if s[|s| - 1] == c then Some(|s| - 1)
    else
      var r := LastIndex(s[..|s| - 1], c);
      assert r.Some? ==> s[r.value + 1..] == s[..|s| - 1][r.value + 1..] + [s[|s| - 1]];
      r
  }

  /** `path::filename`: the part after the last '/' (empty for a path that
      ends in '/'). */
  function FileName(path: string): (r: string)
    ensures '/' !in r
    ensures EndsWith(path, r)
  {
    match LastIndex(path, '/')
    case None => path
    case Some(i) => path[i + 1..]
  }

  /** `path::extension` of a file name: from the last '.' on, except that
      "." and ".." and a name whose only '.' leads it have none. */
  function Extension(name: string): (r: string)
    ensures r != "" ==> r[0] == '.' && EndsWith(name, r) && '.' !in r[1..] && |r| < |name|
  {
    if name == "." || name == ".." then ""
    else match LastIndex(name, '.')
      case None => ""
      case Some(i) => if i == 0 then "" else name[i..]
  }

  /** The listing entries the iterator collects: regular files whose
      extension is exactly ".xml". */
  predicate IsXmlFile(e: DirEntry) {
    e.isRegularFile && Extension(FileName(e.path)) == ".xml"
  }

  function XmlFiles(listing: seq<DirEntry>): (r: seq<string>)
    ensures |r| <= |listing|
    ensures forall p :: p in r <==> exists e :: e in listing && IsXmlFile(e) && e.path == p
  {
    var kept := Filter(listing, IsXmlFile);
    var r := Paths(kept);
    assert forall p :: p in r <==> exists e :: e in kept && e.path == p;
    r
  }

  /** The paths of the entries, in order. */
  function Paths(entries: seq<DirEntry>): (r: seq<string>)
    ensures |r| == |entries|
    ensures forall i :: 0 <= i < |r| ==> r[i] == entries[i].path
    ensures forall p :: p in r <==> exists e :: e in entries && e.path == p
  {
    var r := seq(|entries|, i requires 0 <= i < |entries| => entries[i].path);
    assert forall e :: e in entries ==> exists i :: 0 <= i < |entries| && entries[i] == e;
    r
  }

  /** The state of a `FileIterator`: the collected paths and the position of
      the next batch. */
  datatype FileIterator = FileIterator(allFiles: seq<string>, current: nat)

  predicate Valid(it: FileIterator) { it.current <= |it.allFiles| }

  /** The constructor: a missing directory is an error (the source throws). */
  function NewFileIterator(directoryExists: bool, listing: seq<DirEntry>): (r: Result<FileIterator, string>)
    ensures r.Failure? <==> !directoryExists
    ensures r.Success? ==> Valid(r.value) && r.value.current == 0 && r.value.allFiles == XmlFiles(listing)
  {
    if !directoryExists then Failure("Directory does not exist")
    else Success(FileIterator(XmlFiles(listing), 0))
  }

  function Min(a: nat, b: nat): nat { if a <= b then a else b }

  /** `getNextBatch`: the next `batchSize` paths, fewer at the end; the
      position moves past them. */
  function GetNextBatch(it: FileIterator, batchSize: nat): (r: (seq<string>, FileIterator))
    requires Valid(it)
    ensures Valid(r.1) && r.1.allFiles == it.allFiles
    ensures r.1.current == Min(it.current + batchSize, |it.allFiles|)
    ensures r.0 == it.allFiles[it.current..r.1.current]
    ensures |r.0| <= batchSize
  {
    var end := Min(it.current + batchSize, |it.allFiles|);
    (it.allFiles[it.current..end], it.(current := end))
  }

  /** `hasMore`. */
  predicate HasMore(it: FileIterator) { it.current < |it.allFiles| }

  /** A batch of size 0 makes no progress. */
  lemma EmptyBatchNoProgress(it: FileIterator)
    requires Valid(it)
    ensures GetNextBatch(it, 0).0 == [] && GetNextBatch(it, 0).1 == it
  {
  }

  /** The batches the driver loop takes until `hasMore` is false. */
  function Batches(it: FileIterator, batchSize: nat): (r: seq<seq<string>>)
    requires Valid(it) && batchSize >= 1
    ensures forall i :: 0 <= i < |r| ==> 1 <= |r[i]| <= batchSize
    decreases |it.allFiles| - it.current
  {
    if !HasMore(it) then []
    else
      var (batch, next) := GetNextBatch(it, batchSize);
      [batch] + Batches(next, batchSize)
  }

  function Flatten(parts: seq<seq<string>>): seq<string> {
    if |parts| == 0 then [] else parts[0] + Flatten(parts[1..])
  }

  /** The batches, one after the other, are exactly the files not yet
      handed out, in order. */
  lemma {:induction false} BatchesCoverFiles(it: FileIterator, batchSize: nat)
    requires Valid(it) && batchSize >= 1
    ensures Flatten(Batches(it, batchSize)) == it.allFiles[it.current..]
    decreases |it.allFiles| - it.current
  {
    if HasMore(it) {
      var (batch, next) := GetNextBatch(it, batchSize);
      BatchesCoverFiles(next, batchSize);
      var r := Batches(it, batchSize);
      assert r == [batch] + Batches(next, batchSize);
      assert r[1..] == Batches(next, batchSize);
      assert it.allFiles[it.current..] == batch + it.allFiles[next.current..];
    }
  }

  /** The digits of a file name of the form `term_bank_<digits>.json`. */
  function TermBankDigits(name: string): (r: Option<string>)
    ensures r.Some? ==> |r.value| >= 1 && AllDigits(r.value) && name == "term_bank_" + r.value + ".json"
  {
    if StartsWith(name, "term_bank_") && EndsWith(name, ".json") && |name| > 15 then
      var digits := name[10..|name| - 5];
      assert name == name[..10] + digits + name[|name| - 5..];
      if AllDigits(digits) then Some(digits) else None
    else None
  }

  /** A regular file of the listing named like a term bank. */
  predicate IsTermBank(e: DirEntry) {
    e.isRegularFile && TermBankDigits(FileName(e.path)).Some?
  }

  /** The number of a term-bank file (0 for a name of any other form). */
  function BankNumber(e: DirEntry): nat {
    match TermBankDigits(FileName(e.path))
    case Some(digits) => DigitsValue(digits, 10)
    case None => 0
  }

  /** The term-bank numbers of the listing, in listing order. */
  function BankNumbers(listing: seq<DirEntry>): (r: seq<nat>)
    ensures forall e :: e in listing && IsTermBank(e) ==> BankNumber(e) in r
    ensures forall n :: n in r ==> exists e :: e in listing && IsTermBank(e) && BankNumber(e) == n
  {
    if |listing| == 0 then []
    else
      var rest := BankNumbers(listing[1..]);
      (if IsTermBank(listing[0]) then [BankNumber(listing[0])] else []) + rest
  }

  /** The largest number of the list, 0 for the empty list. */
  function MaxOf(xs: seq<nat>): (m: nat)
    ensures forall x :: x in xs ==> x <= m
    ensures m == 0 || m in xs
  {
    if |xs| == 0 then 0
    else
      var rest := MaxOf(xs[1..]);
      assert forall x :: x in xs ==> x == xs[0] || x in xs[1..];
      if xs[0] >= rest then xs[0] else rest
  }

  /** `getNextTermBankNumber`: 1 when the folder is not a directory,
      otherwise one more than the largest term-bank number present (0 when
      there is none); a number `stoi` cannot hold is an error (the source
      throws). The `int` increment of a largest number `INT_MAX` wraps to
      `INT_MIN`. */
  function NextTermBankNumber(isDirectory: bool, listing: seq<DirEntry>): (r: Result<int, ParseError>)
    ensures !isDirectory ==> r == Success(1)
    ensures isDirectory ==> (r.Failure? <==> exists e :: e in listing && IsTermBank(e) && BankNumber(e) > INT_MAX)
    ensures r.Success? ==> r.value >= 1 || r.value == INT_MIN
    ensures isDirectory && r.Success? ==>
      (r.value == INT_MIN <==> exists e :: e in listing && IsTermBank(e) && BankNumber(e) == INT_MAX)
    ensures isDirectory && r.Success? && r.value != INT_MIN ==>
      (forall e :: e in listing && IsTermBank(e) ==> BankNumber(e) < r.value)
      && (r.value == 1 || exists e :: e in listing && IsTermBank(e) && BankNumber(e) == r.value - 1)
  {
    if !isDirectory then Success(1)
    else
      var numbers := BankNumbers(listing);
      if exists n :: n in numbers && n > INT_MAX then Failure(OutOfRange)
      else
        var m := MaxOf(numbers);
        // the `int` increment of `INT_MAX` wraps around
        if m == INT_MAX then Success(INT_MIN) else Success(m + 1)
  }

  /** Without term banks in the folder the numbering starts at 1. */
  lemma FirstBankIsOne(listing: seq<DirEntry>)
    requires forall i :: 0 <= i < |listing| ==> !IsTermBank(listing[i])
    ensures NextTermBankNumber(true, listing) == Success(1)
  {
  }

  /** `toupper` on a letter of the "C" locale. */
  function ToUpper(c: char): (u: char)
    ensures 'a' <= c <= 'z' ==> 'A' <= u <= 'Z'
    ensures !('a' <= c <= 'z') ==> u == c
  {
    if 'a' <= c <= 'z' then (c as int - 32) as char else c
  }

  /** `getUsernameFolder`: the last component of the home directory with an
      initial letter upper-cased; nothing when the variable is unset or empty
      or the component is empty. */
  function UsernameFolder(home: Option<string>): (r: Option<string>)
    ensures home.None? || home == Some("") ==> r.None?
    ensures r.Some? ==> home.Some? && |r.value| == |FileName(home.value)| > 0
    ensures r.Some? ==> r.value[1..] == FileName(home.value)[1..] && r.value[0] == ToUpper(FileName(home.value)[0])
    ensures home.Some? && FileName(home.value) != "" ==> r.Some?
  {
    match home
    case None => None
    case Some(h) =>
      if h == "" then None
      else
        var name := FileName(h);
        if name == "" then None
        else if IsAsciiAlpha(name[0]) then Some([ToUpper(name[0])] + name[1..])
        else Some(name)
  }
}

=== FILE: html_content.dfy ===
/** The structured-content tree of a dictionary entry (`HTMLElement`): an
    element has a tag, an optional list of content items (text or nested
    elements), an optional href and an optional data map.  Elements are
    values here; the source shares them through `shared_ptr`, but nothing
    in the core mutates an element after it has been handed on.
 */
module HtmlContent {
  import opened Wrappers

  /** The tags a structured-content element may carry (`Yomitan::allowedElements`). */
  const ALLOWED_ELEMENTS: set<string> := {
    "br", "ruby", "rt", "rp", "table", "thead", "tbody", "tfoot", "tr",
    "td", "th", "span", "div", "ol", "ul", "li", "img", "a", "details", "summary"
  }

  /** The tags that may carry an href (`Yomitan::allowedHrefElements`). */
  const ALLOWED_HREF_ELEMENTS: set<string> := {"a"}

  /** One item of an element's content: a text run or a nested element. */
  datatype Content = Text(text: string) | Elem(element: HtmlElement)

  /** The optional content list of an element: absent until the first item
      is added or a list is given at construction. */
  datatype ContentList = Absent | Present(items: seq<Content>)

  datatype HtmlElement = HtmlElement(
    tag: string,
    content: ContentList,
    href: Option<string>,
    data: Option<map<string, string>>)

  /** The content items, an absent list read as empty. */
  function Items(e: HtmlElement): seq<Content> {
    match e.content
    case Absent => []
    case Present(items) => items
  }

  /** `HTMLElement(tag)`: no content, no href, no data. */
  function NewElement(tag: string): (e: HtmlElement)
    ensures e.tag == tag && e.content.Absent? && e.href.None? && e.data.None?
  {
    HtmlElement(tag, Absent, None, None)
  }

  /** `HTMLElement(tag, item)`: a content list holding the one item. */
  function NewElementWith(tag: string, item: Content): (e: HtmlElement)
    ensures e.tag == tag && e.content == Present([item]) && e.href.None? && e.data.None?
  {
    HtmlElement(tag, Present([item]), None, None)
  }

  /** `HTMLElement(tag, items)`: the list is kept as given, even when empty. */
  function NewElementWithAll(tag: string, items: seq<Content>): (e: HtmlElement)
    ensures e.tag == tag && e.content == Present(items) && e.href.None? && e.data.None?
  {
    HtmlElement(tag, Present(items), None, None)
  }

  /** `addContent`: appends one item, creating the list when it is absent. */
  function AddContent(e: HtmlElement, item: Content): (r: HtmlElement)
    ensures r.tag == e.tag && r.href == e.href && r.data == e.data
    ensures r.content.Present? && Items(r) == Items(e) + [item]
  {
    match e.content
    case Absent => e.(content := Present([item]))
    case Present(items) => e.(content := Present(items + [item]))
  }

  /** `addContent` called once per item, in order. */
  function AddContents(e: HtmlElement, items: seq<Content>): (r: HtmlElement)
    ensures r.tag == e.tag && r.href == e.href && r.data == e.data
    decreases |items|
  {
    if |items| == 0 then e
    else AddContents(AddContent(e, items[0]), items[1..])
  }

  /** Adding items one by one appends them after the existing ones, and the
      list stays absent only when nothing was added to an element without
      one. */
  lemma {:induction false} AddContentsAppends(e: HtmlElement, items: seq<Content>)
    ensures Items(AddContents(e, items)) == Items(e) + items
    ensures AddContents(e, items).content.Absent? <==> e.content.Absent? && |items| == 0
    decreases |items|
  {
    if |items| > 0 {
      var e1 := AddContent(e, items[0]);
      AddContentsAppends(e1, items[1..]);
      assert Items(e) + [items[0]] + items[1..] == Items(e) + items;
    }
  }

  /** `setHref`: replaces the href. */
  function SetHref(e: HtmlElement, value: string): (r: HtmlElement)
    ensures r.href == Some(value) && r.tag == e.tag && r.content == e.content && r.data == e.data
  {
    e.(href := Some(value))
  }

  /** `setData`: replaces the whole data map; nothing of the old map is kept. */
  function SetData(e: HtmlElement, value: map<string, string>): (r: HtmlElement)
    ensures r.data == Some(value) && r.tag == e.tag && r.content == e.content && r.href == e.href
  {
    e.(data := Some(value))
  }

  /** The content argument of `createHtmlElement`: one item or a list. */
  datatype ContentArg = One(item: Content) | Many(items: seq<Content>)

  /** `createHtmlElement`: no element for an empty tag; otherwise the
      element with that tag, and href and data only when they are given. */
  function CreateHtmlElement(tag: string, content: Option<ContentArg>, href: Option<string>,
                             data: Option<map<string, string>>): (r: Option<HtmlElement>)
    ensures r.None? <==> tag == ""
    ensures r.Some? ==> r.value.tag == tag && r.value.href == href && r.value.data == data
    ensures r.Some? ==> match content
      case None => r.value.content.Absent?
      case Some(One(item)) => r.value.content == Present([item])
      case Some(Many(items)) => r.value.content == Present(items)
  {
    if tag == "" then None
    else
      var base := match content
        case None => NewElement(tag)
        case Some(One(item)) => NewElementWith(tag, item)
        case Some(Many(items)) => NewElementWithAll(tag, items);
      var withHref := if href.Some? then SetHref(base, href.value) else base;
      Some(if data.Some? then SetData(withHref, data.value) else withHref)
  }

  /** Every element of the tree, the root included, has an allowed tag. */
  predicate AllTagsAllowed(e: HtmlElement)
    decreases e
  {
    e.tag in ALLOWED_ELEMENTS
    && match e.content
       case Absent => true
       case Present(items) => ItemsAllowed(items)
  }

  predicate ItemsAllowed(items: seq<Content>)
    decreases items
  {
    |items| > 0 ==> ItemAllowed(items[0]) && ItemsAllowed(items[1..])
  }

  predicate ItemAllowed(item: Content)
    decreases item
  {
    match item
    case Text(_) => true
    case Elem(child) => AllTagsAllowed(child)
  }

  /** The text of a tree: its text runs in document order. */
  function ElementText(e: HtmlElement): string
    decreases e
  {
    match e.content
    case Absent => ""
    case Present(items) => ItemsText(items)
  }

  function ItemsText(items: seq<Content>): string
    decreases items
  {
    if |items| == 0 then "" else ItemText(items[0]) + ItemsText(items[1..])
  }

  function ItemText(item: Content): string
    decreases item
  {
    match item
    case Text(t) => t
    case Elem(child) => ElementText(child)
  }

  /** The text of a list is the text of its parts, in order. */
  lemma {:induction false} ItemsTextAppend(a: seq<Content>, b: seq<Content>)
    ensures ItemsText(a + b) == ItemsText(a) + ItemsText(b)
    decreases |a|
  {
    if |a| == 0 {
      assert a + b == b;
    } else {
      assert (a + b)[0] == a[0];
      assert (a + b)[1..] == a[1..] + b;
      ItemsTextAppend(a[1..], b);
    }
  }

  /** A list is allowed exactly when both of its parts are. */
  lemma {:induction false} ItemsAllowedAppend(a: seq<Content>, b: seq<Content>)
    ensures ItemsAllowed(a + b) <==> ItemsAllowed(a) && ItemsAllowed(b)
    decreases |a|
  {
    if |a| == 0 {
      assert a + b == b;
    } else {
      assert (a + b)[0] == a[0];
      assert (a + b)[1..] == a[1..] + b;
      ItemsAllowedAppend(a[1..], b);
    }
  }
}

=== FILE: index_reader.dfy ===
/** The index readers (`IndexReader`, `JukugoIndexReader`).  An index file
    is a sequence of lines; each line is cut at every tab into fields, the
    first field being a key and the others the pages it appears on.  The
    plain reader keeps the reverse map page -> keys, the jukugo reader
    groups keys by page and item number parsed from "page-item" fields.

    The file itself is not read: whether it exists and opens are
    parameters, and its lines are given.
 */
module IndexReader {
  import opened Wrappers
  import opened Text
  import opened Numbers

  /** The fields of one index line: every tab starts a new field. */
  function Fields(line: string): seq<string> {
    Split(line, '\t')
  }

  // ---------------------------------------------------------------------
  // Plain index: file name -> keys

  type KeyMap = map<string, seq<string>>

  /** `getKeysForFile`: the stored list, or the empty list. */
  function KeysForFile(m: KeyMap, file: string): (r: seq<string>)
    ensures file in m ==> r == m[file]
    ensures file !in m ==> r == []
  {
    if file in m then m[file] else []
  }

  /** The key appended to the list of every non-empty page field. */
  function AddPages(m: KeyMap, key: string, pages: seq<string>): (r: KeyMap)
    ensures forall f :: f in m ==> f in r
    ensures forall f :: f in r ==> f in m || f in pages
    decreases |pages|
  {
    if |pages| == 0 then m
    else
      var page := pages[0];
      var m1 := if page != "" then m[page := KeysForFile(m, page) + [key]] else m;
      AddPages(m1, key, pages[1..])
  }

  /** One line: fewer than two fields is a malformed line and is skipped. */
  function AddLine(m: KeyMap, line: string): KeyMap {
    var parts := Fields(line);
    if |parts| < 2 then m else AddPages(m, parts[0], parts[1..])
  }

  function AddLines(m: KeyMap, lines: seq<string>): KeyMap
    decreases |lines|
  {
    if |lines| == 0 then m else AddLines(AddLine(m, lines[0]), lines[1..])
  }

  /** `loadIndex`: a missing file fails and leaves the previous map; one
      that does not open fails after the map was cleared; otherwise the map
      is rebuilt from nothing. */
  function LoadIndex(previous: KeyMap, exists_: bool, opens: bool, lines: seq<string>): (r: (bool, KeyMap))
    ensures !exists_ ==> r == (false, previous)
    ensures exists_ && !opens ==> r == (false, map[])
    ensures r.0 <==> exists_ && opens
    ensures r.0 ==> r.1 == AddLines(map[], lines)
  {
    if !exists_ then (false, previous)
    else if !opens then (false, map[])
    else (true, AddLines(map[], lines))
  }

  // The same lookup stated line by line, without the map.

  /** One copy of `key` for each page field equal to `file`. */
  function Occurrences(key: string, pages: seq<string>, file: string): (r: seq<string>)
    ensures forall k :: k in r ==> k == key
    ensures file == "" ==> r == []
    decreases |pages|
  {
    if |pages| == 0 then []
    else (if pages[0] == file && file != "" then [key] else []) + Occurrences(key, pages[1..], file)
  }

  /** The keys listed for `file`, line after line, field after field. */
  function ListedKeys(lines: seq<string>, file: string): seq<string>
    decreases |lines|
  {
    if |lines| == 0 then []
    else
      var parts := Fields(lines[0]);
      (if |parts| < 2 then [] else Occurrences(parts[0], parts[1..], file)) + ListedKeys(lines[1..], file)
  }

  lemma {:induction false} AddPagesLookup(m: KeyMap, key: string, pages: seq<string>, file: string)
    ensures KeysForFile(AddPages(m, key, pages), file) == KeysForFile(m, file) + Occurrences(key, pages, file)
    decreases |pages|
  {
    if |pages| > 0 {
      var page := pages[0];
      var m1 := if page != "" then m[page := KeysForFile(m, page) + [key]] else m;
      AddPagesLookup(m1, key, pages[1..], file);
      assert KeysForFile(m1, file) == KeysForFile(m, file) + (if page == file && file != "" then [key] else []);
    }
  }

  lemma {:induction false} AddLinesLookup(m: KeyMap, lines: seq<string>, file: string)
    ensures KeysForFile(AddLines(m, lines), file) == KeysForFile(m, file) + ListedKeys(lines, file)
    decreases |lines|
  {
    if |lines| > 0 {
      var parts := Fields(lines[0]);
      if |parts| >= 2 {
        AddPagesLookup(m, parts[0], parts[1..], file);
      }
      AddLinesLookup(AddLine(m, lines[0]), lines[1..], file);
    }
  }

  /** After a successful load, the keys of a file are the keys of the lines
      naming it as a page, in line order and once per mention, with no
      deduplication; the empty field names nothing. */
  lemma LoadedKeys(previous: KeyMap, lines: seq<string>, file: string)
    ensures LoadIndex(previous, true, true, lines).0
    ensures KeysForFile(LoadIndex(previous, true, true, lines).1, file) == ListedKeys(lines, file)
  {
    AddLinesLookup(map[], lines, file);
  }

  lemma TwoPagesFields()
    ensures Fields(Join(["key", "0001", "0002"], "\t")) == ["key", "0001", "0002"]
  {
    var parts := ["key", "0001", "0002"];
    assert forall i :: 0 <= i < |parts| ==> '\t' !in parts[i];
    SplitJoin(parts, '\t');
  }

  lemma TwoPagesListed(line: string)
    requires Fields(line) == ["key", "0001", "0002"]
    ensures ListedKeys([line], "0002") == ["key"]
  {
    assert [line][1..] == [];
    assert ["key", "0001", "0002"][1..] == ["0001", "0002"];
    assert ["0001", "0002"][1..] == ["0002"];
    assert ["0002"][1..] == [];
  }

  /** A concrete line: the key on pages 0001 and 0002 is listed under
      0002, once. */
  lemma TwoPagesExample()
    ensures KeysForFile(LoadIndex(map[], true, true, [Join(["key", "0001", "0002"], "\t")]).1, "0002") == ["key"]
  {
    var line := Join(["key", "0001", "0002"], "\t");
    TwoPagesFields();
    LoadedKeys(map[], [line], "0002");
    TwoPagesListed(line);
  }

  // ---------------------------------------------------------------------
  // Jukugo index: page -> item -> keys

  type ItemMap = map<int, seq<string>>
  type GroupedMap = map<int, ItemMap>

  /** `getGroupedEntriesForPage`: the item map of a page, or the empty map. */
  function GroupedEntriesForPage(g: GroupedMap, page: int): (r: ItemMap)
    ensures page in g ==> r == g[page]
    ensures page !in g ==> r == map[]
  {
    if page in g then g[page] else map[]
  }

  function ItemKeys(items: ItemMap, item: int): seq<string> {
    if item in items then items[item] else []
  }

  /** The key appended to `groupedEntries[page][item]`. */
  function Insert(g: GroupedMap, page: int, item: int, key: string): GroupedMap {
    var items := GroupedEntriesForPage(g, page);
    g[page := items[item := ItemKeys(items, item) + [key]]]
  }

  /** The page and item numbers of a non-empty field "P-I", or `None` when
      `stoi` throws.  Without a '-' the position past `npos` wraps to 0,
      so both numbers are read from the whole field. */
  function PageItem(field: string): (r: Option<(int, int)>)
    ensures '-' !in field ==> (r.Some? <==> StoI(field).Success?)
    ensures '-' !in field && r.Some? ==> r.value == (StoI(field).value, StoI(field).value)
  {
    var (pagePart, itemPart) :=
      match Find(field, '-')
      case None => (field, field)
      case Some(i) => (field[..i], field[i + 1..]);
    match StoI(pagePart)
    case Failure(_) => None
    case Success(page) =>
      match StoI(itemPart)
      case Failure(_) => None
      case Success(item) => Some((page, item))
  }

  /** What a page field amounts to: nothing (the empty field), a `stoi`
      exception, or a page and item number. */
  datatype FieldParse = Blank | Rejected | Parsed(page: int, item: int)

  function ParseField(field: string): (r: FieldParse)
    ensures r == Blank <==> field == ""
    ensures r == Rejected <==> field != "" && PageItem(field).None?
    ensures r.Parsed? ==> PageItem(field) == Some((r.page, r.item))
  {
    if field == "" then Blank
    else match PageItem(field)
      case None => Rejected
      case Some((page, item)) => Parsed(page, item)
  }

  function ParseFields(fields: seq<string>): (r: seq<FieldParse>)
    ensures |r| == |fields|
    ensures forall j :: 0 <= j < |fields| ==> r[j] == ParseField(fields[j])
  {
    seq(|fields|, j requires 0 <= j < |fields| => ParseField(fields[j]))
  }

  /** The page fields of one line, in order, until the first that `stoi`
      rejects: the exception abandons the rest of the line, and what was
      inserted before it stays. */
  function AddItems(g: GroupedMap, key: string, fields: seq<FieldParse>): GroupedMap
    decreases |fields|
  {
    if |fields| == 0 then g
    else match fields[0]
      case Blank => AddItems(g, key, fields[1..])
      case Rejected => g
      case Parsed(page, item) => AddItems(Insert(g, page, item, key), key, fields[1..])
  }

  function AddJukugoLine(g: GroupedMap, line: string): GroupedMap {
    var parts := Fields(line);
    if |parts| < 2 then g else AddItems(g, parts[0], ParseFields(parts[1..]))
  }

  function AddJukugoLines(g: GroupedMap, lines: seq<string>): GroupedMap
    decreases |lines|
  {
    if |lines| == 0 then g else AddJukugoLines(AddJukugoLine(g, lines[0]), lines[1..])
  }

  /** The jukugo `loadIndex`, with the same failure cases as the plain one. */
  function LoadJukugoIndex(previous: GroupedMap, exists_: bool, opens: bool, lines: seq<string>): (r: (bool, GroupedMap))
    ensures !exists_ ==> r == (false, previous)
    ensures exists_ && !opens ==> r == (false, map[])
    ensures r.0 <==> exists_ && opens
    ensures r.0 ==> r.1 == AddJukugoLines(map[], lines)
  {
    if !exists_ then (false, previous)
    else if !opens then (false, map[])
    else (true, AddJukugoLines(map[], lines))
  }

  /** A rejected field ends the line: the fields after it are never read. */
  lemma {:induction false} RejectedFieldEndsLine(g: GroupedMap, key: string, fields: seq<FieldParse>, j: nat)
    requires j < |fields| && fields[j] == Rejected
    ensures AddItems(g, key, fields) == AddItems(g, key, fields[..j])
    decreases |fields|
  {
    if j == 0 {
      assert fields[..0] == [];
    } else {
      assert fields[..j][1..] == fields[1..][..j - 1];
      assert fields[..j][0] == fields[0];
      match fields[0]
      case Blank => RejectedFieldEndsLine(g, key, fields[1..], j - 1);
      case Rejected =>
      case Parsed(page, item) => RejectedFieldEndsLine(Insert(g, page, item, key), key, fields[1..], j - 1);
    }
  }

  /** One copy of the key per field naming this page and item. */
  function Mentions(key: string, fields: seq<FieldParse>, page: int, item: int): (r: seq<string>)
    ensures forall k :: k in r ==> k == key
    decreases |fields|
  {
    if |fields| == 0 then []
    else (if fields[0] == Parsed(page, item) then [key] else []) + Mentions(key, fields[1..], page, item)
  }

  /** When no field is rejected, each parsed one adds the key once under its
      page and item, and nothing else changes. */
  lemma {:induction false} AddItemsLookup(g: GroupedMap, key: string, fields: seq<FieldParse>, page: int, item: int)
    requires forall j :: 0 <= j < |fields| ==> fields[j] != Rejected
    ensures ItemKeys(GroupedEntriesForPage(AddItems(g, key, fields), page), item)
         == ItemKeys(GroupedEntriesForPage(g, page), item) + Mentions(key, fields, page, item)
    decreases |fields|
  {
    if |fields| > 0 {
      var rest := fields[1..];
      assert forall j :: 0 <= j < |rest| ==> rest[j] == fields[j + 1];
      var g1 := if fields[0].Parsed? then Insert(g, fields[0].page, fields[0].item, key) else g;
      AddItemsLookup(g1, key, rest, page, item);
      var here := if fields[0] == Parsed(page, item) then [key] else [];
      assert ItemKeys(GroupedEntriesForPage(g1, page), item) == ItemKeys(GroupedEntriesForPage(g, page), item) + here by {
        if fields[0].Parsed? {
          InsertLookup(g, fields[0].page, fields[0].item, key, page, item);
        }
      }
      AddItemsStep(g, key, fields);
      AppendAssoc(ItemKeys(GroupedEntriesForPage(g, page), item), here, Mentions(key, rest, page, item));
    }
  }

  /** One field of a line without rejections. */
  lemma AddItemsStep(g: GroupedMap, key: string, fields: seq<FieldParse>)
    requires |fields| > 0 && fields[0] != Rejected
    ensures AddItems(g, key, fields)
         == AddItems(if fields[0].Parsed? then Insert(g, fields[0].page, fields[0].item, key) else g, key, fields[1..])
  {
  }

  lemma AppendAssoc(a: seq<string>, b: seq<string>, c: seq<string>)
    ensures a + b + c == a + (b + c)
  {
  }

  lemma InsertLookup(g: GroupedMap, p: int, i: int, key: string, page: int, item: int)
    ensures ItemKeys(GroupedEntriesForPage(Insert(g, p, i, key), page), item)
         == ItemKeys(GroupedEntriesForPage(g, page), item) + (if (p, i) == (page, item) then [key] else [])
  {
  }

  /** A field without '-' files the key under page N, item N. */
  lemma NoDashExample()
    ensures PageItem("12") == Some((12, 12))
  {
    assert Find("12", '-') == None;
    DigitsTwelve();
  }

  lemma DigitsTwelve()
    ensures StoI("12") == Success(12)
  {
    StoIDecimalString(12);
    assert DecimalString(12) == "12" by {
      assert NatString(12) == NatString(1) + [DigitChar(2)];
    }
  }
}

=== FILE: kana_convert.dfy ===
/** Hiragana/katakana conversion (module KanaConvert of the source): two
    lookup tables of 78 letters each and a code-point-wise conversion that
    replaces every table key by its image and keeps every other code point.
 */
module KanaConvert {
  import opened KanjiUtils

  /** Distance between a hiragana letter and its katakana counterpart. */
  const KANA_OFFSET: int := 0x60

  /** The 78 keys of HIRAGANA_TO_KATAKANA: the letters あ (U+3042) to ん
      (U+3093) with the voiced and semi-voiced letters and the small
      ゃゅょっゎ, but without the small vowels ぁぃぅぇぉ; ゔゕゖ (U+3094 to
      U+3096) are not in the table either. */
  predicate InHiraganaTable(c: char) {
    'あ' <= c <= 'ん' && c != 'ぃ' && c != 'ぅ' && c != 'ぇ' && c != 'ぉ'
  }

  /** The keys of KATAKANA_TO_HIRAGANA: the images of the hiragana keys. */
  predicate InKatakanaTable(c: char) {
    'ア' <= c <= 'ン' && c != 'ィ' && c != 'ゥ' && c != 'ェ' && c != 'ォ'
  }

  /** HIRAGANA_TO_KATAKANA: every entry of the source table is a key plus
      0x60, so the table is written as that shift over its key set. */
  const HIRAGANA_TO_KATAKANA: map<char, char> :=
    map c: char | InHiraganaTable(c) :: (c as int + KANA_OFFSET) as char

  /** KATAKANA_TO_HIRAGANA: every entry is its key minus 0x60. */
  const KATAKANA_TO_HIRAGANA: map<char, char> :=
    map c: char | InKatakanaTable(c) :: (c as int - KANA_OFFSET) as char

  /** A few entries read off the source tables. */
  lemma TableEntries()
    ensures HIRAGANA_TO_KATAKANA['あ'] == 'ア' && HIRAGANA_TO_KATAKANA['ん'] == 'ン'
    ensures HIRAGANA_TO_KATAKANA['ゃ'] == 'ャ' && HIRAGANA_TO_KATAKANA['ゑ'] == 'ヱ'
    ensures HIRAGANA_TO_KATAKANA['ぱ'] == 'パ' && KATAKANA_TO_HIRAGANA['ヲ'] == 'を'
    ensures 'ぁ' !in HIRAGANA_TO_KATAKANA && 'ゔ' !in HIRAGANA_TO_KATAKANA && 'ァ' !in KATAKANA_TO_HIRAGANA
  {
  }

  /** One code point through a table: its image, or itself when it is not a key. */
  function Lookup(table: map<char, char>, c: char): char {
    if c in table then table[c] else c
  }

  /** `hiraganaToKatakana`: each tabled hiragana moves up by 0x60, every other
      code point is kept. */
  function HiraganaToKatakana(text: string): (r: string)
    ensures |r| == |text|
    ensures forall i :: 0 <= i < |text| ==>
      r[i] as int == text[i] as int + (if InHiraganaTable(text[i]) then KANA_OFFSET else 0)
  {
    if |text| == 0 then []
    else seq(|text|, i requires 0 <= i < |text| => Lookup(HIRAGANA_TO_KATAKANA, text[i]))
  }

  /** `katakanaToHiragana`: each tabled katakana moves down by 0x60, every
      other code point is kept. */
  function KatakanaToHiragana(text: string): (r: string)
    ensures |r| == |text|
    ensures forall i :: 0 <= i < |text| ==>
      r[i] as int == text[i] as int - (if InKatakanaTable(text[i]) then KANA_OFFSET else 0)
  {
    if |text| == 0 then []
    else seq(|text|, i requires 0 <= i < |text| => Lookup(KATAKANA_TO_HIRAGANA, text[i]))
  }

  /** No tabled hiragana survives the conversion to katakana, so converting
      twice is converting once. */
  lemma HiraganaToKatakanaIdempotent(text: string)
    ensures forall i :: 0 <= i < |text| ==> !InHiraganaTable(HiraganaToKatakana(text)[i])
    ensures HiraganaToKatakana(HiraganaToKatakana(text)) == HiraganaToKatakana(text)
  {
  }

  /** No tabled katakana survives the conversion to hiragana, so converting
      twice is converting once. */
  lemma KatakanaToHiraganaIdempotent(text: string)
    ensures forall i :: 0 <= i < |text| ==> !InKatakanaTable(KatakanaToHiragana(text)[i])
    ensures KatakanaToHiragana(KatakanaToHiragana(text)) == KatakanaToHiragana(text)
  {
  }

  /** Converting to katakana and back restores every text that has no
      tabled katakana of its own. */
  lemma HiraganaRoundTrip(text: string)
    requires forall i :: 0 <= i < |text| ==> !InKatakanaTable(text[i])
    ensures KatakanaToHiragana(HiraganaToKatakana(text)) == text
  {
  }

  /** Converting to hiragana and back restores every text that has no
      tabled hiragana of its own. */
  lemma KatakanaRoundTrip(text: string)
    requires forall i :: 0 <= i < |text| ==> !InHiraganaTable(text[i])
    ensures HiraganaToKatakana(KatakanaToHiragana(text)) == text
  {
  }

  /** The conversions of the source's unit tests. */
  lemma ConversionExampleVowels()
    ensures HiraganaToKatakana("あいうえお") == "アイウエオ"
    ensures KatakanaToHiragana("アイウエオ") == "あいうえお"
  {
  }

  lemma ConversionExampleName()
    ensures HiraganaToKatakana("とよあしはらのみずほのくに") == "トヨアシハラノミズホノクニ"
  {
  }

  lemma ConversionExampleNameBack()
    ensures KatakanaToHiragana("トヨアシハラノミズホノクニ") == "とよあしはらのみずほのくに"
  {
  }

  lemma ConversionExampleMixed()
    ensures HiraganaToKatakana("清水の舞台から飛び降りる") == "清水ノ舞台カラ飛ビ降リル"
  {
  }

  lemma ConversionExampleMixedBack()
    ensures KatakanaToHiragana("清水ノ舞台カラ飛ビ降リル") == "清水の舞台から飛び降りる"
  {
  }
}

=== FILE: kanji_utils.dfy ===
/** Script classification of Japanese text (module KanjiUtils of the source):
    which code points count as kanji, hiragana, katakana or hentaigana, the
    whole-string and contains-one tests built on them, and the small string
    measures the key matcher uses.  Strings are sequences of Unicode code
    points; the source decodes UTF-8 into UTF-32 before every test.
 */
module KanjiUtils {

  predicate InRange(c: int, lo: int, hi: int) { lo <= c <= hi }

  /** The CJK ranges and the three special kanji 々 〇 〻. */
  predicate IsKanji(c: int) {
    InRange(c, 0x4E00, 0x9FFF)      // CJK Unified Ideographs
    || InRange(c, 0x3400, 0x4DBF)   // Extension A
    || InRange(c, 0x20000, 0x2A6DF) // Extension B
    || InRange(c, 0x2A700, 0x2B73F) // Extension C
    || InRange(c, 0x2B740, 0x2B81F) // Extension D
    || InRange(c, 0x2B820, 0x2CEAF) // Extension E
    || InRange(c, 0x2CEB0, 0x2EBEF) // Extension F
    || InRange(c, 0x30000, 0x3134F) // Extension G
    || InRange(c, 0x31350, 0x323AF) // Extension H
    || InRange(c, 0x2EBF0, 0x2EE5F) // Extension I
    || InRange(c, 0xF900, 0xFAFF)   // Compatibility Ideographs
    || InRange(c, 0x2F800, 0x2FA1F) // Compatibility Ideographs Supplement
    || InRange(c, 0x2F00, 0x2FDF)   // Kangxi Radicals
    || InRange(c, 0x2E80, 0x2EFF)   // CJK Radicals Supplement
    || InRange(c, 0x2FF0, 0x2FFF)   // Ideographic Description Characters
    || c == 0x3005 || c == 0x3007 || c == 0x303B
  }

  /** The hiragana block, the historic small hiragana, and archaic ye. */
  predicate IsHiragana(c: int) {
    InRange(c, 0x3040, 0x309F) || InRange(c, 0x1B132, 0x1B154) || c == 0x1B001
  }

  /** The katakana blocks, the half- and full-width forms, the historic small
      katakana, and the four archaic katakana letters. */
  predicate IsKatakana(c: int) {
    InRange(c, 0x30A0, 0x30FF) || InRange(c, 0x31F0, 0x31FF) || InRange(c, 0xFF00, 0xFFEF)
    || InRange(c, 0x1AFF0, 0x1AFFF) || InRange(c, 0x1B155, 0x1B16F)
    || c == 0x1B120 || c == 0x1B121 || c == 0x1B122 || c == 0x1B000
  }

  /** The hentaigana ranges (no special code points). */
  predicate IsHentaigana(c: int) {
    InRange(c, 0x1B100, 0x1B11E) || InRange(c, 0x1B002, 0x1B0FF)
  }

  datatype Script = Kanji | Hiragana | Katakana | Hentaigana

  predicate InScript(c: int, sc: Script) {
    match sc
    case Kanji => IsKanji(c)
    case Hiragana => IsHiragana(c)
    case Katakana => IsKatakana(c)
    case Hentaigana => IsHentaigana(c)
  }

  /** No code point belongs to two scripts. */
  lemma ScriptsDisjoint(c: int, a: Script, b: Script)
    requires InScript(c, a) && InScript(c, b)
    ensures a == b
  {
  }

  /** The character-by-character scan of the `is...String` functions:
      stops at the first code point outside the script. */
  function AllInScript(s: string, sc: Script): (r: bool)
    ensures r <==> forall i :: 0 <= i < |s| ==> InScript(s[i] as int, sc)
  {
    if |s| == 0 then true
    else if !InScript(s[0] as int, sc) then false
    else AllInScript(s[1..], sc)
  }

  /** The scan of the `contains...` functions: stops at the first code point
      inside the script. */
  function AnyInScript(s: string, sc: Script): (r: bool)
    ensures r <==> exists i :: 0 <= i < |s| && InScript(s[i] as int, sc)
  {
    if |s| == 0 then false
    else if InScript(s[0] as int, sc) then true
    else AnyInScript(s[1..], sc)
  }

  /** `isKanjiString`, `isHiraganaString`, ...: false for the empty string. */
  predicate IsScriptString(s: string, sc: Script) { |s| > 0 && AllInScript(s, sc) }

  /** `containsKanji`, `containsHiragana`, ...: false for the empty string. */
  predicate ContainsScript(s: string, sc: Script) { |s| > 0 && AnyInScript(s, sc) }

  predicate IsKanjiString(s: string) { IsScriptString(s, Kanji) }
  predicate ContainsKanji(s: string) { ContainsScript(s, Kanji) }
  predicate IsHiraganaString(s: string) { IsScriptString(s, Hiragana) }
  predicate IsKatakanaString(s: string) { IsScriptString(s, Katakana) }
  predicate IsHentaiganaString(s: string) { IsScriptString(s, Hentaigana) }

  /** A whole-string test implies the contains test of the same script, and
      rules out every other script. */
  lemma ScriptStringExcludes(s: string, sc: Script, other: Script)
    requires IsScriptString(s, sc) && other != sc
    ensures ContainsScript(s, sc) && !ContainsScript(s, other)
  {
    assert InScript(s[0] as int, sc);
    forall i | 0 <= i < |s| && InScript(s[i] as int, other)
      ensures false
    {
      ScriptsDisjoint(s[i] as int, sc, other);
    }
  }

  /** `extractKanjiStem`: the kanji of `s`, in order. */
  function ExtractKanjiStem(s: string): (r: string)
    ensures forall i :: 0 <= i < |r| ==> IsKanji(r[i] as int)
  {
    if |s| == 0 then [] else (if IsKanji(s[0] as int) then [s[0]] else []) + ExtractKanjiStem(s[1..])
  }

  /** The code points of `s` that are not kanji, in order (the okurigana and
      other residue the matcher groups kanji entries by). */
  function NonKanjiPart(s: string): (r: string)
    ensures forall i :: 0 <= i < |r| ==> !IsKanji(r[i] as int)
  {
    if |s| == 0 then [] else (if IsKanji(s[0] as int) then [] else [s[0]]) + NonKanjiPart(s[1..])
  }

  /** Stem and residue split the string: together they hold every code point
      exactly once. */
  lemma {:induction false} StemAndResidue(s: string)
    ensures multiset(ExtractKanjiStem(s)) + multiset(NonKanjiPart(s)) == multiset(s)
    ensures |ExtractKanjiStem(s)| + |NonKanjiPart(s)| == |s|
  {
    if |s| > 0 {
      StemAndResidue(s[1..]);
      assert s == [s[0]] + s[1..];
    }
  }

  /** The stem is empty exactly when `s` contains no kanji. */
  lemma {:induction false} StemEmpty(s: string)
    ensures ExtractKanjiStem(s) == [] <==> !ContainsKanji(s)
  {
    if |s| > 0 {
      StemEmpty(s[1..]);
    }
  }

  /** The residue is empty exactly when every code point of `s` is a kanji. */
  lemma {:induction false} ResidueEmpty(s: string)
    ensures NonKanjiPart(s) == [] <==> AllInScript(s, Kanji)
  {
    if |s| > 0 {
      ResidueEmpty(s[1..]);
    }
  }

  /** `longestCommonSuffix`: the number of trailing code points `a` and `b`
      share. */
  function LongestCommonSuffix(a: string, b: string): (n: nat)
    ensures n <= |a| && n <= |b|
    ensures a[|a| - n..] == b[|b| - n..]
    ensures n < |a| && n < |b| ==> a[|a| - n - 1] != b[|b| - n - 1]
  {
    if |a| == 0 || |b| == 0 || a[|a| - 1] != b[|b| - 1] then 0
    else
      var a', b' := a[..|a| - 1], b[..|b| - 1];
      var m := LongestCommonSuffix(a', b');
      SuffixExtend(a, b, a', b', m);
      m + 1
  }

  /** A common suffix of the two strings without their equal last code
      points, one longer. */
  lemma SuffixExtend(a: string, b: string, a': string, b': string, m: nat)
    requires |a| > 0 && |b| > 0 && a[|a| - 1] == b[|b| - 1]
    requires a' == a[..|a| - 1] && b' == b[..|b| - 1]
    requires m <= |a'| && m <= |b'| && a'[|a'| - m..] == b'[|b'| - m..]
    requires m < |a'| && m < |b'| ==> a'[|a'| - m - 1] != b'[|b'| - m - 1]
    ensures a[|a| - (m + 1)..] == b[|b| - (m + 1)..]
    ensures m + 1 < |a| && m + 1 < |b| ==> a[|a| - (m + 1) - 1] != b[|b| - (m + 1) - 1]
  {
    SuffixStep(a, m);
    SuffixStep(b, m);
  }

  lemma SuffixStep(s: string, m: nat)
    requires m < |s|
    ensures s[|s| - (m + 1)..] == s[..|s| - 1][|s| - 1 - m..] + [s[|s| - 1]]
  {
  }

  /** `longestCommonPrefix`: the number of leading code points `a` and `b`
      share. */
  function LongestCommonPrefix(a: string, b: string): (n: nat)
    ensures n <= |a| && n <= |b|
    ensures a[..n] == b[..n]
    ensures n < |a| && n < |b| ==> a[n] != b[n]
  {
    if |a| == 0 || |b| == 0 || a[0] != b[0] then 0
    else
      var m := LongestCommonPrefix(a[1..], b[1..]);
      assert a[..m + 1] == [a[0]] + a[1..][..m];
      assert b[..m + 1] == [b[0]] + b[1..][..m];
      m + 1
  }

  /** `isPlausibleReading`: the kana has at least one and at most five code
      points per kanji of the entry. */
  predicate IsPlausibleReading(kana: string, kanji: string) {
    var k := |ExtractKanjiStem(kanji)|;
    k <= |kana| <= k * 5
  }
}

=== FILE: key_branches.dfy ===
/** The results of the three branches of one level of
    `matchKanaWithKanji`, given what the deeper level returned. */
module KeyBranches {
  import opened Wrappers
  import opened Text
  import opened KanjiUtils
  import opened KeyPairs
  import opened KeyGroups
  import opened KeyPasses
  import opened KeyShapes

  /** The single-reading shortcut: every kanji form gets the one reading. */
  function SingleReading(entries: seq<string>, kana: seq<string>, kanji: seq<string>, head: seq<Pair>): (r: seq<Pair>)
    requires Partitioned(entries, kana, kanji, head) && |kana| == 1 && |kanji| > 0
    ensures AllWellFormed(r) && SlotsFrom(r, entries) && Covers(r, entries)
    ensures r == head + PairsWith(kanji, kana[0])
    ensures |head| <= |r| && r[..|head|] == head
  {
    var pairs := PairsWith(kanji, kana[0]);
    HeadShape(entries, kana, kanji, head);
    SingleReadingPairs(entries, kana, kanji, head);
    JoinShape(head, pairs, entries);
    SingleReadingCovers(entries, kana, kanji, head);
    Leads(head, pairs, []);
    head + pairs
  }

  lemma SingleReadingPairs(entries: seq<string>, kana: seq<string>, kanji: seq<string>, head: seq<Pair>)
    requires Partitioned(entries, kana, kanji, head) && |kana| == 1 && |kanji| > 0
    ensures AllWellFormed(PairsWith(kanji, kana[0])) && SlotsFrom(PairsWith(kanji, kana[0]), entries)
  {
    PartitionFacts(entries);
    PairsWithFacts(kanji, kana[0]);
    assert kana[0] in kana;
  }

  lemma SingleReadingCovers(entries: seq<string>, kana: seq<string>, kanji: seq<string>, head: seq<Pair>)
    requires Partitioned(entries, kana, kanji, head) && |kana| == 1 && |kanji| > 0
    ensures Covers(head + PairsWith(kanji, kana[0]), entries)
  {
    PartitionFacts(entries);
    ReadingsOnlyFacts(ForeignEntries(entries));
    PairsWithFacts(kanji, kana[0]);
    var r := head + PairsWith(kanji, kana[0]);
    forall x | x in entries ensures exists p :: p in r && InSlot(x, p) {
      if x in kanji {
        assert Pair(Some(x), Some(kana[0])) in r;
      } else if x in kana {
        assert Pair(Some(kanji[0]), Some(kana[0])) in r;
      } else {
        assert Pair(None, Some(x)) in r;
      }
    }
  }

  /** The るる branch: the cross product, then the rest one level deeper. */
  function RuruResult(entries: seq<string>, kana: seq<string>, kanji: seq<string>, head: seq<Pair>,
                      ruruKana: seq<string>, ruruKanji: seq<string>,
                      restKana: seq<string>, restKanji: seq<string>, more: seq<Pair>): (r: seq<Pair>)
    requires Partitioned(entries, kana, kanji, head)
    requires |ruruKana| > 0 && |ruruKanji| > 0
    requires forall x :: x in ruruKana ==> x in kana
    requires forall x :: x in ruruKanji ==> x in kanji
    requires restKana == Without(kana, ruruKana) && restKanji == Without(kanji, ruruKanji)
    requires AllWellFormed(more) && SlotsFrom(more, restKana + restKanji) && Covers(more, restKana + restKanji)
    ensures AllWellFormed(r) && SlotsFrom(r, entries) && Covers(r, entries)
    ensures r == head + CrossPairs(ruruKana, ruruKanji) + more
    ensures |head| <= |r| && r[..|head|] == head
  {
    var cross := CrossPairs(ruruKana, ruruKanji);
    HeadShape(entries, kana, kanji, head);
    RuruPairs(entries, kana, kanji, head, ruruKana, ruruKanji, restKana, restKanji, more);
    JoinShape(head, cross, entries);
    JoinShape(head + cross, more, entries);
    RuruCovers(entries, kana, kanji, head, ruruKana, ruruKanji, restKana, restKanji, more);
    Leads(head, cross, more);
    head + cross + more
  }

  lemma RuruPairs(entries: seq<string>, kana: seq<string>, kanji: seq<string>, head: seq<Pair>,
                  ruruKana: seq<string>, ruruKanji: seq<string>,
                  restKana: seq<string>, restKanji: seq<string>, more: seq<Pair>)
    requires Partitioned(entries, kana, kanji, head)
    requires forall x :: x in ruruKana ==> x in kana
    requires forall x :: x in ruruKanji ==> x in kanji
    requires restKana == Without(kana, ruruKana) && restKanji == Without(kanji, ruruKanji)
    requires SlotsFrom(more, restKana + restKanji)
    ensures AllWellFormed(CrossPairs(ruruKana, ruruKanji)) && SlotsFrom(CrossPairs(ruruKana, ruruKanji), entries)
    ensures SlotsFrom(more, entries)
  {
    PartitionFacts(entries);
    SlotsWiden(more, restKana + restKanji, entries);
  }

  lemma RuruCovers(entries: seq<string>, kana: seq<string>, kanji: seq<string>, head: seq<Pair>,
                   ruruKana: seq<string>, ruruKanji: seq<string>,
                   restKana: seq<string>, restKanji: seq<string>, more: seq<Pair>)
    requires Partitioned(entries, kana, kanji, head)
    requires |ruruKana| > 0 && |ruruKanji| > 0
    requires restKana == Without(kana, ruruKana) && restKanji == Without(kanji, ruruKanji)
    requires Covers(more, restKana + restKanji)
    ensures Covers(head + CrossPairs(ruruKana, ruruKanji) + more, entries)
  {
    PartitionFacts(entries);
    ReadingsOnlyFacts(ForeignEntries(entries));
    var r := head + CrossPairs(ruruKana, ruruKanji) + more;
    forall x | x in entries ensures exists p :: p in r && InSlot(x, p) {
      if x in ruruKana {
        assert Pair(Some(ruruKanji[0]), Some(x)) in r;
      } else if x in ruruKanji {
        assert Pair(Some(x), Some(ruruKana[0])) in r;
      } else if x in kana || x in kanji {
        assert x in restKana + restKanji;
      } else {
        assert Pair(None, Some(x)) in r;
      }
    }
  }

  /** The grouping branch: the pass pairs, then the rest one level deeper. */
  function PassesResult(entries: seq<string>, kana: seq<string>, kanji: seq<string>, head: seq<Pair>,
                        st: MatchState, restKana: seq<string>, restKanji: seq<string>, more: seq<Pair>): (r: seq<Pair>)
    requires Partitioned(entries, kana, kanji, head)
    requires StateFrom(st, kana, kanji)
    requires restKana == Unmatched(kana, st.matchedKanji) && restKanji == Unmatched(kanji, st.matchedKanji)
    requires AllWellFormed(more) && SlotsFrom(more, restKanji + restKana) && Covers(more, restKanji + restKana)
    ensures AllWellFormed(r) && SlotsFrom(r, entries) && Covers(r, entries)
    ensures r == head + st.results + more
    ensures |head| <= |r| && r[..|head|] == head
  {
    HeadShape(entries, kana, kanji, head);
    PassesPairs(entries, kana, kanji, head, st, restKana, restKanji, more);
    JoinShape(head, st.results, entries);
    JoinShape(head + st.results, more, entries);
    PassesCovers(entries, kana, kanji, head, st, restKana, restKanji, more);
    Leads(head, st.results, more);
    head + st.results + more
  }

  lemma PassesPairs(entries: seq<string>, kana: seq<string>, kanji: seq<string>, head: seq<Pair>,
                    st: MatchState, restKana: seq<string>, restKanji: seq<string>, more: seq<Pair>)
    requires Partitioned(entries, kana, kanji, head)
    requires StateFrom(st, kana, kanji)
    requires restKana == Unmatched(kana, st.matchedKanji) && restKanji == Unmatched(kanji, st.matchedKanji)
    requires SlotsFrom(more, restKanji + restKana)
    ensures AllWellFormed(st.results) && SlotsFrom(st.results, entries)
    ensures SlotsFrom(more, entries)
  {
    PartitionFacts(entries);
    SlotsWiden(more, restKanji + restKana, entries);
  }

  lemma PassesCovers(entries: seq<string>, kana: seq<string>, kanji: seq<string>, head: seq<Pair>,
                     st: MatchState, restKana: seq<string>, restKanji: seq<string>, more: seq<Pair>)
    requires Partitioned(entries, kana, kanji, head)
    requires StateFrom(st, kana, kanji)
    requires restKana == Unmatched(kana, st.matchedKanji) && restKanji == Unmatched(kanji, st.matchedKanji)
    requires Covers(more, restKanji + restKana)
    ensures Covers(head + st.results + more, entries)
  {
    PartitionFacts(entries);
    ReadingsOnlyFacts(ForeignEntries(entries));
    var r := head + st.results + more;
    forall x | x in entries ensures exists p :: p in r && InSlot(x, p) {
      if x in st.matchedKanji {
        var p :| p in st.results && p.kanji == Some(x);
        assert p in r && InSlot(x, p);
      } else if x in kana || x in kanji {
        assert x in restKanji + restKana;
      } else {
        assert Pair(None, Some(x)) in r;
      }
    }
  }
}

=== FILE: key_groups.dfy ===
/** `kanji_groups` of `matchKanaWithKanji`: the kanji forms grouped under
    their residue, the non-kanji part of the form. */
module KeyGroups {
  import opened Wrappers
  import opened Text
  import opened KanjiUtils
  import opened KeyPairs

  /** The map key of a kanji form: its non-kanji code points, or the whole
      form when it is all kanji. */
  function GroupKey(k: string): (key: string)
    ensures |k| > 0 ==> |key| > 0
  {
    var rest := NonKanjiPart(k);
    if rest == [] then k else rest
  }

  /** One entry of `kanji_groups`. */
  datatype Group = Group(key: string, members: seq<string>)

  /** The groups hold only forms of `kanji`, each under its own key, with
      no key twice. */
  predicate GroupsFrom(groups: seq<Group>, kanji: seq<string>) {
    (forall j, m :: 0 <= j < |groups| && m in groups[j].members ==> m in kanji && GroupKey(m) == groups[j].key)
    && (forall i, j :: 0 <= i < j < |groups| ==> groups[i].key != groups[j].key)
  }

  /** Every form is a member of the group of its key. */
  predicate GroupsCover(groups: seq<Group>, kanji: seq<string>) {
    forall k :: k in kanji ==> exists j :: 0 <= j < |groups| && groups[j].key == GroupKey(k) && k in groups[j].members
  }

  function GroupIndex(groups: seq<Group>, key: string): (r: Option<nat>)
    ensures r.Some? ==> r.value < |groups| && groups[r.value].key == key
    ensures r.None? ==> forall j :: 0 <= j < |groups| ==> groups[j].key != key
  {
    if |groups| == 0 then None
    else if groups[0].key == key then Some(0)
    else match GroupIndex(groups[1..], key)
      case None => None
      case Some(j) => Some(j + 1)
  }

  /** `kanji_groups[key].push_back(kanji)`. */
  function AddToGroups(groups: seq<Group>, k: string, kanji: seq<string>): (r: seq<Group>)
    requires GroupsFrom(groups, kanji) && k in kanji
    ensures GroupsFrom(r, kanji)
    ensures |groups| <= |r|
    ensures forall j, m :: 0 <= j < |groups| && m in groups[j].members ==> r[j].key == groups[j].key && m in r[j].members
    ensures exists j :: 0 <= j < |r| && r[j].key == GroupKey(k) && k in r[j].members
  {
    var key := GroupKey(k);
    match GroupIndex(groups, key)
    case Some(j) =>
      AppendToGroup(groups, j, k, kanji);
      groups[j := Group(key, groups[j].members + [k])]
    case None =>
      AppendNewGroup(groups, k, kanji);
      groups + [Group(key, [k])]
  }

  lemma AppendNewGroup(groups: seq<Group>, k: string, kanji: seq<string>)
    requires GroupsFrom(groups, kanji) && k in kanji
    requires forall j :: 0 <= j < |groups| ==> groups[j].key != GroupKey(k)
    ensures var r := groups + [Group(GroupKey(k), [k])];
      GroupsFrom(r, kanji)
      && (forall i, m :: 0 <= i < |groups| && m in groups[i].members ==> r[i].key == groups[i].key && m in r[i].members)
      && r[|groups|].key == GroupKey(k) && k in r[|groups|].members
  {
    var r := groups + [Group(GroupKey(k), [k])];
    assert forall i :: 0 <= i < |groups| ==> r[i] == groups[i];
  }

  lemma AppendToGroup(groups: seq<Group>, j: nat, k: string, kanji: seq<string>)
    requires GroupsFrom(groups, kanji) && k in kanji
    requires j < |groups| && groups[j].key == GroupKey(k)
    ensures var r := groups[j := Group(GroupKey(k), groups[j].members + [k])];
      GroupsFrom(r, kanji)
      && (forall i, m :: 0 <= i < |groups| && m in groups[i].members ==> r[i].key == groups[i].key && m in r[i].members)
      && r[j].key == GroupKey(k) && k in r[j].members
  {
    var r := groups[j := Group(GroupKey(k), groups[j].members + [k])];
    assert forall i :: 0 <= i < |groups| ==> r[i].key == groups[i].key;
    forall i, m | 0 <= i < |r| && m in r[i].members
      ensures m in kanji && GroupKey(m) == r[i].key
    {
      if i == j && m !in groups[j].members {
        assert m == k;
      }
    }
  }

  lemma GroupsFromWiden(groups: seq<Group>, a: seq<string>, b: seq<string>)
    requires GroupsFrom(groups, a)
    requires forall x :: x in a ==> x in b
    ensures GroupsFrom(groups, b)
  {
  }

  /** The grouping loop over the kanji forms, in order. */
  function GroupByResidue(kanji: seq<string>): (groups: seq<Group>)
    ensures GroupsFrom(groups, kanji) && GroupsCover(groups, kanji)
    decreases |kanji|
  {
    if |kanji| == 0 then []
    else
      var init := kanji[..|kanji| - 1];
      var last := kanji[|kanji| - 1];
      var before := GroupByResidue(init);
      assert kanji == init + [last];
      GroupsFromWiden(before, init, kanji);
      var groups := AddToGroups(before, last, kanji);
      CoverAfterAdd(before, groups, init, last);
      groups
  }

  /** Groups that keep every earlier member and gain `last` cover the forms
      with `last` appended. */
  lemma CoverAfterAdd(before: seq<Group>, groups: seq<Group>, init: seq<string>, last: string)
    requires GroupsCover(before, init) && |before| <= |groups|
    requires forall j, m :: 0 <= j < |before| && m in before[j].members ==> groups[j].key == before[j].key && m in groups[j].members
    requires exists j :: 0 <= j < |groups| && groups[j].key == GroupKey(last) && last in groups[j].members
    ensures GroupsCover(groups, init + [last])
  {
    forall k | k in init + [last]
      ensures exists j :: 0 <= j < |groups| && groups[j].key == GroupKey(k) && k in groups[j].members
    {
      if k != last {
        assert k in init;
        var j :| 0 <= j < |before| && before[j].key == GroupKey(k) && k in before[j].members;
        assert groups[j].key == GroupKey(k) && k in groups[j].members;
      }
    }
  }
}

=== FILE: key_matcher.dfy ===
/** Pairing of dictionary keys (`matchKanaWithKanji`): a flat list of key
    strings is split into kanji forms, kana readings and foreign strings, and
    every kanji form is paired with the reading that fits it best.  The
    passes run in the source's order: the single-reading shortcut, the るる
    cross product, the exact residue match, the common-suffix and
    common-prefix matches, the plausible-length match, and a recursive call
    on what is left, at most eight levels deep.

    The groups of kanji forms sharing a residue live in an `unordered_map`
    in the source, so the order in which a pass visits them is unspecified;
    the model visits them in order of their first member.  Every property
    proved here holds whatever that order is taken to be.
 */
module KeyMatcher {
  import opened Wrappers
  import opened Text
  import opened KanjiUtils
  import opened KeyPairs
  import opened KeyGroups
  import opened KeyPasses
  import opened KeyShapes
  import opened KeyBranches

  /** `matchKanaWithKanji(entries, recursionLevel)`. */
  function MatchKanaWithKanji(entries: seq<string>, level: nat): (r: seq<Pair>)
    ensures AllWellFormed(r) && SlotsFrom(r, entries) && Covers(r, entries)
    ensures level >= MAX_RECURSION ==> r == Unpaired(entries)
    ensures level < MAX_RECURSION ==>
      var foreign := ForeignEntries(entries);
      |foreign| <= |r| && r[..|foreign|] == ReadingsOnly(foreign)
    decreases MAX_RECURSION - level, 1
  {
    if level >= MAX_RECURSION then UnpairedFacts(entries); Unpaired(entries)
    else
      var kanji := KanjiEntries(entries);
      var kana := KanaEntries(entries);
      var head := ReadingsOnly(ForeignEntries(entries));
      if |kana| == 1 && |kanji| > 0 then
        SingleReading(entries, kana, kanji, head)
      else
        var ruruKana := RuruEntries(kana);
        var ruruKanji := if |ruruKana| > 0 then RuruEntries(kanji) else [];
        if |ruruKana| > 0 && |ruruKanji| > 0 then
          RuruBranch(entries, kana, kanji, head, ruruKana, ruruKanji, level)
        else
          GroupingBranch(entries, kana, kanji, head, level)
  }

  /** The るる branch of one level: the cross product, then what is left of
      both lists one level deeper. */
  function RuruBranch(entries: seq<string>, kana: seq<string>, kanji: seq<string>, head: seq<Pair>,
                      ruruKana: seq<string>, ruruKanji: seq<string>, level: nat): (r: seq<Pair>)
    requires level < MAX_RECURSION && Partitioned(entries, kana, kanji, head)
    requires |ruruKana| > 0 && |ruruKanji| > 0 && ruruKana == RuruEntries(kana) && ruruKanji == RuruEntries(kanji)
    ensures AllWellFormed(r) && SlotsFrom(r, entries) && Covers(r, entries)
    ensures forall a, b :: a in ruruKana && b in ruruKanji ==> Pair(Some(b), Some(a)) in r
    ensures |head| <= |r| && r[..|head|] == head
    decreases MAX_RECURSION - level, 0
  {
    var restKana := Without(kana, ruruKana);
    var restKanji := Without(kanji, ruruKanji);
    var more := if |restKana| > 0 || |restKanji| > 0 then MatchKanaWithKanji(restKana + restKanji, level + 1) else [];
    var r := RuruResult(entries, kana, kanji, head, ruruKana, ruruKanji, restKana, restKanji, more);
    assert forall p :: p in CrossPairs(ruruKana, ruruKanji) ==> p in r;
    r
  }

  /** The grouping branch of one level: the four passes, then the entries
      left unmatched one level deeper. */
  function GroupingBranch(entries: seq<string>, kana: seq<string>, kanji: seq<string>, head: seq<Pair>,
                          level: nat): (r: seq<Pair>)
    requires level < MAX_RECURSION && Partitioned(entries, kana, kanji, head)
    ensures AllWellFormed(r) && SlotsFrom(r, entries) && Covers(r, entries)
    ensures forall p :: p in RunPasses(kana, kanji).results ==> p in r
    ensures |head| <= |r| && r[..|head|] == head
    decreases MAX_RECURSION - level, 0
  {
    var st := RunPasses(kana, kanji);
    var restKanji := Unmatched(kanji, st.matchedKanji);
    // As written, the readings are filtered against the matched KANJI
    // forms, so every reading goes on to the next level.
    var restKana := Unmatched(kana, st.matchedKanji);
    var more :=
      if |restKanji| > 0 || |restKana| > 0 then MatchKanaWithKanji(restKanji + restKana, level + 1)
      else ReadingsOnly(restKana) + Unpaired(restKanji);
    var r := PassesResult(entries, kana, kanji, head, st, restKana, restKanji, more);
    assert forall p :: p in st.results ==> p in r;
    r
  }
}

=== FILE: key_matcher_examples.dfy ===
/** `matchKanaWithKanji` on concrete key lists. */
module KeyMatcherExamples {
  import opened Wrappers
  import opened Text
  import opened KanjiUtils
  import opened KeyPairs
  import opened KeyMatcher
  import opened KeyMatcherProperties

  lemma PairsWithSingle(k: string, kana: string)
    ensures PairsWith([k], kana) == [Pair(Some(k), Some(kana))]
  {
    assert PairsWith([k], kana)[0] == Pair(Some(k), Some(kana));
  }

  lemma SingleReadingEntries()
    ensures KanjiEntries(["漢字", "かんじ"]) == ["漢字"]
    ensures KanaEntries(["漢字", "かんじ"]) == ["かんじ"]
    ensures ForeignEntries(["漢字", "かんじ"]) == []
  {
    assert ContainsKanji("漢字");
    assert !ContainsKanji("かんじ") && IsHiraganaString("かんじ");
  }

  /** A single reading is paired with the only kanji form. */
  lemma SingleReadingExample()
    ensures MatchKanaWithKanji(["漢字", "かんじ"], 0) == [Pair(Some("漢字"), Some("かんじ"))]
  {
    SingleReadingEntries();
    SingleReadingPairsAll(["漢字", "かんじ"], 0);
    PairsWithSingle("漢字", "かんじ");
    assert ReadingsOnly([]) == [];
  }

  lemma KanaOnlyEntry()
    ensures forall e :: e in ["あいうえお"] ==> !ContainsKanji(e) && IsKanaEntry(e)
  {
    assert !ContainsKanji("あいうえお") && IsHiraganaString("あいうえお");
  }

  /** A lone reading comes back as a headword without a reading. */
  lemma KanaOnlyExample()
    ensures MatchKanaWithKanji(["あいうえお"], 0) == [Pair(Some("あいうえお"), None)]
  {
    KanaOnlyEntry();
    ReadingsOnlyComeBackUnpaired(["あいうえお"], 0);
    UnpairedSingle("あいうえお");
  }

  lemma UnpairedSingle(e: string)
    ensures Unpaired([e]) == [Pair(Some(e), None)]
  {
    assert Unpaired([e])[0] == Pair(Some(e), None);
  }
}

=== FILE: key_matcher_properties.dfy ===
/** What `matchKanaWithKanji` does on whole classes of inputs: readings
    alone, the るる cross product, the exact residue match and the single
    reading shortcut. */
module KeyMatcherProperties {
  import opened Wrappers
  import opened Text
  import opened KanjiUtils
  import opened KeyPairs
  import opened KeyGroups
  import opened KeyPasses
  import opened KeyShapes
  import opened KeyBranches
  import opened KeyMatcher

  /** Without kanji forms the similarity passes pair nothing. */
  lemma {:induction false} SimilarityPassNoGroups(affix: Affix, minLength: nat, todo: seq<string>,
                                                  kana: seq<string>, kanji: seq<string>, st: MatchState)
    requires StateFrom(st, kana, kanji) && forall x :: x in todo ==> x in kana
    ensures SimilarityPass(affix, minLength, todo, [], kana, kanji, st) == st
    decreases |todo|
  {
    if |todo| > 0 {
      assert MatchByAffix(affix, minLength, todo[0], [], kana, kanji, st) == st;
      SimilarityPassNoGroups(affix, minLength, todo[1..], kana, kanji, st);
    }
  }

  /** Without kanji forms the plausible-length pass pairs nothing. */
  lemma {:induction false} PlausiblePassNoCandidates(todo: seq<string>, kana: seq<string>, st: MatchState)
    requires StateFrom(st, kana, []) && forall x :: x in todo ==> x in kana
    ensures PlausiblePass(todo, kana, [], st) == st
    decreases |todo|
  {
    if |todo| > 0 {
      PlausiblePassNoCandidates(todo[1..], kana, st);
    }
  }

  /** With no kanji form the four passes produce nothing. */
  lemma RunPassesNoKanji(kana: seq<string>)
    ensures RunPasses(kana, []) == MatchState([], {}, {})
  {
    var st0 := MatchState([], {}, {});
    assert GroupByResidue([]) == [];
    assert ExactPass([], kana, [], st0) == st0;
    SimilarityPassNoGroups(Suffix, 1, kana, kana, [], st0);
    SimilarityPassNoGroups(Prefix, 3, kana, kana, [], st0);
    PlausiblePassNoCandidates(kana, kana, st0);
  }

  /** A key list made of readings only comes back unpaired, every reading on
      the KANJI side: with no kanji form nothing is matched, the matched-kanji
      filter keeps every reading, and each level hands the same list to the
      next until the depth limit. */
  lemma ReadingsOnlyComeBackUnpaired(entries: seq<string>, level: nat)
    requires forall e :: e in entries ==> !ContainsKanji(e) && IsKanaEntry(e)
    ensures MatchKanaWithKanji(entries, level) == Unpaired(entries)
  {
    if level < MAX_RECURSION {
      if |entries| == 0 {
        ReadingsOnlyStep(entries, level);
      } else {
        forall l | level <= l < MAX_RECURSION
          ensures MatchKanaWithKanji(entries, l) == MatchKanaWithKanji(entries, l + 1)
        {
          ReadingsOnlyStep(entries, l);
        }
        var f: nat -> seq<Pair> := (l: nat) => MatchKanaWithKanji(entries, l);
        ConstantUpTo(f, level, MAX_RECURSION);
      }
    }
  }

  /** A sequence of results that does not change from one level to the next
      is the same at the limit. */
  lemma {:induction false} ConstantUpTo(f: nat -> seq<Pair>, level: nat, limit: nat)
    requires level <= limit
    requires forall l :: level <= l < limit ==> f(l) == f(l + 1)
    ensures f(level) == f(limit)
    decreases limit - level
  {
    if level < limit {
      ConstantUpTo(f, level + 1, limit);
    }
  }

  /** One level hands a list of readings on unchanged. */
  lemma ReadingsOnlyStep(entries: seq<string>, level: nat)
    requires forall e :: e in entries ==> !ContainsKanji(e) && IsKanaEntry(e)
    requires level < MAX_RECURSION
    ensures |entries| > 0 ==> MatchKanaWithKanji(entries, level) == MatchKanaWithKanji(entries, level + 1)
    ensures |entries| == 0 ==> MatchKanaWithKanji(entries, level) == [] == Unpaired(entries)
  {
    ReadingsOnlyTakeGrouping(entries, level);
    ReadingsOnlyGoDeeper(entries, level);
  }

  /** A list of readings takes the grouping branch, with no kanji form. */
  lemma ReadingsOnlyTakeGrouping(entries: seq<string>, level: nat)
    requires forall e :: e in entries ==> !ContainsKanji(e) && IsKanaEntry(e)
    requires level < MAX_RECURSION
    ensures Partitioned(entries, entries, [], [])
    ensures MatchKanaWithKanji(entries, level) == GroupingBranch(entries, entries, [], [], level)
  {
    FilterNone(entries, e => ContainsKanji(e));
    FilterNone(entries, e => !ContainsKanji(e) && !IsKanaEntry(e));
    FilterAll(entries, e => !ContainsKanji(e) && IsKanaEntry(e));
    assert KanjiEntries(entries) == [] && KanaEntries(entries) == entries && ForeignEntries(entries) == [];
    assert RuruEntries([]) == [];
  }

  /** With no kanji form the passes match nothing and every reading goes
      one level deeper. */
  lemma ReadingsOnlyGoDeeper(entries: seq<string>, level: nat)
    requires level < MAX_RECURSION && Partitioned(entries, entries, [], [])
    ensures GroupingBranch(entries, entries, [], [], level)
         == if |entries| > 0 then MatchKanaWithKanji(entries, level + 1) else []
  {
    var st0 := MatchState([], {}, {});
    RunPassesNoKanji(entries);
    FilterAll(entries, m => m !in st0.matchedKanji);
    assert Unmatched(entries, st0.matchedKanji) == entries;
    assert Unmatched([], st0.matchedKanji) == [];
    assert [] + entries == entries;
  }

  /** In the るる branch every るる reading is paired with every るる kanji form. */
  lemma RuruCrossProduct(entries: seq<string>, level: nat)
    requires level < MAX_RECURSION
    requires !(|KanaEntries(entries)| == 1 && |KanjiEntries(entries)| > 0)
    requires |RuruEntries(KanaEntries(entries))| > 0 && |RuruEntries(KanjiEntries(entries))| > 0
    ensures forall a, b :: a in RuruEntries(KanaEntries(entries)) && b in RuruEntries(KanjiEntries(entries)) ==>
      Pair(Some(b), Some(a)) in MatchKanaWithKanji(entries, level)
  {
  }

  /** In the grouping branch a kanji form whose residue is itself one of the
      readings is paired with that reading. */
  lemma ExactResidueMatch(entries: seq<string>, level: nat)
    requires level < MAX_RECURSION
    requires !(|KanaEntries(entries)| == 1 && |KanjiEntries(entries)| > 0)
    requires !(|RuruEntries(KanaEntries(entries))| > 0 && |RuruEntries(KanjiEntries(entries))| > 0)
    ensures forall k :: k in KanjiEntries(entries) && GroupKey(k) in KanaEntries(entries) ==>
      Pair(Some(k), Some(GroupKey(k))) in MatchKanaWithKanji(entries, level)
  {
  }

  /** With exactly one reading and some kanji form, every kanji form is
      paired with that reading, after the unpaired foreign entries. */
  lemma SingleReadingPairsAll(entries: seq<string>, level: nat)
    requires level < MAX_RECURSION
    requires |KanaEntries(entries)| == 1 && |KanjiEntries(entries)| > 0
    ensures MatchKanaWithKanji(entries, level)
         == ReadingsOnly(ForeignEntries(entries)) + PairsWith(KanjiEntries(entries), KanaEntries(entries)[0])
  {
  }
}

=== FILE: key_pairs.dfy ===
/** The pairs `matchKanaWithKanji` produces, the three lists the entries
    split into, and the fixed-shape pair lists built from them. */
module KeyPairs {
  import opened Wrappers
  import opened Text
  import opened KanjiUtils

  /** A ResultPair: the kanji form and the kana reading of one dictionary key;
      either side may be absent. */
  datatype Pair = Pair(kanji: Option<string>, kana: Option<string>)

  /** Recursion depth at which the remaining entries are given up on. */
  const MAX_RECURSION: nat := 8

  /** A reading: entirely hiragana, entirely katakana, or entirely hentaigana. */
  predicate IsKanaEntry(e: string) {
    IsHiraganaString(e) || IsKatakanaString(e) || IsHentaiganaString(e)
  }

  /** The entries with at least one kanji. */
  function KanjiEntries(entries: seq<string>): seq<string> {
    Filter(entries, e => ContainsKanji(e))
  }

  /** The kanji-free entries that are readings. */
  function KanaEntries(entries: seq<string>): seq<string> {
    Filter(entries, e => !ContainsKanji(e) && IsKanaEntry(e))
  }

  /** Everything else: Latin letters, digits, mixed kana scripts, the empty
      string. */
  function ForeignEntries(entries: seq<string>): seq<string> {
    Filter(entries, e => !ContainsKanji(e) && !IsKanaEntry(e))
  }

  /** A pair of the output: at least one side is present, and a pair with both
      sides joins a kanji form with a reading. */
  predicate WellFormed(p: Pair) {
    (p.kanji.Some? || p.kana.Some?)
    && (p.kanji.Some? && p.kana.Some? ==> ContainsKanji(p.kanji.value) && IsKanaEntry(p.kana.value))
  }

  /** `x` is one of the two sides of `p`. */
  predicate InSlot(x: string, p: Pair) { p.kanji == Some(x) || p.kana == Some(x) }

  predicate AllWellFormed(r: seq<Pair>) { forall p :: p in r ==> WellFormed(p) }

  /** Every string the output holds is one of the entries. */
  predicate SlotsFrom(r: seq<Pair>, entries: seq<string>) {
    forall p :: p in r ==> (p.kanji.Some? ==> p.kanji.value in entries) && (p.kana.Some? ==> p.kana.value in entries)
  }

  /** Every entry is held by some pair of the output. */
  predicate Covers(r: seq<Pair>, entries: seq<string>) {
    forall x :: x in entries ==> exists p :: p in r && InSlot(x, p)
  }

  /** Each string on the kanji side, with no reading. */
  function Unpaired(entries: seq<string>): (r: seq<Pair>)
    ensures |r| == |entries|
    ensures forall i :: 0 <= i < |r| ==> r[i] == Pair(Some(entries[i]), None)
  {
    seq(|entries|, i requires 0 <= i < |entries| => Pair(Some(entries[i]), None))
  }

  /** The unpaired output holds exactly the entries, on the kanji side. */
  lemma UnpairedFacts(entries: seq<string>)
    ensures forall p :: p in Unpaired(entries) ==> p.kanji.Some? && p.kana.None? && p.kanji.value in entries
    ensures forall x :: x in entries ==> Pair(Some(x), None) in Unpaired(entries)
  {
    var r := Unpaired(entries);
    forall x | x in entries ensures Pair(Some(x), None) in r {
      var i :| 0 <= i < |entries| && entries[i] == x;
      assert r[i] == Pair(Some(x), None);
    }
  }

  /** Each string on the reading side, with no kanji form. */
  function ReadingsOnly(entries: seq<string>): (r: seq<Pair>)
    ensures |r| == |entries|
    ensures forall i :: 0 <= i < |r| ==> r[i] == Pair(None, Some(entries[i]))
  {
    seq(|entries|, i requires 0 <= i < |entries| => Pair(None, Some(entries[i])))
  }

  /** Each kanji form of the list paired with the one reading `kana`. */
  function PairsWith(kanjiList: seq<string>, kana: string): (r: seq<Pair>)
    ensures |r| == |kanjiList|
    ensures forall i :: 0 <= i < |r| ==> r[i] == Pair(Some(kanjiList[i]), Some(kana))
  {
    seq(|kanjiList|, i requires 0 <= i < |kanjiList| => Pair(Some(kanjiList[i]), Some(kana)))
  }

  lemma PairsWithFacts(kanjiList: seq<string>, kana: string)
    ensures forall p :: p in PairsWith(kanjiList, kana) ==> p.kanji.Some? && p.kanji.value in kanjiList && p.kana == Some(kana)
    ensures forall x :: x in kanjiList ==> Pair(Some(x), Some(kana)) in PairsWith(kanjiList, kana)
  {
    var r := PairsWith(kanjiList, kana);
    forall x | x in kanjiList ensures Pair(Some(x), Some(kana)) in r {
      var i :| 0 <= i < |kanjiList| && kanjiList[i] == x;
      assert r[i] == Pair(Some(x), Some(kana));
    }
  }

  /** The るる cross product: for each reading (outer loop) each kanji form. */
  function CrossPairs(kanaList: seq<string>, kanjiList: seq<string>): (r: seq<Pair>)
    ensures forall p :: p in r ==>
      p.kanji.Some? && p.kana.Some? && p.kanji.value in kanjiList && p.kana.value in kanaList
    ensures forall a, b :: a in kanaList && b in kanjiList ==> Pair(Some(b), Some(a)) in r
  {
    if |kanaList| == 0 then []
    else
      var rest := CrossPairs(kanaList[1..], kanjiList);
      assert forall a :: a in kanaList ==> a == kanaList[0] || a in kanaList[1..];
      PairsWith(kanjiList, kanaList[0]) + rest
  }

  /** The last two code points are る る (the source compares the last six
      UTF-8 bytes with "るる", which for well-formed UTF-8 is the same test). */
  predicate EndsWithRuru(s: string) { EndsWith(s, "るる") }

  /** The entries ending in るる, in order. */
  function RuruEntries(xs: seq<string>): (r: seq<string>)
    ensures forall x :: x in r <==> x in xs && EndsWithRuru(x)
  {
    Filter(xs, k => EndsWithRuru(k))
  }

  /** The entries not listed in `removed`, in order (the `std::find` filter). */
  function Without(xs: seq<string>, removed: seq<string>): (r: seq<string>)
    ensures forall x :: x in r <==> x in xs && x !in removed
  {
    Filter(xs, k => k !in removed)
  }

  /** The entries not in the set `matched`, in order. */
  function Unmatched(xs: seq<string>, matched: set<string>): (r: seq<string>)
    ensures forall x :: x in r <==> x in xs && x !in matched
  {
    Filter(xs, m => m !in matched)
  }
}

=== FILE: key_passes.dfy ===
/** The matching passes of one level of `matchKanaWithKanji`: exact
    residue, common suffix, common prefix and plausible length. */
module KeyPasses {
  import opened Wrappers
  import opened Text
  import opened KanjiUtils
  import opened KeyPairs
  import opened KeyGroups

  /** What the passes have produced so far: the pairs and the two sets of
      matched strings. */
  datatype MatchState = MatchState(results: seq<Pair>, matchedKana: set<string>, matchedKanji: set<string>)

  /** A pair the passes make: a form of `kanji` with a reading of `kana`. */
  predicate PassPair(p: Pair, kana: seq<string>, kanji: seq<string>) {
    p.kanji.Some? && p.kana.Some? && p.kanji.value in kanji && p.kana.value in kana
  }

  /** The pass state: only pass pairs, and every matched kanji form has a
      pair of its own. */
  predicate StateFrom(st: MatchState, kana: seq<string>, kanji: seq<string>) {
    (forall p :: p in st.results ==> PassPair(p, kana, kanji))
    && (forall x :: x in st.matchedKanji ==> exists p :: p in st.results && p.kanji == Some(x))
  }

  /** A state that extends `st`: no pair is taken back. */
  predicate Extends(r: MatchState, st: MatchState) {
    forall p :: p in st.results ==> p in r.results
  }

  /** First pass: a group whose key is itself a reading pairs every member
      with that reading. */
  function ExactPass(groups: seq<Group>, kana: seq<string>, kanji: seq<string>, st: MatchState): (r: MatchState)
    requires GroupsFrom(groups, kanji) && StateFrom(st, kana, kanji)
    ensures StateFrom(r, kana, kanji) && Extends(r, st)
    ensures forall j, m :: 0 <= j < |groups| && groups[j].key in kana && m in groups[j].members ==>
      Pair(Some(m), Some(groups[j].key)) in r.results
    decreases |groups|
  {
    if |groups| == 0 then st
    else
      var next := ExactStep(groups[0], kana, kanji, st);
      GroupsFromTail(groups, kanji);
      var r := ExactPass(groups[1..], kana, kanji, next);
      assert forall j :: 1 <= j < |groups| ==> groups[j] == groups[1..][j - 1];
      r
  }

  /** The groups after the first, and the first group's members. */
  lemma GroupsFromTail(groups: seq<Group>, kanji: seq<string>)
    requires |groups| > 0 && GroupsFrom(groups, kanji)
    ensures GroupsFrom(groups[1..], kanji)
    ensures forall m :: m in groups[0].members ==> m in kanji
  {
    assert forall j :: 0 <= j < |groups| - 1 ==> groups[1..][j] == groups[j + 1];
  }

  /** One group of the first pass: when its key is a reading, every member
      is paired with it. */
  function ExactStep(g: Group, kana: seq<string>, kanji: seq<string>, st: MatchState): (next: MatchState)
    requires (forall m :: m in g.members ==> m in kanji) && StateFrom(st, kana, kanji)
    ensures StateFrom(next, kana, kanji) && Extends(next, st)
    ensures g.key in kana ==> forall m :: m in g.members ==> Pair(Some(m), Some(g.key)) in next.results
  {
    if g.key in kana then
      var pairs := PairsWith(g.members, g.key);
      PairsWithFacts(g.members, g.key);
      MatchState(st.results + pairs, st.matchedKana + {g.key}, st.matchedKanji + set m | m in g.members)
    else st
  }

  /** Which end the similarity pass compares. */
  datatype Affix = Suffix | Prefix

  function CommonLength(affix: Affix, a: string, b: string): nat {
    match affix
    case Suffix => LongestCommonSuffix(a, b)
    case Prefix => LongestCommonPrefix(a, b)
  }

  /** The scan over the groups for one reading: a longer common affix (of at
      least `minLength`) replaces the candidates, an equally long one adds to
      them; groups with an empty key are skipped. */
  function BestMatches(affix: Affix, minLength: nat, kana: string, groups: seq<Group>, kanji: seq<string>,
                       matched: set<string>, bestLength: nat, best: seq<string>): (r: seq<string>)
    requires GroupsFrom(groups, kanji)
    ensures forall x :: x in r ==>
      x in best || (x in kanji && x !in matched && CommonLength(affix, kana, GroupKey(x)) >= minLength)
    decreases |groups|
  {
    if |groups| == 0 then best
    else
      var g := groups[0];
      var common := CommonLength(affix, kana, g.key);
      var (length', best') :=
        if |g.key| == 0 then (bestLength, best)
        else if common >= minLength && common > bestLength then (common, Unmatched(g.members, matched))
        else if common == bestLength && common >= minLength then (bestLength, best + Unmatched(g.members, matched))
        else (bestLength, best);
      assert forall x :: x in g.members ==> x in kanji && GroupKey(x) == g.key;
      assert forall x :: x in best' ==>
        x in best || (x in kanji && x !in matched && CommonLength(affix, kana, GroupKey(x)) >= minLength);
      assert GroupsFrom(groups[1..], kanji);
      BestMatches(affix, minLength, kana, groups[1..], kanji, matched, length', best')
  }

  /** A pair whose reading shares at least `minLength` code points at the
      compared end with the key of its kanji form. */
  predicate AffixMatch(affix: Affix, minLength: nat, p: Pair) {
    p.kanji.Some? && p.kana.Some? && CommonLength(affix, p.kana.value, GroupKey(p.kanji.value)) >= minLength
  }

  /** One reading in the second or third pass: unless already matched, it
      is paired with all the best candidates, if there are any. */
  function MatchByAffix(affix: Affix, minLength: nat, k: string, groups: seq<Group>,
                        kana: seq<string>, kanji: seq<string>, st: MatchState): (r: MatchState)
    requires GroupsFrom(groups, kanji) && StateFrom(st, kana, kanji) && k in kana
    ensures StateFrom(r, kana, kanji) && Extends(r, st)
    ensures forall p :: p in r.results && p !in st.results ==> AffixMatch(affix, minLength, p)
  {
    if k in st.matchedKana then st
    else
      var best := BestMatches(affix, minLength, k, groups, kanji, st.matchedKanji, 0, []);
      if |best| == 0 then st
      else
        var pairs := PairsWith(best, k);
        assert forall x :: x in best ==> Pair(Some(x), Some(k)) in pairs;
        assert forall p :: p in pairs ==> p.kanji.Some? && p.kanji.value in best && p.kana == Some(k);
        MatchState(st.results + pairs, st.matchedKana + {k}, st.matchedKanji + set x | x in best)
  }

  /** Second and third pass: each unmatched reading, in order, is paired with
      every unmatched kanji form whose key shares the longest affix with it. */
  function SimilarityPass(affix: Affix, minLength: nat, todo: seq<string>, groups: seq<Group>,
                          kana: seq<string>, kanji: seq<string>, st: MatchState): (r: MatchState)
    requires GroupsFrom(groups, kanji) && StateFrom(st, kana, kanji)
    requires forall x :: x in todo ==> x in kana
    ensures StateFrom(r, kana, kanji) && Extends(r, st)
    ensures forall p :: p in r.results && p !in st.results ==> AffixMatch(affix, minLength, p)
    decreases |todo|
  {
    if |todo| == 0 then st
    else
      var next := MatchByAffix(affix, minLength, todo[0], groups, kana, kanji, st);
      SimilarityPass(affix, minLength, todo[1..], groups, kana, kanji, next)
  }

  /** The form ends in a kanji. */
  predicate EndsInKanji(s: string) { |s| > 0 && IsKanji(s[|s| - 1] as int) }

  /** The first unmatched kanji form that ends in a kanji and whose kanji
      count makes `kana` a plausible reading. */
  function FirstPlausible(kana: string, candidates: seq<string>, matched: set<string>): (r: Option<string>)
    ensures r.Some? ==> r.value in candidates && r.value !in matched && EndsInKanji(r.value)
                        && IsPlausibleReading(kana, r.value)
    ensures r.None? ==> forall c :: c in candidates && c !in matched && EndsInKanji(c) ==> !IsPlausibleReading(kana, c)
  {
    if |candidates| == 0 then None
    else
      var c := candidates[0];
      if c !in matched && EndsInKanji(c) && IsPlausibleReading(kana, c) then Some(c)
      else
        var r := FirstPlausible(kana, candidates[1..], matched);
        assert forall x :: x in candidates ==> x == c || x in candidates[1..];
        r
  }

  /** Fourth pass: each unmatched reading takes the first plausible
      unmatched kanji form. */
  function PlausiblePass(todo: seq<string>, kana: seq<string>, kanji: seq<string>, st: MatchState): (r: MatchState)
    requires StateFrom(st, kana, kanji)
    requires forall x :: x in todo ==> x in kana
    ensures StateFrom(r, kana, kanji) && Extends(r, st)
    ensures forall p :: p in r.results && p !in st.results ==>
      EndsInKanji(p.kanji.value) && IsPlausibleReading(p.kana.value, p.kanji.value)
    decreases |todo|
  {
    if |todo| == 0 then st
    else
      var k := todo[0];
      var next :=
        if k in st.matchedKana then st
        else match FirstPlausible(k, kanji, st.matchedKanji)
          case None => st
          case Some(c) =>
            MatchState(st.results + [Pair(Some(c), Some(k))], st.matchedKana + {k}, st.matchedKanji + {c});
      PlausiblePass(todo[1..], kana, kanji, next)
  }

  /** The four passes of the grouping branch, from an empty state. */
  function RunPasses(kana: seq<string>, kanji: seq<string>): (r: MatchState)
    ensures StateFrom(r, kana, kanji)
    ensures forall k :: k in kanji && GroupKey(k) in kana ==> Pair(Some(k), Some(GroupKey(k))) in r.results
  {
    var groups := GroupByResidue(kanji);
    var st1 := ExactPass(groups, kana, kanji, MatchState([], {}, {}));
    var st2 := SimilarityPass(Suffix, 1, kana, groups, kana, kanji, st1);
    var st3 := SimilarityPass(Prefix, 3, kana, groups, kana, kanji, st2);
    PlausiblePass(kana, kana, kanji, st3)
  }
}

=== FILE: key_shapes.dfy ===
/** Facts about the three entry lists and joined pair lists that every
    branch of `matchKanaWithKanji` relies on. */
module KeyShapes {
  import opened Wrappers
  import opened Text
  import opened KanjiUtils
  import opened KeyPairs

  /** Every entry is in exactly one of the three lists. */
  lemma PartitionFacts(entries: seq<string>)
    ensures forall x :: x in KanjiEntries(entries) <==> x in entries && ContainsKanji(x)
    ensures forall x :: x in KanaEntries(entries) <==> x in entries && !ContainsKanji(x) && IsKanaEntry(x)
    ensures forall x :: x in ForeignEntries(entries) <==> x in entries && !ContainsKanji(x) && !IsKanaEntry(x)
  {
  }

  /** The foreign pairs hold exactly the foreign entries, on the reading side. */
  lemma ReadingsOnlyFacts(foreign: seq<string>)
    ensures forall p :: p in ReadingsOnly(foreign) ==> p.kanji.None? && p.kana.Some? && p.kana.value in foreign
    ensures forall x :: x in foreign ==> Pair(None, Some(x)) in ReadingsOnly(foreign)
  {
    var r := ReadingsOnly(foreign);
    forall x | x in foreign ensures Pair(None, Some(x)) in r {
      var i :| 0 <= i < |foreign| && foreign[i] == x;
      assert r[i] == Pair(None, Some(x));
    }
  }

  /** The entries split into the three lists; the foreign pairs lead. */
  predicate Partitioned(entries: seq<string>, kana: seq<string>, kanji: seq<string>, head: seq<Pair>) {
    kanji == KanjiEntries(entries) && kana == KanaEntries(entries)
    && head == ReadingsOnly(ForeignEntries(entries))
  }

  /** Joined pair lists stay well formed and drawn from the entries. */
  lemma JoinShape(a: seq<Pair>, b: seq<Pair>, entries: seq<string>)
    requires AllWellFormed(a) && AllWellFormed(b) && SlotsFrom(a, entries) && SlotsFrom(b, entries)
    ensures AllWellFormed(a + b) && SlotsFrom(a + b, entries)
  {
    assert forall p :: p in a + b ==> p in a || p in b;
  }

  /** The foreign pairs lead a joined result. */
  lemma Leads(head: seq<Pair>, a: seq<Pair>, b: seq<Pair>)
    ensures (head + a)[..|head|] == head && (head + a + b)[..|head|] == head
  {
  }

  /** Pairs drawn from a sublist are drawn from the whole list. */
  lemma SlotsWiden(r: seq<Pair>, small: seq<string>, big: seq<string>)
    requires SlotsFrom(r, small) && forall x :: x in small ==> x in big
    ensures SlotsFrom(r, big)
  {
  }

  /** The foreign pairs are well formed and drawn from the entries. */
  lemma HeadShape(entries: seq<string>, kana: seq<string>, kanji: seq<string>, head: seq<Pair>)
    requires Partitioned(entries, kana, kanji, head)
    ensures AllWellFormed(head) && SlotsFrom(head, entries)
  {
    PartitionFacts(entries);
    ReadingsOnlyFacts(ForeignEntries(entries));
  }
}

=== FILE: kjt_extraction.dfy ===
/** Key extraction for the KJT dictionaries (`KjtExtractionStrategy`): the
    headword of the first `ZinmeiSyomeiHeadG` is expanded into its written
    variants (alternatives separated by `・`, optional kanji readings in
    full-width parentheses), and its reading is cleaned of parenthesised
    parts.

    Whether a headword holds a gaiji image outside parentheses
    (`shouldAddGaiji`) is a parameter.
 */
module KjtExtraction {
  import opened Wrappers
  import opened Text
  import opened KanjiUtils
  import opened XmlParser

  const MIDDLE_DOT: char := '・'
  const OPEN_PAREN: char := '（'
  const CLOSE_PAREN: char := '）'

  predicate NoDuplicates(xs: seq<string>) {
    forall i, j :: 0 <= i < j < |xs| ==> xs[i] != xs[j]
  }

  // ---------------------------------------------------------------------
  // removeDuplicates

  /** The loop of `removeDuplicates`: an element is kept unless it was seen. */
  function DedupeFrom(xs: seq<string>, seen: set<string>): (r: seq<string>)
    ensures NoDuplicates(r)
    ensures forall x :: x in r <==> x in xs && x !in seen
    ensures |r| <= |xs|
    decreases |xs|
  {
    if |xs| == 0 then []
    else if xs[0] in seen then DedupeFrom(xs[1..], seen)
    else
      var rest := DedupeFrom(xs[1..], seen + {xs[0]});
      assert forall j :: 0 <= j < |rest| ==> rest[j] != xs[0];
      [xs[0]] + rest
  }

  /** `removeDuplicates`: no duplicates, the same elements, and the first
      element kept. */
  function RemoveDuplicates(xs: seq<string>): (r: seq<string>)
    ensures NoDuplicates(r)
    ensures forall x :: x in r <==> x in xs
    ensures |r| <= |xs|
    ensures |xs| > 0 ==> |r| > 0 && r[0] == xs[0]
  {
    DedupeFrom(xs, {})
  }

  /** The first occurrences of `xs`, in order, defined from the back: the
      last element is kept when it does not occur before. */
  function Firsts(xs: seq<string>): seq<string>
    decreases |xs|
  {
    if |xs| == 0 then []
    else
      var init := xs[..|xs| - 1];
      Firsts(init) + (if xs[|xs| - 1] in init then [] else [xs[|xs| - 1]])
  }

  lemma {:induction false} DedupeSnoc(a: seq<string>, x: string, seen: set<string>)
    ensures DedupeFrom(a + [x], seen) == DedupeFrom(a, seen) + (if x in seen || x in a then [] else [x])
    decreases |a|
  {
    if |a| == 0 {
      assert a + [x] == [x];
      assert [x][1..] == [];
    } else {
      assert (a + [x])[0] == a[0];
      assert (a + [x])[1..] == a[1..] + [x];
      assert x in a <==> x == a[0] || x in a[1..];
      if a[0] in seen {
        DedupeSnoc(a[1..], x, seen);
      } else {
        DedupeSnoc(a[1..], x, seen + {a[0]});
      }
    }
  }

  /** `removeDuplicates` keeps exactly the first occurrence of each element,
      in the order of the input. */
  lemma {:induction false} RemoveDuplicatesKeepsFirsts(xs: seq<string>)
    ensures RemoveDuplicates(xs) == Firsts(xs)
    decreases |xs|
  {
    if |xs| > 0 {
      var init := xs[..|xs| - 1];
      assert xs == init + [xs[|xs| - 1]];
      DedupeSnoc(init, xs[|xs| - 1], {});
      RemoveDuplicatesKeepsFirsts(init);
    }
  }

  /** A list without duplicates comes back unchanged. */
  lemma {:induction false} RemoveDuplicatesOfDistinct(xs: seq<string>)
    requires NoDuplicates(xs)
    ensures RemoveDuplicates(xs) == xs
    decreases |xs|
  {
    if |xs| > 0 {
      var init := xs[..|xs| - 1];
      assert xs == init + [xs[|xs| - 1]];
      assert xs[|xs| - 1] !in init;
      DedupeSnoc(init, xs[|xs| - 1], {});
      RemoveDuplicatesOfDistinct(init);
    }
  }

  // ---------------------------------------------------------------------
  // extractReadingVariations

  /** The cleaning loop: '（' opens and '）' closes a parenthesis, both
      dropped; a character outside parentheses is kept unless it is an
      ASCII space.  A '）' with nothing open is dropped as well. */
  function CleanFrom(s: string, inParens: bool): (r: string)
    ensures OPEN_PAREN !in r && CLOSE_PAREN !in r && ' ' !in r
    ensures |r| <= |s|
    decreases |s|
  {
    if |s| == 0 then []
    else if s[0] == OPEN_PAREN then CleanFrom(s[1..], true)
    else if s[0] == CLOSE_PAREN then CleanFrom(s[1..], false)
    else (if !inParens && s[0] != ' ' then [s[0]] else []) + CleanFrom(s[1..], inParens)
  }

  /** Whether the loop ends inside parentheses. */
  function EndsInParens(s: string, inParens: bool): bool
    decreases |s|
  {
    if |s| == 0 then inParens
    else EndsInParens(s[1..], if s[0] == OPEN_PAREN then true else if s[0] == CLOSE_PAREN then false else inParens)
  }

  function Clean(s: string): string { CleanFrom(s, false) }

  /** `extractReadingVariations`: always exactly one reading, the cleaned
      text. */
  function ExtractReadingVariations(text: string): (r: seq<string>)
    ensures |r| == 1 && r[0] == Clean(text)
    ensures OPEN_PAREN !in r[0] && CLOSE_PAREN !in r[0] && ' ' !in r[0]
  {
    [Clean(text)]
  }

  lemma {:induction false} CleanAppend(a: string, b: string, inParens: bool)
    ensures CleanFrom(a + b, inParens) == CleanFrom(a, inParens) + CleanFrom(b, EndsInParens(a, inParens))
    decreases |a|
  {
    if |a| == 0 {
      assert a + b == b;
    } else {
      assert (a + b)[0] == a[0];
      assert (a + b)[1..] == a[1..] + b;
      var next := if a[0] == OPEN_PAREN then true else if a[0] == CLOSE_PAREN then false else inParens;
      CleanAppend(a[1..], b, next);
    }
  }

  lemma {:induction false} EndsInParensAppend(a: string, b: string, inParens: bool)
    ensures EndsInParens(a + b, inParens) == EndsInParens(b, EndsInParens(a, inParens))
    decreases |a|
  {
    if |a| == 0 {
      assert a + b == b;
    } else {
      assert (a + b)[0] == a[0];
      assert (a + b)[1..] == a[1..] + b;
      var next := if a[0] == OPEN_PAREN then true else if a[0] == CLOSE_PAREN then false else inParens;
      EndsInParensAppend(a[1..], b, next);
    }
  }

  lemma {:induction false} PlainEndsOutside(s: string)
    requires OPEN_PAREN !in s
    ensures !EndsInParens(s, false)
    decreases |s|
  {
    if |s| > 0 {
      PlainEndsOutside(s[1..]);
    }
  }

  lemma {:induction false} InsideDropped(b: string)
    requires CLOSE_PAREN !in b
    ensures CleanFrom(b, true) == [] && EndsInParens(b, true)
    decreases |b|
  {
    if |b| > 0 {
      InsideDropped(b[1..]);
    }
  }

  /** A parenthesised span disappears with its parentheses, the text around
      it being cleaned as if it were not there. */
  lemma CleanDropsSpan(a: string, b: string, c: string)
    requires OPEN_PAREN !in a && CLOSE_PAREN !in b
    ensures Clean(a + [OPEN_PAREN] + b + [CLOSE_PAREN] + c) == Clean(a) + Clean(c)
  {
    PlainEndsOutside(a);
    InsideDropped(b);
    var withOpen := a + [OPEN_PAREN];
    CleanAppend(a, [OPEN_PAREN], false);
    EndsInParensAppend(a, [OPEN_PAREN], false);
    assert [OPEN_PAREN][1..] == [];
    assert Clean(withOpen) == Clean(a) && EndsInParens(withOpen, false);
    CleanAppend(withOpen, b, false);
    EndsInParensAppend(withOpen, b, false);
    assert CleanFrom(withOpen + b, false) == Clean(a) && EndsInParens(withOpen + b, false);
    CleanAppend(withOpen + b, [CLOSE_PAREN] + c, false);
    assert ([CLOSE_PAREN] + c)[1..] == c;
    assert a + [OPEN_PAREN] + b + [CLOSE_PAREN] + c == (withOpen + b) + ([CLOSE_PAREN] + c);
  }

  predicate NotSpace(c: char) { c != ' ' }

  /** Without parentheses, cleaning only removes the spaces. */
  lemma {:induction false} CleanPlain(s: string)
    requires OPEN_PAREN !in s && CLOSE_PAREN !in s
    ensures Clean(s) == Filter(s, NotSpace)
    decreases |s|
  {
    if |s| > 0 {
      CleanPlain(s[1..]);
    }
  }

  /** Cleaning twice is cleaning once. */
  lemma CleanIdempotent(s: string)
    ensures Clean(Clean(s)) == Clean(s)
  {
    var c := Clean(s);
    CleanPlain(c);
    FilterAll(c, NotSpace);
  }

  // ---------------------------------------------------------------------
  // extractVariations

  /** Each remaining variation with the trailing kanji replaced by the
      parenthesised reading. */
  function Alternatives(prefix: string, inside: string, remaining: seq<string>): (r: seq<string>)
    ensures |r| == |remaining|
    ensures forall i :: 0 <= i < |r| ==> r[i] == prefix + inside + remaining[i]
  {
    seq(|remaining|, i requires 0 <= i < |remaining| => prefix + inside + remaining[i])
  }

  /** The parenthesised reading may replace the end of `before` when it is
      non-empty, no longer than `before`, and `before` ends in that many
      kanji. */
  predicate ReplacesKanji(before: string, inside: string) {
    |before| >= |inside| && |inside| > 0 && AllInScript(before[|before| - |inside|..], Kanji)
  }

  /** `extractVariations` without gaiji.  A `・` splits the text at its first
      occurrence into two sets of variants.  Without a '（' followed later by
      a '）' the text itself is the variant, cut before its first '（'.
      Otherwise the first pair splits the text into before, inside and
      after: the variants of before+after, then those with the reading in
      place of the kanji it covers, duplicates removed. */
  function Variations(text: string): (r: seq<string>)
    ensures |r| >= 1 && NoDuplicates(r)
    ensures forall v :: v in r ==> MIDDLE_DOT !in v
    decreases |text|, 2
  {
    match Find(text, MIDDLE_DOT)
    case Some(i) =>
      RemoveDuplicates(Variations(text[..i]) + Variations(text[i + 1..]))
    case None => UndottedVariations(text)
  }

  /** The variants of a text without `・`. */
  function UndottedVariations(text: string): (r: seq<string>)
    requires MIDDLE_DOT !in text
    ensures |r| >= 1 && NoDuplicates(r)
    ensures forall v :: v in r ==> MIDDLE_DOT !in v
    decreases |text|, 1
  {
    var open := Find(text, OPEN_PAREN);
    var close := Find(text, CLOSE_PAREN);
    if open.None? || close.None? || close.value < open.value then
      [if open.Some? then text[..open.value] else text]
    else
      PairedVariations(text, open.value, close.value)
  }

  /** The variants of a text without `・` whose parenthesis pair spans
      `o` to `c`. */
  function PairedVariations(text: string, o: nat, c: nat): (r: seq<string>)
    requires MIDDLE_DOT !in text && o < c < |text|
    ensures |r| >= 1 && NoDuplicates(r)
    ensures forall v :: v in r ==> MIDDLE_DOT !in v
    decreases |text|, 0
  {
    var before := text[..o];
    var inside := text[o + 1..c];
    var after := text[c + 1..];
    assert MIDDLE_DOT !in before && MIDDLE_DOT !in inside;
    PairVariants(before, inside, Variations(after), Variations(before + after))
  }

  /** The variants of a text with a parenthesis pair, from the variants of
      what follows the pair (`remaining`) and of the text without the
      parenthesised part (`base`): the base ones first, then the reading
      substituted into each remaining one, each kept once. */
  function PairVariants(before: string, inside: string, remaining: seq<string>, base: seq<string>): (r: seq<string>)
    ensures NoDuplicates(r)
    ensures |base| > 0 ==> |r| > 0 && r[0] == base[0]
    ensures forall v :: v in r <==>
      v in base
      || (ReplacesKanji(before, inside) && exists w :: w in remaining && v == before[..|before| - |inside|] + inside + w)
  {
    var alts := if ReplacesKanji(before, inside)
                then Alternatives(before[..|before| - |inside|], inside, remaining) else [];
    forall v | v in alts
      ensures exists w :: w in remaining && v == before[..|before| - |inside|] + inside + w
    {
      var k :| 0 <= k < |alts| && alts[k] == v;
      assert remaining[k] in remaining;
    }
    forall w | ReplacesKanji(before, inside) && w in remaining
      ensures before[..|before| - |inside|] + inside + w in alts
    {
      var k :| 0 <= k < |remaining| && remaining[k] == w;
      assert alts[k] == before[..|before| - |inside|] + inside + w;
    }
    RemoveDuplicates(base + alts)
  }

  /** `extractVariations`: nothing at all when the headword has a gaiji
      outside parentheses. */
  function ExtractVariations(text: string, hasGaiji: bool): (r: seq<string>)
    ensures hasGaiji ==> r == []
    ensures !hasGaiji ==> |r| >= 1 && NoDuplicates(r)
    ensures forall v :: v in r ==> MIDDLE_DOT !in v
  {
    if hasGaiji then [] else Variations(text)
  }

  /** With a `・`, the variants are those of the two sides, in that order,
      each kept once. */
  lemma DotSplitsVariants(text: string, i: nat)
    requires i < |text| && text[i] == MIDDLE_DOT && MIDDLE_DOT !in text[..i]
    ensures Variations(text) == Firsts(Variations(text[..i]) + Variations(text[i + 1..]))
  {
    assert Find(text, MIDDLE_DOT) == Some(i);
    RemoveDuplicatesKeepsFirsts(Variations(text[..i]) + Variations(text[i + 1..]));
  }

  /** Without a `・` and without a '（' ... '）' pair the only variant is the
      text up to its first '（'. */
  lemma UnpairedText(text: string)
    requires MIDDLE_DOT !in text
    requires OPEN_PAREN !in text || CLOSE_PAREN !in text
             || Find(text, CLOSE_PAREN).value < Find(text, OPEN_PAREN).value
    ensures Variations(text) == [if OPEN_PAREN in text then text[..Find(text, OPEN_PAREN).value] else text]
  {
  }

  /** With a pair, the variants are those of the text without the
      parenthesised part, together with the reading substituted into every
      variant of what follows the pair when it covers trailing kanji. */
  lemma PairedText(text: string, o: nat, c: nat)
    requires MIDDLE_DOT !in text
    requires Find(text, OPEN_PAREN) == Some(o) && Find(text, CLOSE_PAREN) == Some(c) && o < c
    ensures Variations(text) == PairVariants(text[..o], text[o + 1..c], Variations(text[c + 1..]), Variations(text[..o] + text[c + 1..]))
  {
    assert Variations(text) == UndottedVariations(text) by {
      assert Find(text, MIDDLE_DOT).None?;
    }
    UndottedIsPaired(text, o, c);
    PairedIsPairVariants(text, o, c);
  }

  lemma UndottedIsPaired(text: string, o: nat, c: nat)
    requires MIDDLE_DOT !in text
    requires Find(text, OPEN_PAREN) == Some(o) && Find(text, CLOSE_PAREN) == Some(c) && o < c
    ensures UndottedVariations(text) == PairedVariations(text, o, c)
  {
  }

  lemma PairedIsPairVariants(text: string, o: nat, c: nat)
    requires MIDDLE_DOT !in text && o < c < |text|
    ensures PairedVariations(text, o, c) == PairVariants(text[..o], text[o + 1..c], Variations(text[c + 1..]), Variations(text[..o] + text[c + 1..]))
  {
  }

  // ---------------------------------------------------------------------
  // extractKeys

  /** The first node of the sequence with the given name. */
  function FirstNamed(xs: seq<XNode>, name: string): (r: Option<XNode>)
    ensures r.Some? ==> r.value in xs && r.value.name == name
    ensures r.None? ==> forall x :: x in xs ==> x.name != name
  {
    if |xs| == 0 then None
    else if xs[0].name == name then Some(xs[0])
    else
      assert forall x :: x in xs ==> x == xs[0] || x in xs[1..];
      FirstNamed(xs[1..], name)
  }

  /** `xml_node::child(name)`: the first child element with that name. */
  function ChildNamed(n: XNode, name: string): (r: Option<XNode>)
    ensures r.Some? ==> r.value in n.children && r.value.name == name
  {
    FirstNamed(n.children, name)
  }

  predicate IsTextNode(n: XNode) { n.kind == PCData || n.kind == CData }

  /** `text().as_string()` of an element: the value of its first text or
      CDATA child, "" when it has none. */
  function NodeText(n: XNode): (r: string)
    ensures r != "" ==> exists k :: k in n.children && IsTextNode(k) && k.value == r
  {
    match FirstText(n.children)
    case None => ""
    case Some(k) => k.value
  }

  function FirstText(kids: seq<XNode>): (r: Option<XNode>)
    ensures r.Some? ==> r.value in kids && IsTextNode(r.value)
    ensures r.None? ==> forall k :: k in kids ==> !IsTextNode(k)
  {
    if |kids| == 0 then None
    else if IsTextNode(kids[0]) then Some(kids[0])
    else
      assert forall x :: x in kids ==> x == kids[0] || x in kids[1..];
      FirstText(kids[1..])
  }

  /** The variants of a child's text, when the child is there and its text
      is not empty. */
  function HeadwordKeys(z: XNode, hasGaiji: XNode -> bool): seq<string> {
    match ChildNamed(z, "headword")
    case None => []
    case Some(h) => if NodeText(h) == "" then [] else ExtractVariations(NodeText(h), hasGaiji(h))
  }

  function YomiKeys(z: XNode): seq<string> {
    match ChildNamed(z, "yomi")
    case None => []
    case Some(y) => if NodeText(y) == "" then [] else ExtractReadingVariations(NodeText(y))
  }

  /** `extractKeys`: the first `ZinmeiSyomeiHeadG` of the document (the
      document element included) gives its headword variants, then its
      reading; a document without one gives no keys. */
  function ExtractKeys(root: Option<XNode>, hasGaiji: XNode -> bool): (r: seq<string>)
    ensures root.None? ==> r == []
    ensures var z := FirstNamed(Preorder(if root.Some? then [root.value] else []), "ZinmeiSyomeiHeadG");
            (z.None? ==> r == [])
            && (z.Some? ==> r == HeadwordKeys(z.value, hasGaiji) + YomiKeys(z.value))
  {
    var docKids := if root.Some? then [root.value] else [];
    match FirstNamed(Preorder(docKids), "ZinmeiSyomeiHeadG")
    case None => []
    case Some(z) => HeadwordKeys(z, hasGaiji) + YomiKeys(z)
  }

  /** The reading, when present, is the last key, after all the headword
      variants, and it is the cleaned reading text. */
  lemma ReadingComesLast(root: Option<XNode>, hasGaiji: XNode -> bool, z: XNode, y: XNode)
    requires FirstNamed(Preorder(if root.Some? then [root.value] else []), "ZinmeiSyomeiHeadG") == Some(z)
    requires ChildNamed(z, "yomi") == Some(y) && NodeText(y) != ""
    ensures var r := ExtractKeys(root, hasGaiji);
            |r| >= 1 && r[|r| - 1] == Clean(NodeText(y)) && r[..|r| - 1] == HeadwordKeys(z, hasGaiji)
  {
    var r := ExtractKeys(root, hasGaiji);
    assert r == HeadwordKeys(z, hasGaiji) + [Clean(NodeText(y))];
  }
}

=== FILE: mdict_exporter.dfy ===
/** The MDict source-text writer (`MDictExporter`): entries are collected,
    and on finalisation written as one text file, first a content record
    per entry, then a link record per key, through a string buffer that is
    flushed to the file when it grows past a threshold.

    The file is not modelled: what a flush writes is appended to the
    `written` log.  The thresholds count code points where the source
    counts UTF-8 bytes; they decide only when a flush happens, never what
    is written.
 */
module MdictExporter {
  import opened Wrappers
  import opened Text
  import opened Numbers
  import opened KanjiUtils

  const BUFFER_SIZE_LIMIT: nat := 1 * 1024 * 1024
  const MAX_BUFFER_SIZE: nat := 2 * 1024 * 1024

  /** The end of every record. */
  const RECORD_END: string := "\n</>\n"
  /** Between a key and the entry it links to. */
  const LINK_MARKER: string := "\n@@@LINK="
  /** Keys starting with the geta mark 〓 are never written. */
  const GETA: string := "〓"
  /** The katakana pass also skips the key 〆. */
  const SHIME: string := "〆"

  /** The mode names the key normaliser is called with. */
  const HIRAGANA_MODE: string := "ひらがな"
  const KATAKANA_MODE: string := "カタカナ"

  /** One MDict entry: its numeric id, the keys that lead to it, its
      serialised content. */
  datatype MDictEntry = MDictEntry(pageId: int, keys: seq<string>, content: string)

  datatype ExportStats = ExportStats(totalEntries: nat, totalKeys: nat)

  datatype Exporter = Exporter(
    entries: seq<MDictEntry>,
    buffer: string,
    written: string,
    stats: ExportStats,
    finalized: bool)

  /** The exporter once its output file is open. */
  function NewExporter(): (ex: Exporter)
    ensures ex.entries == [] && ex.buffer == "" && ex.written == ""
    ensures ex.stats == ExportStats(0, 0) && !ex.finalized
  {
    Exporter([], "", "", ExportStats(0, 0), false)
  }

  /** Everything sent to the file so far, flushed or still buffered. */
  function Output(ex: Exporter): string {
    ex.written + ex.buffer
  }

  // ---------------------------------------------------------------------
  // Collecting entries

  /** `addEntry`: refused once finalised (the source throws); otherwise the
      entry is kept, in order, and counted with its keys. */
  function AddEntry(ex: Exporter, e: MDictEntry): (r: (bool, Exporter))
    ensures r.0 <==> !ex.finalized
    ensures !r.0 ==> r.1 == ex
    ensures r.0 ==> (r.1.entries == ex.entries + [e]
                 && r.1.stats == ExportStats(ex.stats.totalEntries + 1, ex.stats.totalKeys + |e.keys|)
                 && r.1.buffer == ex.buffer && r.1.written == ex.written && !r.1.finalized)
  {
    if ex.finalized then (false, ex)
    else (true, ex.(entries := ex.entries + [e],
                    stats := ExportStats(ex.stats.totalEntries + 1, ex.stats.totalKeys + |e.keys|)))
  }

  /** Every key of every entry, counted once per entry. */
  function KeyCount(es: seq<MDictEntry>): nat {
    if |es| == 0 then 0 else |es[0].keys| + KeyCount(es[1..])
  }

  lemma {:induction false} KeyCountAppend(es: seq<MDictEntry>, e: MDictEntry)
    ensures KeyCount(es + [e]) == KeyCount(es) + |e.keys|
    decreases |es|
  {
    if |es| == 0 {
      assert es + [e] == [e];
    } else {
      assert (es + [e])[1..] == es[1..] + [e];
      KeyCountAppend(es[1..], e);
    }
  }

  /** The statistics count the entries kept and their keys. */
  predicate StatsAgree(ex: Exporter) {
    ex.stats == ExportStats(|ex.entries|, KeyCount(ex.entries))
  }

  /** Adding keeps the statistics in step with the entries. */
  lemma AddEntryKeepsStats(ex: Exporter, e: MDictEntry)
    requires StatsAgree(ex)
    ensures StatsAgree(AddEntry(ex, e).1)
  {
    KeyCountAppend(ex.entries, e);
  }

  // ---------------------------------------------------------------------
  // Buffering

  /** `flushBuffer`: a non-empty buffer goes to the file and is cleared. */
  function FlushBuffer(ex: Exporter): (r: Exporter)
    ensures Output(r) == Output(ex) && r.buffer == ""
    ensures r.entries == ex.entries && r.stats == ex.stats && r.finalized == ex.finalized
  {
    if ex.buffer == "" then ex else ex.(written := ex.written + ex.buffer, buffer := "")
  }

  /** The size test before a record: flush when the record's estimated
      size would take the buffer past `BUFFER_SIZE_LIMIT`. */
  function PreFlush(ex: Exporter, estimate: nat): (r: Exporter)
    ensures Output(r) == Output(ex)
    ensures |r.buffer| <= |ex.buffer|
    ensures r.entries == ex.entries && r.stats == ex.stats && r.finalized == ex.finalized
  {
    if |ex.buffer| + estimate > BUFFER_SIZE_LIMIT then FlushBuffer(ex) else ex
  }

  /** A record appended to the buffer, flushed at once when the buffer then
      exceeds `MAX_BUFFER_SIZE`. */
  function Append(ex: Exporter, record: string): (r: Exporter)
    ensures Output(r) == Output(ex) + record
    ensures |r.buffer| <= MAX_BUFFER_SIZE
    ensures r.entries == ex.entries && r.stats == ex.stats && r.finalized == ex.finalized
  {
    var ex1 := ex.(buffer := ex.buffer + record);
    assert Output(ex1) == Output(ex) + record;
    if |ex1.buffer| > MAX_BUFFER_SIZE then FlushBuffer(ex1) else ex1
  }

  lemma Regroup(a: string, b: string, c: string)
    ensures a + b + c == a + (b + c)
  {
  }

  // ---------------------------------------------------------------------
  // The content section

  /** "<id>\n<content>\n</>\n". */
  function ContentRecord(e: MDictEntry): (r: string)
    ensures StartsWith(r, DecimalString(e.pageId) + "\n") && EndsWith(r, RECORD_END)
  {
    var head := DecimalString(e.pageId) + "\n";
    var r := head + e.content + RECORD_END;
    assert r[..|head|] == head;
    r
  }

  function ContentRecords(es: seq<MDictEntry>): string {
    if |es| == 0 then "" else ContentRecord(es[0]) + ContentRecords(es[1..])
  }

  /** The loop of `writeContentSection`: the records of the entries in
      order, whatever flushes happen between them. */
  function WriteContents(ex: Exporter, es: seq<MDictEntry>): (r: Exporter)
    ensures Output(r) == Output(ex) + ContentRecords(es)
    ensures r.entries == ex.entries && r.stats == ex.stats && r.finalized == ex.finalized
    ensures |es| > 0 ==> |r.buffer| <= MAX_BUFFER_SIZE
    decreases |es|
  {
    if |es| == 0 then ex
    else
      var ex1 := Append(PreFlush(ex, |es[0].content| + 100), ContentRecord(es[0]));
      Regroup(Output(ex), ContentRecord(es[0]), ContentRecords(es[1..]));
      WriteContents(ex1, es[1..])
  }

  /** `writeContentSection`: all content records, then a flush. */
  function WriteContentSection(ex: Exporter): (r: Exporter)
    ensures r.written == Output(ex) + ContentRecords(ex.entries) && r.buffer == ""
    ensures r.entries == ex.entries && r.stats == ex.stats && r.finalized == ex.finalized
  {
    FlushBuffer(WriteContents(ex, ex.entries))
  }

  // ---------------------------------------------------------------------
  // The key section

  /** "<key>\n@@@LINK=<id>\n</>\n": the key as a link to the entry. */
  function KeyRecord(key: string, pageId: int): (r: string)
    ensures StartsWith(r, key + LINK_MARKER) && EndsWith(r, DecimalString(pageId) + RECORD_END)
  {
    var head := key + LINK_MARKER;
    var tail := DecimalString(pageId) + RECORD_END;
    var r := head + tail;
    assert r[..|head|] == head && r[|r| - |tail|..] == tail;
    r
  }

  /** The link records of the hiragana keys of one entry: every key except
      those starting with 〓. */
  function HiraganaRecords(keys: seq<string>, pageId: int): string {
    if |keys| == 0 then ""
    else (if StartsWith(keys[0], GETA) then "" else KeyRecord(keys[0], pageId)) + HiraganaRecords(keys[1..], pageId)
  }

  /** The hiragana loop: the size test comes before the 〓 test, so a
      skipped key may still flush the buffer. */
  function WriteHiraganaKeys(ex: Exporter, keys: seq<string>, pageId: int): (r: Exporter)
    ensures Output(r) == Output(ex) + HiraganaRecords(keys, pageId)
    ensures r.entries == ex.entries && r.stats == ex.stats && r.finalized == ex.finalized
    decreases |keys|
  {
    if |keys| == 0 then ex
    else
      var key := keys[0];
      var ex1 := PreFlush(ex, |key| + 50);
      var head := if StartsWith(key, GETA) then "" else KeyRecord(key, pageId);
      var ex2 := if StartsWith(key, GETA) then ex1 else Append(ex1, head);
      assert Output(ex2) == Output(ex) + head;
      Regroup(Output(ex), head, HiraganaRecords(keys[1..], pageId));
      WriteHiraganaKeys(ex2, keys[1..], pageId)
  }

  newtype byte = x: int | 0 <= x < 256

  /** A byte of a `std::string` passed where a `char32_t` is expected: the
      signed `char` is widened, so bytes from 0x80 on become values from
      0xFFFFFF80 on. */
  function WidenedChar(b: byte): (c: int)
    ensures b < 128 ==> c == b as int
    ensures b >= 128 ==> 0xFFFF_FF80 <= c < 0x1_0000_0000
  {
    if b < 128 then b as int else b as int - 256 + 0x1_0000_0000
  }

  /** The katakana test as the source applies it, to each byte of the
      UTF-8 text. */
  predicate AnyByteKatakana(bytes: seq<byte>)
    decreases |bytes|
  {
    |bytes| > 0 && (IsKatakana(WidenedChar(bytes[0])) || AnyByteKatakana(bytes[1..]))
  }

  /** No byte passes the test: katakana lies between U+30A0 and U+1B16F,
      above every byte below 0x80 and far below every widened byte from
      0x80 on. */
  lemma {:induction false} NoByteIsKatakana(bytes: seq<byte>)
    ensures !AnyByteKatakana(bytes)
    decreases |bytes|
  {
    if |bytes| > 0 {
      NoByteIsKatakana(bytes[1..]);
    }
  }

  /** The katakana keys the source writes: a key needs a katakana byte
      in its UTF-8 text, must not be 〆 and must not start with 〓. */
  predicate KatakanaKeyWritten(key: string, utf8: string -> seq<byte>) {
    AnyByteKatakana(utf8(key)) && key != SHIME && !StartsWith(key, GETA)
  }

  function KatakanaRecords(keys: seq<string>, pageId: int, utf8: string -> seq<byte>): string {
    if |keys| == 0 then ""
    else (if KatakanaKeyWritten(keys[0], utf8) then KeyRecord(keys[0], pageId) else "")
         + KatakanaRecords(keys[1..], pageId, utf8)
  }

  /** The katakana loop: the key tests come before the size test. */
  function WriteKatakanaKeys(ex: Exporter, keys: seq<string>, pageId: int, utf8: string -> seq<byte>): (r: Exporter)
    ensures Output(r) == Output(ex) + KatakanaRecords(keys, pageId, utf8)
    ensures r.entries == ex.entries && r.stats == ex.stats && r.finalized == ex.finalized
    decreases |keys|
  {
    if |keys| == 0 then ex
    else
      var key := keys[0];
      var head := if KatakanaKeyWritten(key, utf8) then KeyRecord(key, pageId) else "";
      var ex1 := if KatakanaKeyWritten(key, utf8) then Append(PreFlush(ex, |key| + 50), head) else ex;
      assert Output(ex1) == Output(ex) + head;
      Regroup(Output(ex), head, KatakanaRecords(keys[1..], pageId, utf8));
      WriteKatakanaKeys(ex1, keys[1..], pageId, utf8)
  }

  /** No katakana key is ever written: the byte test never passes. */
  lemma {:induction false} KatakanaPassWritesNothing(keys: seq<string>, pageId: int, utf8: string -> seq<byte>)
    ensures KatakanaRecords(keys, pageId, utf8) == ""
    decreases |keys|
  {
    if |keys| > 0 {
      NoByteIsKatakana(utf8(keys[0]));
      KatakanaPassWritesNothing(keys[1..], pageId, utf8);
    }
  }

  /** The link records of all entries, as the key section writes them:
      per entry those of its hiragana keys, then those of its katakana
      keys. */
  function KeyRecords(es: seq<MDictEntry>, normalize: (seq<string>, string) -> seq<string>,
                      utf8: string -> seq<byte>): string {
    if |es| == 0 then ""
    else HiraganaRecords(normalize(es[0].keys, HIRAGANA_MODE), es[0].pageId)
         + KatakanaRecords(normalize(es[0].keys, KATAKANA_MODE), es[0].pageId, utf8)
         + KeyRecords(es[1..], normalize, utf8)
  }

  /** The link records of the hiragana keys alone. */
  function HiraganaLinks(es: seq<MDictEntry>, normalize: (seq<string>, string) -> seq<string>): string {
    if |es| == 0 then ""
    else HiraganaRecords(normalize(es[0].keys, HIRAGANA_MODE), es[0].pageId) + HiraganaLinks(es[1..], normalize)
  }

  /** The key section holds the hiragana links and nothing else. */
  lemma {:induction false} KeySectionIsHiragana(es: seq<MDictEntry>, normalize: (seq<string>, string) -> seq<string>,
                                                utf8: string -> seq<byte>)
    ensures KeyRecords(es, normalize, utf8) == HiraganaLinks(es, normalize)
    decreases |es|
  {
    if |es| > 0 {
      KatakanaPassWritesNothing(normalize(es[0].keys, KATAKANA_MODE), es[0].pageId, utf8);
      KeySectionIsHiragana(es[1..], normalize, utf8);
    }
  }

  /** The entry loop of `writeKeySection`. */
  function WriteKeys(ex: Exporter, es: seq<MDictEntry>, normalize: (seq<string>, string) -> seq<string>,
                     utf8: string -> seq<byte>): (r: Exporter)
    ensures Output(r) == Output(ex) + KeyRecords(es, normalize, utf8)
    ensures r.entries == ex.entries && r.stats == ex.stats && r.finalized == ex.finalized
    decreases |es|
  {
    if |es| == 0 then ex
    else
      var e := es[0];
      var hira := HiraganaRecords(normalize(e.keys, HIRAGANA_MODE), e.pageId);
      var kata := KatakanaRecords(normalize(e.keys, KATAKANA_MODE), e.pageId, utf8);
      var ex1 := WriteHiraganaKeys(ex, normalize(e.keys, HIRAGANA_MODE), e.pageId);
      var ex2 := WriteKatakanaKeys(ex1, normalize(e.keys, KATAKANA_MODE), e.pageId, utf8);
      Regroup(Output(ex), hira, kata);
      Regroup(Output(ex), hira + kata, KeyRecords(es[1..], normalize, utf8));
      WriteKeys(ex2, es[1..], normalize, utf8)
  }

  /** `writeKeySection`: all link records, then a flush. */
  function WriteKeySection(ex: Exporter, normalize: (seq<string>, string) -> seq<string>,
                           utf8: string -> seq<byte>): (r: Exporter)
    ensures r.written == Output(ex) + KeyRecords(ex.entries, normalize, utf8) && r.buffer == ""
    ensures r.entries == ex.entries && r.stats == ex.stats && r.finalized == ex.finalized
  {
    FlushBuffer(WriteKeys(ex, ex.entries, normalize, utf8))
  }

  // ---------------------------------------------------------------------
  // Finalisation

  /** The whole text file of a set of entries: the content records, then
      the link records. */
  function SourceText(es: seq<MDictEntry>, normalize: (seq<string>, string) -> seq<string>,
                      utf8: string -> seq<byte>): string {
    ContentRecords(es) + KeyRecords(es, normalize, utf8)
  }

  /** The source text is the content records followed by the hiragana
      links. */
  lemma SourceTextIsContentThenLinks(es: seq<MDictEntry>, normalize: (seq<string>, string) -> seq<string>,
                                     utf8: string -> seq<byte>)
    ensures SourceText(es, normalize, utf8) == ContentRecords(es) + HiraganaLinks(es, normalize)
  {
    KeySectionIsHiragana(es, normalize, utf8);
  }

  /** `finalize`: nothing once finalised.  Otherwise the content and key
      sections are written, the buffer flushed, and the external compiler
      run; `convertOk` says whether that last step returns normally.  Only
      then is the exporter finalised; when it throws, the text written so
      far stays written and the exporter is not finalised. */
  function Finalize(ex: Exporter, normalize: (seq<string>, string) -> seq<string>,
                    utf8: string -> seq<byte>, convertOk: bool): (r: (bool, Exporter))
    ensures ex.finalized ==> r == (true, ex)
    ensures !ex.finalized ==> r.1.written == Output(ex) + SourceText(ex.entries, normalize, utf8) && r.1.buffer == ""
    ensures r.1.finalized <==> ex.finalized || convertOk
    ensures r.0 <==> r.1.finalized
    ensures r.1.entries == ex.entries && r.1.stats == ex.stats
  {
    if ex.finalized then (true, ex)
    else
      var ex1 := WriteContentSection(ex);
      var ex2 := WriteKeySection(ex1, normalize, utf8);
      var ex3 := FlushBuffer(ex2);
      Regroup(Output(ex), ContentRecords(ex.entries), KeyRecords(ex.entries, normalize, utf8));
      if convertOk then (true, ex3.(finalized := true)) else (false, ex3)
  }

  /** The destructor finalises an exporter that is not yet finalised,
      swallowing the failure. */
  function Destroy(ex: Exporter, normalize: (seq<string>, string) -> seq<string>,
                   utf8: string -> seq<byte>, convertOk: bool): (r: Exporter)
    ensures ex.finalized ==> r == ex
    ensures !ex.finalized ==> r.written == Output(ex) + SourceText(ex.entries, normalize, utf8)
  {
    if !ex.finalized then Finalize(ex, normalize, utf8, convertOk).1 else ex
  }

  /** A fresh exporter given entries and finalised once writes exactly the
      source text of those entries. */
  lemma {:induction false} AddAllThenFinalize(es: seq<MDictEntry>, normalize: (seq<string>, string) -> seq<string>,
                                              utf8: string -> seq<byte>, convertOk: bool)
    ensures var ex := AddAll(NewExporter(), es);
            ex.entries == es && StatsAgree(ex)
            && Finalize(ex, normalize, utf8, convertOk).1.written == SourceText(es, normalize, utf8)
  {
    AddAllKeeps(NewExporter(), es);
  }

  /** `addEntry` for each entry in turn. */
  function AddAll(ex: Exporter, es: seq<MDictEntry>): Exporter
    decreases |es|
  {
    if |es| == 0 then ex else AddAll(AddEntry(ex, es[0]).1, es[1..])
  }

  /** Before finalisation, adding a sequence of entries appends them all,
      keeps the statistics in step and writes nothing. */
  lemma {:induction false} AddAllKeeps(ex: Exporter, es: seq<MDictEntry>)
    requires !ex.finalized && StatsAgree(ex)
    ensures var r := AddAll(ex, es);
            r.entries == ex.entries + es && StatsAgree(r) && !r.finalized
            && r.buffer == ex.buffer && r.written == ex.written
    decreases |es|
  {
    if |es| == 0 {
      assert ex.entries + es == ex.entries;
    } else {
      var ex1 := AddEntry(ex, es[0]).1;
      AddEntryKeepsStats(ex, es[0]);
      AddAllKeeps(ex1, es[1..]);
      assert ex.entries + [es[0]] + es[1..] == ex.entries + es;
    }
  }

  /** After a successful finalisation no entry is accepted and finalising
      again changes nothing. */
  lemma FinalizedIsFinal(ex: Exporter, e: MDictEntry, normalize: (seq<string>, string) -> seq<string>,
                         utf8: string -> seq<byte>)
    ensures var done := Finalize(ex, normalize, utf8, true).1;
            AddEntry(done, e) == (false, done)
            && Finalize(done, normalize, utf8, false) == (true, done)
  {
  }

  /** A finalisation whose compiler step throws leaves the exporter open: the
      next finalisation (the destructor's, say) writes every record again. */
  lemma RetryWritesTwice(ex: Exporter, normalize: (seq<string>, string) -> seq<string>,
                         utf8: string -> seq<byte>, convertOk: bool)
    requires !ex.finalized
    ensures var failed := Finalize(ex, normalize, utf8, false).1;
            Finalize(failed, normalize, utf8, convertOk).1.written
              == Output(ex) + SourceText(ex.entries, normalize, utf8) + SourceText(ex.entries, normalize, utf8)
  {
  }
}

=== FILE: mdict_links.dfy ===
/** Link rewriting for MDict output (`MDictLinkHandlingStrategy` and its
    `NDSLinkExtractionStrategy` variant): the `href` of a source link
    becomes an `entry://` link to another MDict entry, a `sound://` link to
    an audio file, or "" when it cannot be rewritten.

    The two regular expressions of the source are written out as scans:
    `(\d+)` searched for takes the leftmost maximal run of digits, and
    `(\d+)-(4)([0-9a-fA-F]+)` searched for matches exactly when a digit is
    followed by "-4" and a hex digit.
 */
module MdictLinks {
  import opened Wrappers
  import opened Text
  import opened Numbers
  import opened KanjiUtils

  /** What the source puts between the title and the file name of an
      appendix link: the three code points U+00EF U+00BC U+0161. */
  const APPENDIX_SEPARATOR: string := "\U{EF}\U{BC}\U{161}"

  // ---------------------------------------------------------------------
  // The sub-item pattern

  /** The sub-item pattern matches with its "-" at index `j`. */
  predicate SubItemMatchAt(s: string, j: nat) {
    1 <= j && j + 2 < |s| && IsAsciiDigit(s[j - 1]) && s[j] == '-' && s[j + 1] == '4' && IsHexDigit(s[j + 2])
  }

  /** The scan `regex_search` performs, from index `from` on. */
  function SubItemFrom(s: string, from: nat): (r: bool)
    ensures r <==> exists j: nat :: from <= j && SubItemMatchAt(s, j)
    decreases |s| - from
  {
    if from + 2 >= |s| then false
    else if SubItemMatchAt(s, from) then true
    else
      var r := SubItemFrom(s, from + 1);
      assert r <== exists j: nat :: from <= j && SubItemMatchAt(s, j) by {
        if exists j: nat :: from <= j && SubItemMatchAt(s, j) {
          var j: nat :| from <= j && SubItemMatchAt(s, j);
          assert j != from;
        }
      }
      r
  }

  /** `regex_search(href, subItemLinkRegex)`. */
  predicate IsSubItemLink(s: string) { SubItemFrom(s, 0) }

  /** A string of digits never matches: the pattern needs a "-". */
  lemma DigitsAreNoSubItemLink(s: string)
    requires AllDigits(s)
    ensures !IsSubItemLink(s)
  {
    forall j: nat ensures !SubItemMatchAt(s, j) {
      if j < |s| {
        assert IsAsciiDigit(s[j]);
      }
    }
  }

  // ---------------------------------------------------------------------
  // Page ids

  /** Index of the first decimal digit. */
  function FirstDigit(s: string): (r: Option<nat>)
    ensures r.Some? ==> r.value < |s| && IsAsciiDigit(s[r.value])
    ensures r.Some? ==> forall j :: 0 <= j < r.value ==> !IsAsciiDigit(s[j])
    ensures r.None? <==> forall j :: 0 <= j < |s| ==> !IsAsciiDigit(s[j])
  {
    if |s| == 0 then None
    else if IsAsciiDigit(s[0]) then Some(0)
    else match FirstDigit(s[1..])
      case None => None
      case Some(i) => Some(i + 1)
  }

  /** The first match of `(\d+)`: the leftmost maximal run of digits, or
      "" when there is no digit. */
  function FirstDigitRun(s: string): (r: string)
    ensures AllBaseDigits(r, 10)
    ensures r == "" <==> FirstDigit(s).None?
  {
    match FirstDigit(s)
    case None => ""
    case Some(i) => s[i..][..DigitRun(s[i..], 10)]
  }

  /** `getPageId`: `stoi` of the first digit run, -1 when there is none
      (`regex_search` fails) and when it does not fit in an `int` (`stoi`
      throws). */
  function PageId(s: string): (r: int)
    ensures r == -1 || 0 <= r <= INT_MAX
  {
    var digits := FirstDigitRun(s);
    if digits == "" then -1
    else match StoI(digits)
      case Success(v) => v
      case Failure(_) => -1
  }

  /** `stoi` of a run of digits reads exactly the digits. */
  lemma StoIDigits(d: string)
    requires |d| >= 1 && AllBaseDigits(d, 10)
    ensures StoI(d) == if DigitsValue(d, 10) <= INT_MAX then Success(DigitsValue(d, 10)) else Failure(OutOfRange)
  {
    assert AllDigits(d) by {
      forall i | 0 <= i < |d| ensures IsAsciiDigit(d[i]) {
        assert IsBaseDigit(d[i], 10);
      }
    }
    ScanSignedDigits(false, d);
    assert "" + d == d;
  }

  /** The page id of text made of non-digits, a run of digits, and text
      not continuing the run, is the run's value, or -1 when that exceeds
      `INT_MAX`: whatever surrounds the first number is ignored. */
  lemma PageIdReads(pre: string, d: string, rest: string)
    requires forall j :: 0 <= j < |pre| ==> !IsAsciiDigit(pre[j])
    requires |d| >= 1 && AllBaseDigits(d, 10)
    requires |rest| == 0 || !IsAsciiDigit(rest[0])
    ensures PageId(pre + d + rest) == if DigitsValue(d, 10) <= INT_MAX then DigitsValue(d, 10) else -1
  {
    FirstDigitRunOf(pre, d, rest);
    StoIDigits(d);
  }

  /** The first run of digits of such a text is `d`. */
  lemma FirstDigitRunOf(pre: string, d: string, rest: string)
    requires forall j :: 0 <= j < |pre| ==> !IsAsciiDigit(pre[j])
    requires |d| >= 1 && AllBaseDigits(d, 10)
    requires |rest| == 0 || !IsAsciiDigit(rest[0])
    ensures FirstDigitRun(pre + d + rest) == d
  {
    var s := pre + d + rest;
    FirstDigitAfter(pre, d + rest);
    assert s == pre + (d + rest);
    assert s[|pre|..] == d + rest;
    DigitRunPrefix(d, rest);
    assert (d + rest)[..|d|] == d;
  }

  /** The first digit lies past a digit-free prefix. */
  lemma {:induction false} FirstDigitAfter(pre: string, t: string)
    requires forall j :: 0 <= j < |pre| ==> !IsAsciiDigit(pre[j])
    requires |t| >= 1 && IsAsciiDigit(t[0])
    ensures FirstDigit(pre + t) == Some(|pre|)
  {
    var s := pre + t;
    assert s[|pre|] == t[0];
  }

  /** A run of digits followed by a non-digit is read whole. */
  lemma {:induction false} DigitRunPrefix(d: string, rest: string)
    requires AllBaseDigits(d, 10)
    requires |rest| == 0 || !IsAsciiDigit(rest[0])
    ensures DigitRun(d + rest, 10) == |d|
    decreases |d|
  {
    if |d| == 0 {
      assert d + rest == rest;
    } else {
      assert (d + rest)[0] == d[0];
      assert (d + rest)[1..] == d[1..] + rest;
      DigitRunPrefix(d[1..], rest);
    }
  }

  /** Leading zeros do not change the value of a digit string. */
  lemma {:induction false} LeadingZerosValue(z: string, d: string)
    requires forall i :: 0 <= i < |z| ==> z[i] == '0'
    requires AllBaseDigits(d, 10)
    ensures AllBaseDigits(z + d, 10) && DigitsValue(z + d, 10) == DigitsValue(d, 10)
    decreases |z| + |d|
  {
    var s := z + d;
    assert forall i :: 0 <= i < |s| ==> s[i] == (if i < |z| then z[i] else d[i - |z|]);
    if |d| == 0 {
      assert s == z;
      if |z| > 0 {
        LeadingZerosValue(z[..|z| - 1], d);
        assert s[..|s| - 1] == z[..|z| - 1] + d;
      }
    } else {
      LeadingZerosValue(z, d[..|d| - 1]);
      assert s[..|s| - 1] == z + d[..|d| - 1];
    }
  }

  // ---------------------------------------------------------------------
  // Item ids

  /** `extractItemId`: the last three characters after the first "-" read
      in base 16 (`stoi(_, nullptr, 16)`) and printed in decimal, padded
      with zeros to three characters.  "" when there is no "-", when fewer
      than three characters follow it, and when the base-16 read fails. */
  function ExtractItemId(s: string): (r: string)
    ensures r == "" || |r| >= 3
    ensures Find(s, '-').None? ==> r == ""
    ensures Find(s, '-').Some? && |s| - Find(s, '-').value - 1 < 3 ==> r == ""
    ensures forall i :: 0 <= i < |r| ==> IsAsciiDigit(r[i]) || r[i] == '-'
  {
    match Find(s, '-')
    case None => ""
    case Some(dash) =>
      var item := s[dash + 1..];
      if |item| < 3 then ""
      else match StoIHex(item[|item| - 3..])
        case Failure(_) => ""
        case Success(v) => PaddedDecimalChars(v); PadLeft(DecimalString(v), 3, '0')
  }

  /** A number printed in decimal and padded with zeros holds only digits
      and, for a negative number, a minus sign. */
  lemma PaddedDecimalChars(v: int)
    ensures var r := PadLeft(DecimalString(v), 3, '0');
            forall i :: 0 <= i < |r| ==> IsAsciiDigit(r[i]) || r[i] == '-'
  {
    var d := DecimalString(v);
    var r := PadLeft(d, 3, '0');
    assert forall i :: 0 <= i < |d| ==> IsAsciiDigit(d[i]) || d[i] == '-' by {
      if v < 0 {
        assert forall i :: 1 <= i < |d| ==> d[i] == NatString(-v)[i - 1];
      }
    }
    assert r[|r| - |d|..] == d;
    forall i | 0 <= i < |r| ensures IsAsciiDigit(r[i]) || r[i] == '-' {
      if i >= |r| - |d| {
        assert r[i] == d[i - (|r| - |d|)];
      }
    }
  }

  /** Three hex digits read in base 16 are their value: no sign, no "0x"
      prefix, and the value is far below `INT_MAX`. */
  lemma StoIHexThree(h: string)
    requires |h| == 3 && forall i :: 0 <= i < 3 ==> IsHexDigit(h[i])
    ensures AllBaseDigits(h, 16) && DigitsValue(h, 16) < 4096
    ensures StoIHex(h) == Success(DigitsValue(h, 16))
  {
    assert !IsCSpace(h[0]);
    assert LeadingSpaces(h) == 0;
    assert h[0..] == h;
    DigitRunAll(h, 16);
    assert h[..3] == h;
    assert h[..2][..1] == h[..1];
    assert DigitsValue(h[..1], 16) < 16;
    assert DigitsValue(h[..2], 16) < 256;
  }

  /** When the item part ends in three hex digits, the item id is their
      value in decimal, zero-padded to three digits. */
  lemma ItemIdOfHex(s: string, dash: nat, h: string)
    requires Find(s, '-') == Some(dash)
    requires |s| - dash - 1 >= 3 && h == s[|s| - 3..]
    requires forall i :: 0 <= i < 3 ==> IsHexDigit(h[i])
    ensures AllBaseDigits(h, 16) && DigitsValue(h, 16) < 4096
    ensures ExtractItemId(s) == PadLeft(NatString(DigitsValue(h, 16)), 3, '0')
  {
    var item := s[dash + 1..];
    assert item[|item| - 3..] == h;
    StoIHexThree(h);
  }

  /** The zero-padded decimal form of an item number read back in decimal
      is the number again: the hex-to-decimal conversion loses nothing.  It
      has three digits below 1000 and four from 1000 (hex "3e8") on. */
  lemma PaddedValue(v: nat)
    requires v < 10000
    ensures var r := PadLeft(NatString(v), 3, '0');
            AllBaseDigits(r, 10) && DigitsValue(r, 10) == v
            && |r| == (if v < 1000 then 3 else 4)
  {
    var digits := NatString(v);
    NatStringValue(v);
    NatStringLength(v);
    var r := PadLeft(digits, 3, '0');
    var z := r[..|r| - |digits|];
    assert r == z + digits;
    LeadingZerosValue(z, digits);
  }

  /** `NatString` has as many digits as the number's order of magnitude. */
  lemma {:induction false} NatStringLength(n: nat)
    ensures n < 10 ==> |NatString(n)| == 1
    ensures n < 100 ==> |NatString(n)| <= 2
    ensures n < 1000 ==> |NatString(n)| <= 3
    ensures 1000 <= n < 10000 ==> |NatString(n)| == 4
  {
    if n >= 10 {
      NatStringLength(n / 10);
      if n >= 1000 {
        NatStringAtLeast(n / 10);
      }
    }
  }

  /** At least 100 needs at least three digits. */
  lemma {:induction false} NatStringAtLeast(n: nat)
    requires n >= 100
    ensures |NatString(n)| >= 3
  {
    assert NatString(n) == NatString(n / 10) + [DigitChar(n % 10)];
    assert NatString(n / 10) == NatString(n / 100) + [DigitChar((n / 10) % 10)];
  }

  // ---------------------------------------------------------------------
  // The four kinds of link

  /** `getSubItemHref`: "80", the page id and the item id, the "80" keeping
      sub-item entries apart from page entries. */
  function SubItemHref(s: string): (r: string)
    ensures StartsWith(r, "entry://80")
    ensures r[10..] == DecimalString(PageId(s)) + ExtractItemId(s)
  {
    "entry://80" + (DecimalString(PageId(s)) + ExtractItemId(s))
  }

  /** `k` zeros. */
  function Zeros(k: nat): (z: string)
    ensures |z| == k && forall i :: 0 <= i < k ==> z[i] == '0'
  {
    seq(k, _ => '0')
  }

  /** A sub-item id "<page>-<anything><three hex digits>", its page number
      possibly zero-padded, links to the entry numbered "80", the page in
      canonical decimal, and the item number in decimal. */
  lemma SubItemHrefOf(k: nat, page: nat, middle: string, h: string)
    requires page <= INT_MAX
    requires |h| == 3 && forall i :: 0 <= i < 3 ==> IsHexDigit(h[i])
    ensures AllBaseDigits(h, 16)
    ensures SubItemHref(Zeros(k) + NatString(page) + "-" + middle + h)
         == "entry://80" + (NatString(page) + PadLeft(NatString(DigitsValue(h, 16)), 3, '0'))
  {
    var d := Zeros(k) + NatString(page);
    var s := d + "-" + middle + h;
    PaddedDigits(k, page);
    PageAndDash(d, middle + h);
    assert s == d + "-" + (middle + h);
    assert s[|s| - 3..] == h;
    ItemIdOfHex(s, |d|, h);
  }

  /** In "<digits>-<tail>" the digits are read and the first "-" follows
      them. */
  lemma PageAndDash(d: string, tail: string)
    requires |d| >= 1 && AllDigits(d) && AllBaseDigits(d, 10) && DigitsValue(d, 10) <= INT_MAX
    ensures PageId(d + "-" + tail) == DigitsValue(d, 10)
    ensures Find(d + "-" + tail, '-') == Some(|d|)
  {
    var s := d + "-" + tail;
    assert PageId(s) == DigitsValue(d, 10) by {
      assert s == "" + d + ("-" + tail);
      PageIdReads("", d, "-" + tail);
    }
    assert Find(s, '-') == Some(|d|) by {
      DigitsHaveNoDash(d);
      assert s == d + ("-" + tail);
      FindAfter(d, "-" + tail, '-');
    }
  }

  /** A zero-padded page number is a digit string denoting the page. */
  lemma PaddedDigits(k: nat, page: nat)
    ensures var d := Zeros(k) + NatString(page);
            AllDigits(d) && AllBaseDigits(d, 10) && DigitsValue(d, 10) == page
  {
    var d := Zeros(k) + NatString(page);
    NatStringValue(page);
    LeadingZerosValue(Zeros(k), NatString(page));
    forall i | 0 <= i < |d| ensures IsAsciiDigit(d[i]) {
      assert IsBaseDigit(d[i], 10);
    }
  }

  /** The "80" links are one-to-one on pages and on item numbers below
      1000: distinct (page, item) ids get distinct entries.  From hex
      "3e8" on an item number has four decimal digits and the split
      between page and item is lost. */
  lemma SubItemLinksDistinct(p1: nat, v1: nat, p2: nat, v2: nat)
    requires v1 < 1000 && v2 < 1000
    requires "entry://80" + (NatString(p1) + PadLeft(NatString(v1), 3, '0'))
          == "entry://80" + (NatString(p2) + PadLeft(NatString(v2), 3, '0'))
    ensures p1 == p2 && v1 == v2
  {
    var i1 := PadLeft(NatString(v1), 3, '0');
    var i2 := PadLeft(NatString(v2), 3, '0');
    PaddedValue(v1);
    PaddedValue(v2);
    var a := NatString(p1) + i1;
    var b := NatString(p2) + i2;
    assert a == ("entry://80" + a)[10..] == ("entry://80" + b)[10..] == b;
    assert NatString(p1) == a[..|a| - 3] == b[..|b| - 3] == NatString(p2);
    assert i1 == a[|a| - 3..] == b[|b| - 3..] == i2;
    NatStringValue(p1);
    NatStringValue(p2);
  }

  /** `getAudioHref`: the audio file under a `sound://` link, placed in the
      "audio/" folder unless the href already names it. */
  function AudioHref(s: string): (r: string)
    ensures StartsWith(r, "sound://") && EndsWith(r, s)
    ensures Contains(r[8..], "audio/")
    ensures Contains(s, "audio/") ==> r[8..] == s
  {
    if FindSub(s, "audio/").None? then
      var r := "sound://audio/" + s;
      assert OccursAt(r[8..], "audio/", 0);
      r
    else "sound://" + s
  }

  /** Index of the first kanji, katakana or hiragana code point. */
  function FirstJapanese(s: string): (r: Option<nat>)
    ensures r.Some? ==> r.value < |s| && IsJapanese(s[r.value])
    ensures r.Some? ==> forall j :: 0 <= j < r.value ==> !IsJapanese(s[j])
    ensures r.None? <==> forall j :: 0 <= j < |s| ==> !IsJapanese(s[j])
  {
    if |s| == 0 then None
    else if IsJapanese(s[0]) then Some(0)
    else match FirstJapanese(s[1..])
      case None => None
      case Some(i) => Some(i + 1)
  }

  predicate IsJapanese(c: char) {
    IsKanji(c as int) || IsKatakana(c as int) || IsHiragana(c as int)
  }

  /** The start of every appendix link: the entry scheme, the dictionary's
      title and the separator. */
  function AppendixPrefix(title: string): (p: string)
    ensures StartsWith(p, "entry://") && EndsWith(p, APPENDIX_SEPARATOR)
  {
    "entry://" + title + APPENDIX_SEPARATOR
  }

  /** `getAppendixHref`: the file name before the first ".html", from its
      first kanji or kana on, as an entry of the titled appendix; "" when
      there is no ".html" or no kanji or kana before it. */
  function AppendixHref(title: string, s: string): (r: string)
    ensures FindSub(s, ".html").None? ==> r == ""
    ensures r != "" ==>
      StartsWith(r, AppendixPrefix(title)) &&
      var name := r[|AppendixPrefix(title)|..];
      |name| >= 1 && IsJapanese(name[0])
      && EndsWith(s[..FindSub(s, ".html").value], name)
      && FirstJapanese(s[..FindSub(s, ".html").value]) == Some(FindSub(s, ".html").value - |name|)
    ensures r == "" <==> FindSub(s, ".html").None? || FirstJapanese(s[..FindSub(s, ".html").value]).None?
  {
    match FindSub(s, ".html")
    case None => ""
    case Some(p) =>
      var before := s[..p];
      match FirstJapanese(before)
      case None => ""
      case Some(i) =>
        var prefix := AppendixPrefix(title);
        var r := prefix + before[i..];
        assert r[|prefix|..] == before[i..];
        r
  }

  /** `getInternalHref`: a page link for an href whose part before the first
      "-" is all digits (possibly none), or that is all digits; "" for any
      other href. */
  function InternalHref(s: string): (r: string)
    ensures r != "" <==> (Find(s, '-').Some? && AllDigits(s[..Find(s, '-').value])) || AllDigits(s)
    ensures Find(s, '-').Some? && AllDigits(s[..Find(s, '-').value]) ==>
              r == "entry://" + DecimalString(PageId(s[..Find(s, '-').value]))
    ensures AllDigits(s) ==> r == "entry://" + DecimalString(PageId(s))
  {
    var dash := Find(s, '-');
    if dash.Some? && AllDigits(s[..dash.value]) then "entry://" + DecimalString(PageId(s[..dash.value]))
    else if AllDigits(s) then "entry://" + DecimalString(PageId(s))
    else ""
  }

  /** A digit string holds no "-". */
  lemma DigitsHaveNoDash(p: string)
    requires AllDigits(p)
    ensures '-' !in p && Find(p, '-').None?
  {
    forall i | 0 <= i < |p| ensures p[i] != '-' {
      assert IsAsciiDigit(p[i]);
    }
  }

  /** A page number, possibly zero-padded, links to that page. */
  lemma InternalHrefOfPage(k: nat, page: nat)
    requires page <= INT_MAX
    ensures InternalHref(Zeros(k) + NatString(page)) == "entry://" + NatString(page)
  {
    var d := Zeros(k) + NatString(page);
    PaddedDigits(k, page);
    assert d == "" + d + "";
    PageIdReads("", d, "");
    DigitsHaveNoDash(d);
  }

  /** So does one before a "-", whatever follows. */
  lemma InternalHrefOfPageItem(k: nat, page: nat, tail: string)
    requires page <= INT_MAX
    ensures InternalHref(Zeros(k) + NatString(page) + "-" + tail) == "entry://" + NatString(page)
  {
    PaddedDigits(k, page);
    InternalHrefOfDigitsDash(Zeros(k) + NatString(page), tail);
  }

  lemma InternalHrefOfDigitsDash(d: string, tail: string)
    requires |d| >= 1 && AllDigits(d) && AllBaseDigits(d, 10) && DigitsValue(d, 10) <= INT_MAX
    ensures InternalHref(d + "-" + tail) == "entry://" + NatString(DigitsValue(d, 10))
  {
    PageAndDash(d, tail);
    InternalHrefAtDash(d, tail);
    PageIdOfDigits(d);
  }

  /** An href whose first "-" follows only digits links to their page. */
  lemma InternalHrefAtDash(d: string, tail: string)
    requires Find(d + "-" + tail, '-') == Some(|d|) && AllDigits(d)
    ensures InternalHref(d + "-" + tail) == "entry://" + DecimalString(PageId(d))
  {
    assert (d + "-" + tail)[..|d|] == d;
  }

  /** The page number of a digit string is its value. */
  lemma PageIdOfDigits(d: string)
    requires |d| >= 1 && AllBaseDigits(d, 10) && DigitsValue(d, 10) <= INT_MAX
    ensures PageId(d) == DigitsValue(d, 10)
  {
    assert d == "" + d + "";
    PageIdReads("", d, "");
  }

  /** The first occurrence of a character past a prefix without it. */
  lemma FindAfter(p: string, t: string, c: char)
    requires c !in p && |t| >= 1 && t[0] == c
    ensures Find(p + t, c) == Some(|p|)
  {
    var s := p + t;
    assert s[|p|] == c;
    assert s[..|p|] == p;
  }

  // ---------------------------------------------------------------------
  // Routing

  /** Which rewrite an href gets. */
  datatype Route = AppendixRoute | SubItemRoute | AudioRoute | InternalRoute

  /** The tests of `getNewHref`, in order: the appendix identifier (when
      configured) as a prefix, the sub-item pattern, ".aac", and otherwise
      an internal link. */
  function RouteOf(appendixId: string, s: string): (r: Route)
    ensures r == AppendixRoute <==> appendixId != "" && StartsWith(s, appendixId)
    ensures r == SubItemRoute <==> !(appendixId != "" && StartsWith(s, appendixId)) && IsSubItemLink(s)
    ensures r == AudioRoute <==> !(appendixId != "" && StartsWith(s, appendixId)) && !IsSubItemLink(s) && Contains(s, ".aac")
  {
    if appendixId != "" && FindSub(s, appendixId) == Some(0) then AppendixRoute
    else if IsSubItemLink(s) then SubItemRoute
    else if Contains(s, ".aac") then AudioRoute
    else InternalRoute
  }

  /** An entry link, or no link, is not a sound link. */
  lemma EntryIsNotSound(r: string, p: string)
    requires StartsWith(p, "entry://") && (r == "" || StartsWith(r, p))
    ensures !StartsWith(r, "sound://")
  {
    if r != "" {
      assert p[0] == p[..8][0] == 'e';
      assert r[0] == r[..|p|][0] == p[0];
    }
  }

  /** `MDictLinkHandlingStrategy::getNewHref`. */
  function NewHref(appendixId: string, title: string, s: string): (r: string)
    ensures r == "" || StartsWith(r, "entry://") || StartsWith(r, "sound://")
    ensures RouteOf(appendixId, s) == SubItemRoute ==> r == SubItemHref(s)
    ensures RouteOf(appendixId, s) == InternalRoute ==> r == InternalHref(s)
    ensures RouteOf(appendixId, s) == AppendixRoute ==> r == AppendixHref(title, s)
    ensures RouteOf(appendixId, s) == AudioRoute ==> r == AudioHref(s)
  {
    match RouteOf(appendixId, s)
    case AppendixRoute => AppendixHrefIsEntry(title, s); AppendixHref(title, s)
    case SubItemRoute => SubItemHrefIsEntry(s); SubItemHref(s)
    case AudioRoute => AudioHref(s)
    case InternalRoute => InternalHref(s)
  }

  /** An appendix href is "" or an entry link. */
  lemma AppendixHrefIsEntry(title: string, s: string)
    ensures AppendixHref(title, s) == "" || StartsWith(AppendixHref(title, s), "entry://")
    ensures !StartsWith(AppendixHref(title, s), "sound://")
  {
    var r := AppendixHref(title, s);
    if r != "" {
      PrefixOfPrefix(r, AppendixPrefix(title), "entry://");
    }
    EntryIsNotSound(r, "entry://");
  }

  lemma PrefixOfPrefix(r: string, p: string, q: string)
    requires StartsWith(r, p) && StartsWith(p, q)
    ensures StartsWith(r, q)
  {
    assert r[..|q|] == r[..|p|][..|q|];
  }

  /** Only hrefs naming an ".aac" file (and not caught by the tests before
      it) become sound links; every other rewrite is an entry link or "". */
  lemma SoundOnlyForAudio(appendixId: string, title: string, s: string)
    ensures StartsWith(NewHref(appendixId, title, s), "sound://") <==> RouteOf(appendixId, s) == AudioRoute
  {
    var r := NewHref(appendixId, title, s);
    match RouteOf(appendixId, s)
    case AppendixRoute => AppendixHrefIsEntry(title, s);
    case SubItemRoute => SubItemHrefIsEntry(s);
    case AudioRoute =>
    case InternalRoute => EntryIsNotSound(r, "entry://");
  }

  /** `NDSLinkExtractionStrategy::getNewHref`: sub-item links as above, an
      all-digit href verbatim (the empty one included), "" otherwise. */
  function NdsNewHref(s: string): (r: string)
    ensures r == "" || StartsWith(r, "entry://")
    ensures !StartsWith(r, "sound://")
    ensures IsSubItemLink(s) ==> r == SubItemHref(s)
    ensures r == "" <==> !IsSubItemLink(s) && !AllDigits(s)
  {
    if IsSubItemLink(s) then
      SubItemHrefIsEntry(s);
      SubItemHref(s)
    else DigitsHref(s)
  }

  /** A sub-item href is a non-empty entry link. */
  lemma SubItemHrefIsEntry(s: string)
    ensures SubItemHref(s) != "" && StartsWith(SubItemHref(s), "entry://") && !StartsWith(SubItemHref(s), "sound://")
  {
    var r := SubItemHref(s);
    PrefixOfPrefix(r, "entry://80", "entry://");
    EntryIsNotSound(r, "entry://");
  }

  /** An all-digit href as an entry link, verbatim; "" otherwise. */
  function DigitsHref(s: string): (r: string)
    ensures r == "" <==> !AllDigits(s)
    ensures r == "" || StartsWith(r, "entry://")
    ensures !StartsWith(r, "sound://")
  {
    if AllDigits(s) then
      var r := "entry://" + s;
      assert StartsWith(r, "entry://") by {
        assert r[..8] == "entry://";
      }
      EntryIsNotSound(r, "entry://");
      r
    else ""
  }

  /** The NDS strategy links an all-digit href to itself, leading zeros
      kept, where the MDict strategy links it to its page number. */
  lemma NdsKeepsDigits(appendixId: string, title: string, s: string)
    requires AllDigits(s)
    requires !(appendixId != "" && StartsWith(s, appendixId))
    ensures NdsNewHref(s) == "entry://" + s
    ensures NewHref(appendixId, title, s) == "entry://" + DecimalString(PageId(s))
  {
    DigitsAreNoSubItemLink(s);
    forall j: nat ensures !OccursAt(s, ".aac", j) {
      if j < |s| {
        assert IsAsciiDigit(s[j]);
      }
    }
  }

  /** On a canonical page number the two strategies agree. */
  lemma StrategiesAgreeOnPages(appendixId: string, title: string, page: nat)
    requires page <= INT_MAX
    requires !(appendixId != "" && StartsWith(NatString(page), appendixId))
    ensures NdsNewHref(NatString(page)) == NewHref(appendixId, title, NatString(page)) == "entry://" + NatString(page)
  {
    NdsKeepsDigits(appendixId, title, NatString(page));
    InternalHrefOfPage(0, page);
    assert Zeros(0) + NatString(page) == NatString(page);
  }

  // ---------------------------------------------------------------------
  // The documented examples

  /** An empty page number before a "-" gives page -1. */
  lemma EmptyPageExample()
    ensures InternalHref("-001") == "entry://-1"
  {
    assert Find("-001", '-') == Some(0);
    assert "-001"[..0] == "";
    assert FirstDigit("") == None;
    assert DecimalString(-1) == "-1";
  }

  /** The empty href is all digits: the NDS strategy links it to "entry://". */
  lemma NdsEmptyExample()
    ensures NdsNewHref("") == "entry://"
  {
    DigitsAreNoSubItemLink("");
  }
}

=== FILE: mdict_parser.dfy ===
/** The MDict parser (`MdictParser`): each page file has its links
    rewritten, gives one entry for the page and one per sub-item, and all
    of them go to the MDict exporter.

    Loading and serialising a document, key extraction, the link strategy
    and node serialisation are not part of this model: they are the
    outcome `loaded` and the parameters `save`, `extractKeys`, `strategy`
    and `serialise`.
 */
module MdictParser {
  import opened Wrappers
  import opened Text
  import opened XmlParser
  import opened MdictLinks
  import opened MdictExporter
  import opened SubItems
  import IndexReader

  // ---------------------------------------------------------------------
  // Set-up

  datatype InitError = NoOutputPath | DirectoryNotCreated | FileNotOpened

  /** `initializeProcessing` with the exporter's constructor: an output path
      is required; creating its directory and opening the text file may
      fail, each with its own exception. */
  function InitializeProcessing(outputPath: Option<string>, created: bool, fileOpen: bool): (r: Result<Exporter, InitError>)
    ensures outputPath.None? ==> r == Failure(NoOutputPath)
    ensures r.Success? <==> outputPath.Some? && created && fileOpen
    ensures r.Success? ==> r.value == NewExporter()
  {
    if outputPath.None? then Failure(NoOutputPath)
    else if !created then Failure(DirectoryNotCreated)
    else if !fileOpen then Failure(FileNotOpened)
    else Success(NewExporter())
  }

  // ---------------------------------------------------------------------
  // Link rewriting

  const WRAPPER_CLASS: string := "element-link-wrapper"

  /** Hrefs that are left as they are. */
  predicate KeptHref(href: string) {
    StartsWith(href, "http://") || StartsWith(href, "https://") || StartsWith(href, "entry://")
  }

  /** The position of the first attribute of that name, the one
      `xml_node::attribute` finds (`FirstNamedIsFirst`). */
  function FirstNamed(attrs: seq<Attr>, name: string): (r: Option<nat>)
    ensures r.Some? <==> AttributeValue(attrs, name).Some?
    ensures r.Some? ==> r.value < |attrs|
    decreases |attrs|
  {
    if |attrs| == 0 then None
    else if attrs[0].name == name then Some(0)
    else
      assert AttributeValue(attrs, name) == AttributeValue(attrs[1..], name);
      match FirstNamed(attrs[1..], name)
      case None => None
      case Some(i) => Some(i + 1)
  }

  /** `FirstNamed` is the first attribute of that name, and its value is
      what `xml_node::attribute` reads. */
  lemma {:induction false} FirstNamedIsFirst(attrs: seq<Attr>, name: string)
    ensures FirstNamed(attrs, name).Some? ==>
              var i := FirstNamed(attrs, name).value;
              attrs[i].name == name && attrs[i].value == AttributeValue(attrs, name).value
              && forall j :: 0 <= j < i ==> attrs[j].name != name
    decreases |attrs|
  {
    if |attrs| > 0 && attrs[0].name != name {
      FirstNamedIsFirst(attrs[1..], name);
      assert AttributeValue(attrs, name) == AttributeValue(attrs[1..], name);
      if FirstNamed(attrs[1..], name).Some? {
        var i := FirstNamed(attrs[1..], name).value;
        assert attrs[i + 1] == attrs[1..][i];
        assert forall j :: 1 <= j < i + 1 ==> attrs[j] == attrs[1..][j - 1];
      }
    }
  }

  /** The lookup finds the first attribute of the name. */
  lemma AttributeValueAt(attrs: seq<Attr>, name: string, i: nat)
    requires i < |attrs| && attrs[i].name == name
    requires forall j :: 0 <= j < i ==> attrs[j].name != name
    ensures AttributeValue(attrs, name) == Some(attrs[i].value)
  {
    var k :| 0 <= k < |attrs| && attrs[k].name == name && attrs[k].value == AttributeValue(attrs, name).value
             && forall j :: 0 <= j < k ==> attrs[j].name != name;
    assert k == i;
  }

  /** Element i of `xs` replaced by `x`: every other element is kept. */
  lemma SpliceIn<T>(xs: seq<T>, i: nat, x: T)
    requires i < |xs|
    ensures var r := xs[..i] + [x] + xs[i + 1..];
            |r| == |xs| && r[i] == x && forall j :: 0 <= j < |xs| && j != i ==> r[j] == xs[j]
  {
  }

  /** Element i of `xs` removed: what comes before and after is kept, in
      order. */
  lemma SpliceOut<T>(xs: seq<T>, i: nat)
    requires i < |xs|
    ensures var r := xs[..i] + xs[i + 1..];
            |r| == |xs| - 1
            && (forall j :: 0 <= j < i ==> r[j] == xs[j])
            && (forall j :: i <= j < |r| ==> r[j] == xs[j + 1])
            && (forall a :: a in r ==> a in xs)
  {
    var r := xs[..i] + xs[i + 1..];
    assert forall a :: a in r ==> a in xs[..i] || a in xs[i + 1..];
  }

  /** `set_value` on the first attribute of that name: it takes the new
      value, and every other attribute stays as it is, in place. */
  function SetFirst(attrs: seq<Attr>, name: string, value: string): (r: seq<Attr>)
    ensures AttributeValue(attrs, name).Some? ==> AttributeValue(r, name) == Some(value)
    ensures AttributeValue(attrs, name).None? ==> r == attrs
    ensures |r| == |attrs|
    ensures FirstNamed(attrs, name).Some? ==>
              var i := FirstNamed(attrs, name).value;
              r[i] == Attr(name, value) && forall j :: 0 <= j < |attrs| && j != i ==> r[j] == attrs[j]
  {
    match FirstNamed(attrs, name)
    case None => attrs
    case Some(i) =>
      var r := attrs[..i] + [Attr(name, value)] + attrs[i + 1..];
      SpliceIn(attrs, i, Attr(name, value));
      FirstNamedIsFirst(attrs, name);
      AttributeValueAt(r, name, i);
      r
  }

  /** `remove_attribute` of the first attribute of that name: the others
      stay, in order. */
  function RemoveFirst(attrs: seq<Attr>, name: string): (r: seq<Attr>)
    ensures AttributeValue(attrs, name).Some? ==> |r| == |attrs| - 1
    ensures AttributeValue(attrs, name).None? ==> r == attrs
    ensures FirstNamed(attrs, name).Some? ==>
              var i := FirstNamed(attrs, name).value;
              (forall j :: 0 <= j < i ==> r[j] == attrs[j])
              && (forall j :: i <= j < |attrs| - 1 ==> r[j] == attrs[j + 1])
    ensures forall a :: a in r ==> a in attrs
  {
    match FirstNamed(attrs, name)
    case None => attrs
    case Some(i) =>
      SpliceOut(attrs, i);
      attrs[..i] + attrs[i + 1..]
  }

  /** The element's href is rewritten: it has one, not kept, and the
      strategy gives a non-empty replacement. */
  predicate Rewritable(n: XNode, strategy: string -> string) {
    n.kind == ElementNode && AttributeValue(n.attrs, "href").Some?
    && !KeptHref(AttributeValue(n.attrs, "href").value)
    && strategy(AttributeValue(n.attrs, "href").value) != ""
  }

  /** The rewrite of one selected node: an `a` gets the new href in place;
      any other element is wrapped in a new `a` of class
      "element-link-wrapper" carrying the new href, and loses its own.
      Every element in a document has a parent, so the source's
      parentless case does not arise. */
  function RewriteOne(n: XNode, strategy: string -> string): (r: XNode)
    ensures !Rewritable(n, strategy) ==> r == n
    ensures Rewritable(n, strategy) ==>
              var newHref := strategy(AttributeValue(n.attrs, "href").value);
              r.kind == ElementNode && r.name == "a" && AttributeValue(r.attrs, "href") == Some(newHref)
              && (n.name == "a" ==> r.children == n.children && r.value == n.value
                                    && |r.attrs| == |n.attrs|)
              && (n.name != "a" ==> AttributeValue(r.attrs, "class") == Some(WRAPPER_CLASS)
                                    && r.children == [n.(attrs := RemoveFirst(n.attrs, "href"))])
  {
    if !Rewritable(n, strategy) then n
    else
      var newHref := strategy(AttributeValue(n.attrs, "href").value);
      if n.name == "a" then n.(attrs := SetFirst(n.attrs, "href", newHref))
      else XNode(ElementNode, "a", "", [Attr("class", WRAPPER_CLASS), Attr("href", newHref)],
                 [n.(attrs := RemoveFirst(n.attrs, "href"))])
  }

  /** `processAllLinkElements` on a subtree.  The source first selects every
      element with an href and then rewrites each; a rewrite changes only
      the node itself (the wrapper it adds is not selected), so rewriting
      the children first and then the node gives the same tree. */
  function RewriteNode(n: XNode, strategy: string -> string): XNode
    decreases n
  {
    RewriteOne(n.(children := RewriteKids(n.children, strategy)), strategy)
  }

  function RewriteKids(kids: seq<XNode>, strategy: string -> string): (r: seq<XNode>)
    ensures |r| == |kids|
    decreases kids
  {
    if |kids| == 0 then [] else [RewriteNode(kids[0], strategy)] + RewriteKids(kids[1..], strategy)
  }

  function RewriteDocument(doc: XNode, strategy: string -> string): XNode {
    doc.(children := RewriteKids(doc.children, strategy))
  }

  /** What one child contributes to `getElementText`. */
  function KidText(kid: XNode, ignored: set<string>): string {
    if kid.name in ignored then ""
    else if kid.kind == PCData || kid.kind == CData then kid.value
    else if kid.kind == ElementNode then ElementTextOf(kid, ignored)
    else ""
  }

  lemma ChildrenTextCons(kids: seq<XNode>, ignored: set<string>)
    requires |kids| > 0
    ensures ChildrenText(kids, ignored) == KidText(kids[0], ignored) + ChildrenText(kids[1..], ignored)
  {
  }

  /** Rewriting links keeps the text of every node: a wrapper adds no text
      of its own, unless `a` elements are ignored. */
  lemma {:induction false} RewriteKeepsNodeText(n: XNode, strategy: string -> string, ignored: set<string>)
    requires "a" !in ignored
    ensures KidText(RewriteNode(n, strategy), ignored) == KidText(n, ignored)
    decreases n
  {
    var m := n.(children := RewriteKids(n.children, strategy));
    RewriteKeepsText(n.children, strategy, ignored);
    assert KidText(m, ignored) == KidText(n, ignored);
    if Rewritable(m, strategy) && m.name != "a" {
      var inner := m.(attrs := RemoveFirst(m.attrs, "href"));
      var r := RewriteOne(m, strategy);
      ChildrenTextCons(r.children, ignored);
      assert r.children[1..] == [];
      assert KidText(r, ignored) == KidText(inner, ignored);
    }
  }

  lemma {:induction false} RewriteKeepsText(kids: seq<XNode>, strategy: string -> string, ignored: set<string>)
    requires "a" !in ignored
    ensures ChildrenText(RewriteKids(kids, strategy), ignored) == ChildrenText(kids, ignored)
    decreases kids
  {
    if |kids| > 0 {
      var r := RewriteKids(kids, strategy);
      RewriteKeepsNodeText(kids[0], strategy, ignored);
      RewriteKeepsText(kids[1..], strategy, ignored);
      ChildrenTextCons(kids, ignored);
      ChildrenTextCons(r, ignored);
      assert r[1..] == RewriteKids(kids[1..], strategy);
    }
  }

  /** A tree with no rewritable element is left exactly as it is. */
  lemma {:induction false} NothingToRewrite(kids: seq<XNode>, strategy: string -> string)
    requires forall x :: x in Preorder(kids) ==> !Rewritable(x, strategy)
    ensures RewriteKids(kids, strategy) == kids
    decreases kids
  {
    if |kids| > 0 {
      var k := kids[0];
      assert Preorder(kids) == [k] + Preorder(k.children) + Preorder(kids[1..]);
      NothingToRewrite(k.children, strategy);
      NothingToRewrite(kids[1..], strategy);
      assert k.(children := k.children) == k;
    }
  }

  /** Under the NDS strategy every element that is rewritten ends up an `a`
      with an "entry://" href, which a second pass leaves alone. */
  lemma NdsLinksAreKept(n: XNode)
    ensures Rewritable(n, NdsNewHref) ==>
      KeptHref(AttributeValue(RewriteOne(n, NdsNewHref).attrs, "href").value)
      && !Rewritable(RewriteOne(n, NdsNewHref), NdsNewHref)
  {
  }

  // ---------------------------------------------------------------------
  // Removing the sub-item section

  const SUBITEM_GROUP: string := "SubItemG"

  predicate NamedElement(n: XNode, name: string) {
    n.kind == ElementNode && n.name == name
  }

  /** Every element of that name removed from its parent, at any depth. */
  function RemoveNamed(kids: seq<XNode>, name: string): (r: seq<XNode>)
    ensures |r| <= |kids|
    decreases kids
  {
    if |kids| == 0 then []
    else if NamedElement(kids[0], name) then RemoveNamed(kids[1..], name)
    else [kids[0].(children := RemoveNamed(kids[0].children, name))] + RemoveNamed(kids[1..], name)
  }

  lemma {:induction false} PreorderAppend(a: seq<XNode>, b: seq<XNode>)
    ensures Preorder(a + b) == Preorder(a) + Preorder(b)
    decreases |a|
  {
    if |a| == 0 {
      assert a + b == b;
    } else {
      assert (a + b)[0] == a[0];
      assert (a + b)[1..] == a[1..] + b;
      PreorderAppend(a[1..], b);
    }
  }

  /** No element of that name is left anywhere. */
  lemma {:induction false} RemoveNamedLeavesNone(kids: seq<XNode>, name: string)
    ensures forall x :: x in Preorder(RemoveNamed(kids, name)) ==> !NamedElement(x, name)
    decreases kids
  {
    if |kids| > 0 {
      RemoveNamedLeavesNone(kids[1..], name);
      if !NamedElement(kids[0], name) {
        var k := kids[0].(children := RemoveNamed(kids[0].children, name));
        RemoveNamedLeavesNone(kids[0].children, name);
        PreorderAppend([k], RemoveNamed(kids[1..], name));
        assert Preorder([k]) == [k] + Preorder(k.children) + Preorder([]);
      }
    }
  }

  /** A tree without such an element is left exactly as it is. */
  lemma {:induction false} RemoveNamedNoneIsIdentity(kids: seq<XNode>, name: string)
    requires forall x :: x in Preorder(kids) ==> !NamedElement(x, name)
    ensures RemoveNamed(kids, name) == kids
    decreases kids
  {
    if |kids| > 0 {
      var k := kids[0];
      var below, after := Preorder(k.children), Preorder(kids[1..]);
      assert Preorder(kids) == [k] + below + after;
      assert !NamedElement(k, name) by { assert k in Preorder(kids); }
      assert forall x :: x in below ==> x in Preorder(kids);
      assert forall x :: x in after ==> x in Preorder(kids);
      RemoveNamedNoneIsIdentity(k.children, name);
      RemoveNamedNoneIsIdentity(kids[1..], name);
      assert k.(children := k.children) == k;
      assert kids == [k] + kids[1..];
    }
  }

  /** The `//SubItemG` removal on the document. */
  function RemoveSubItemGroups(doc: XNode): (r: XNode)
    ensures forall x :: x in Preorder(r.children) ==> !NamedElement(x, SUBITEM_GROUP)
  {
    RemoveNamedLeavesNone(doc.children, SUBITEM_GROUP);
    doc.(children := RemoveNamed(doc.children, SUBITEM_GROUP))
  }

  // ---------------------------------------------------------------------
  // One file

  /** The parser's state across files: the exporter and the sub-item
      processor with its shell. */
  datatype Parser = Parser(exporter: Exporter, subItems: SubItemProcessor)

  /** A page file: whether it loaded, the document, the file name (with its
      extension) and its stem. */
  datatype PageFile = PageFile(loaded: bool, doc: XNode, filename: string, stem: string)

  /** The result of `processFile`: the count it returns, or the exception
      `addEntry` throws on a finalised exporter. */
  datatype FileOutcome = Counted(count: int, parser: Parser) | Threw(parser: Parser)

  /** The page's keys: those of the index, or the extracted ones when the
      index has none. */
  function PageKeys(index: IndexReader.KeyMap, stem: string, extracted: seq<string>): (r: seq<string>)
    ensures IndexReader.KeysForFile(index, stem) != [] ==> r == IndexReader.KeysForFile(index, stem)
    ensures IndexReader.KeysForFile(index, stem) == [] ==> r == extracted
  {
    var indexed := IndexReader.KeysForFile(index, stem);
    if indexed == [] then extracted else indexed
  }

  /** `processFile`.  A file that does not load gives 0 and changes
      nothing.  Otherwise the links are rewritten, the sub-items are added
      (under the page id read from the file name), the sub-item groups are
      removed, and the page is added with its keys unless it serialises
      to nothing; the count is the number of page keys plus the sub-items
      added, or 0 for an empty page, whose sub-items are still added. */
  function ProcessFile(p: Parser, file: PageFile, index: IndexReader.KeyMap, jukugo: IndexReader.GroupedMap,
                       strategy: string -> string, extractKeys: (XNode, string) -> seq<string>,
                       serialise: XNode -> string, save: XNode -> string): (r: FileOutcome)
    ensures !file.loaded ==> r == Counted(0, p)
    ensures r.parser.subItems.subElement == p.subItems.subElement
    ensures r.parser.exporter.written == p.exporter.written && r.parser.exporter.buffer == p.exporter.buffer
    ensures r.Threw? ==> p.exporter.finalized
    ensures r.Counted? && r.count > 0 ==> file.loaded
    ensures file.loaded && save(RemoveSubItemGroups(RewriteDocument(file.doc, strategy))) == "" ==>
              var doc := RewriteDocument(file.doc, strategy);
              var pageId := PageId(file.filename);
              var out := ProcessSubItems(p.subItems, doc, IndexReader.GroupedEntriesForPage(jukugo, pageId), pageId,
                                         p.exporter, serialise);
              r == Counted(0, Parser(out.exporter, out.proc))
  {
    if !file.loaded then Counted(0, p)
    else
      var pageId := PageId(file.filename);
      var doc := RewriteDocument(file.doc, strategy);
      var keys := PageKeys(index, file.stem, extractKeys(doc, file.filename));
      var items := IndexReader.GroupedEntriesForPage(jukugo, pageId);
      var out := ProcessSubItems(p.subItems, doc, items, pageId, p.exporter, serialise);
      var content := save(RemoveSubItemGroups(doc));
      var p1 := Parser(out.exporter, out.proc);
      if content == "" then Counted(0, p1)
      else
        var (added, ex) := AddEntry(out.exporter, MDictEntry(pageId, keys, content));
        if !added then Threw(p1) else Counted(|keys| + out.count, Parser(ex, out.proc))
  }

  /** A loaded page with content adds its sub-items, then itself last,
      with the page id of its file name and its keys, and counts the keys
      and the sub-items. */
  lemma ProcessFileAddsPage(p: Parser, file: PageFile, index: IndexReader.KeyMap, jukugo: IndexReader.GroupedMap,
                            strategy: string -> string, extractKeys: (XNode, string) -> seq<string>,
                            serialise: XNode -> string, save: XNode -> string)
    requires file.loaded && !p.exporter.finalized
    requires save(RemoveSubItemGroups(RewriteDocument(file.doc, strategy))) != ""
    ensures var r := ProcessFile(p, file, index, jukugo, strategy, extractKeys, serialise, save);
            var doc := RewriteDocument(file.doc, strategy);
            var keys := PageKeys(index, file.stem, extractKeys(doc, file.filename));
            var out := ProcessSubItems(p.subItems, doc, IndexReader.GroupedEntriesForPage(jukugo, PageId(file.filename)),
                                       PageId(file.filename), p.exporter, serialise);
            r.Counted? && r.count == |keys| + out.count
            && r.parser.exporter.entries == out.exporter.entries + [MDictEntry(PageId(file.filename), keys, save(RemoveSubItemGroups(doc)))]
            && |r.parser.exporter.entries| == |p.exporter.entries| + out.count + 1
  {
  }

  /** `finalizeProcessing`: the exporter is finalised (assets are not part
      of this model). */
  function FinalizeProcessing(p: Parser, normalize: (seq<string>, string) -> seq<string>,
                              utf8: string -> seq<byte>, convertOk: bool): (r: (bool, Parser))
    ensures r.1.subItems == p.subItems
    ensures r.1.exporter.entries == p.exporter.entries
    ensures !p.exporter.finalized ==> r.1.exporter.written == Output(p.exporter) + SourceText(p.exporter.entries, normalize, utf8)
                                      && r.1.exporter.buffer == ""
    ensures p.exporter.finalized ==> r == (true, p)
    ensures r.1.exporter.finalized <==> p.exporter.finalized || convertOk
    ensures r.0 <==> r.1.exporter.finalized
  {
    var (ok, ex) := Finalize(p.exporter, normalize, utf8, convertOk);
    (ok, Parser(ex, p.subItems))
  }
}

=== FILE: numbers.dfy ===
/** Decimal printing and integer parsing as the C++ standard library does
    them: `std::to_string`, `std::stoi`/`std::stol` (which call `strtol`),
    and `std::setw` with a fill character.  The model's integers are
    unbounded, so the widths of `int` and `long` appear as explicit ranges.
 */
module Numbers {
  import opened Wrappers
  import opened Text

  const INT_MIN: int := -0x8000_0000
  const INT_MAX: int := 0x7FFF_FFFF
  const LONG_MIN: int := -0x8000_0000_0000_0000
  const LONG_MAX: int := 0x7FFF_FFFF_FFFF_FFFF

  /** Value of a digit character in base 16 (also right for base 10 digits). */
  function DigitValue(c: char): (v: nat)
    requires IsHexDigit(c)
    ensures v < 16
    ensures IsAsciiDigit(c) ==> v < 10
  {
    if '0' <= c <= '9' then c as int - '0' as int
    else if 'a' <= c <= 'f' then c as int - 'a' as int + 10
    else c as int - 'A' as int + 10
  }

  /** A digit of the given base (10 or 16), as `strtol` accepts them. */
  predicate IsBaseDigit(c: char, base: nat) {
    if base == 16 then IsHexDigit(c) else IsAsciiDigit(c)
  }

  predicate AllBaseDigits(s: string, base: nat) {
    forall i :: 0 <= i < |s| ==> IsBaseDigit(s[i], base)
  }

  /** The number a string of digits denotes, most significant digit first. */
  function DigitsValue(s: string, base: nat): nat
    requires AllBaseDigits(s, base)
  {
    if |s| == 0 then 0
    else DigitsValue(s[..|s| - 1], base) * (if base == 16 then 16 else 10) + DigitValue(s[|s| - 1])
  }

  function DigitChar(d: nat): (c: char)
    requires d < 10
    ensures IsAsciiDigit(c) && DigitValue(c) == d
  {
    ('0' as int + d) as char
  }

  /** The decimal digits of `n` without leading zeros. */
  function NatString(n: nat): (s: string)
    ensures |s| >= 1 && AllDigits(s)
    ensures s[0] == '0' ==> n == 0
  {
    if n < 10 then [DigitChar(n)] else NatString(n / 10) + [DigitChar(n % 10)]
  }

  /** `std::to_string` of an integer: an optional minus sign and the digits. */
  function DecimalString(n: int): (s: string)
    ensures |s| >= 1
    ensures n >= 0 ==> s == NatString(n)
    ensures n < 0 ==> s == "-" + NatString(-n)
  {
    if n < 0 then "-" + NatString(-n) else NatString(n)
  }

  /** A canonical decimal string: digits only, and no leading zero unless it
      is the single digit "0". */
  predicate Canonical(s: string) {
    |s| >= 1 && AllDigits(s) && (s[0] == '0' ==> |s| == 1)
  }

  /** Printing then reading the digits gives the number back. */
  lemma {:induction false} NatStringValue(n: nat)
    ensures AllBaseDigits(NatString(n), 10) && DigitsValue(NatString(n), 10) == n
  {
    var s := NatString(n);
    if n >= 10 {
      NatStringValue(n / 10);
      assert s[..|s| - 1] == NatString(n / 10);
    }
  }

  /** Reading a canonical string and printing the number gives the string back. */
  lemma {:induction false} ValueNatString(s: string)
    requires Canonical(s)
    ensures AllBaseDigits(s, 10) && NatString(DigitsValue(s, 10)) == s
    decreases |s|
  {
    var v := DigitsValue(s, 10);
    if |s| == 1 {
      assert s[..|s| - 1] == [];
      assert DigitsValue(s[..|s| - 1], 10) == 0;
      assert v == DigitValue(s[0]);
    } else {
      var init := s[..|s| - 1];
      assert init[0] == s[0];
      ValueNatString(init);
      var w := DigitsValue(init, 10);
      assert w >= 1;
      assert v / 10 == w && v % 10 == DigitValue(s[|s| - 1]);
      assert DigitChar(v % 10) == s[|s| - 1];
      assert s == init + [s[|s| - 1]];
    }
  }

  /** Number of leading characters of `s` that satisfy `isspace`. */
  function LeadingSpaces(s: string): (n: nat)
    ensures n <= |s|
    ensures forall j :: 0 <= j < n ==> IsCSpace(s[j])
    ensures n < |s| ==> !IsCSpace(s[n])
  {
    if |s| == 0 || !IsCSpace(s[0]) then 0 else 1 + LeadingSpaces(s[1..])
  }

  /** Length of the run of base digits at the start of `s`. */
  function DigitRun(s: string, base: nat): (n: nat)
    ensures n <= |s|
    ensures AllBaseDigits(s[..n], base)
    ensures n < |s| ==> !IsBaseDigit(s[n], base)
  {
    if |s| == 0 || !IsBaseDigit(s[0], base) then 0
    else
      var m := DigitRun(s[1..], base);
      assert s[..1 + m] == [s[0]] + s[1..][..m];
      1 + m
  }

  datatype ParseError = NoDigits | OutOfRange

  /** The sign and the digits `strtol` reads from `s` in `base` (10 or 16):
      leading white space skipped, an optional `+` or `-`, in base 16 an
      optional `0x`/`0X` prefix when a hex digit follows it, then the
      longest run of digits.  Whatever follows the digits is ignored. */
  function ScanNumber(s: string, base: nat): (r: (bool, string))
    ensures AllBaseDigits(r.1, base)
  {
    var t := s[LeadingSpaces(s)..];
    var negative := |t| > 0 && t[0] == '-';
    var u := if |t| > 0 && (t[0] == '-' || t[0] == '+') then t[1..] else t;
    var v := if base == 16 && |u| >= 3 && u[0] == '0' && (u[1] == 'x' || u[1] == 'X') && IsHexDigit(u[2])
             then u[2..] else u;
    (negative, v[..DigitRun(v, base)])
  }

  /** `std::stoi`/`std::stol` with the target type's range [lo, hi]: fails
      with `NoDigits` (std::invalid_argument) when no digit is read and with
      `OutOfRange` (std::out_of_range) when the value does not fit. */
  function ParseInteger(s: string, base: nat, lo: int, hi: int): (r: Result<int, ParseError>)
    ensures r.Success? ==> lo <= r.value <= hi
    ensures r.Failure? && r.error == NoDigits <==> ScanNumber(s, base).1 == []
  {
    var (negative, digits) := ScanNumber(s, base);
    if |digits| == 0 then Failure(NoDigits)
    else
      var magnitude := DigitsValue(digits, base);
      var value: int := if negative then -(magnitude as int) else magnitude;
      if lo <= value <= hi then Success(value) else Failure(OutOfRange)
  }

  /** `std::stoi(s)`. */
  function StoI(s: string): Result<int, ParseError> { ParseInteger(s, 10, INT_MIN, INT_MAX) }

  /** `std::stoi(s, nullptr, 16)`. */
  function StoIHex(s: string): Result<int, ParseError> { ParseInteger(s, 16, INT_MIN, INT_MAX) }

  /** `std::stol(s)` with a 64-bit `long`. */
  function StoL(s: string): Result<int, ParseError> { ParseInteger(s, 10, LONG_MIN, LONG_MAX) }

  /** `std::stoi` reads back what `std::to_string` printed, for every `int`. */
  lemma StoIDecimalString(n: int)
    requires INT_MIN <= n <= INT_MAX
    ensures StoI(DecimalString(n)) == Success(n)
  {
    var m := if n < 0 then -n else n;
    var digits := NatString(m);
    NatStringValue(m);
    assert DecimalString(n) == (if n < 0 then "-" else "") + digits;
    ScanSignedDigits(n < 0, digits);
    ParseDigits(DecimalString(n), 10, INT_MIN, INT_MAX, n < 0, digits);
  }

  /** `ParseInteger` of a string whose scan gives a sign and digits. */
  lemma ParseDigits(s: string, base: nat, lo: int, hi: int, negative: bool, digits: string)
    requires ScanNumber(s, base) == (negative, digits) && |digits| >= 1
    ensures var m := DigitsValue(digits, base);
            var value: int := if negative then -(m as int) else m;
            ParseInteger(s, base, lo, hi) == if lo <= value <= hi then Success(value) else Failure(OutOfRange)
  {
  }

  /** Scanning an optional minus sign followed by digits reads exactly those. */
  lemma ScanSignedDigits(negative: bool, digits: string)
    requires |digits| >= 1 && AllDigits(digits)
    ensures ScanNumber((if negative then "-" else "") + digits, 10) == (negative, digits)
  {
    var s := (if negative then "-" else "") + digits;
    assert !IsCSpace(s[0]);
    assert LeadingSpaces(s) == 0;
    assert s[0..] == s;
    var u := if |s| > 0 && (s[0] == '-' || s[0] == '+') then s[1..] else s;
    assert u == digits;
    DigitRunAll(digits, 10);
    assert digits[..|digits|] == digits;
  }

  /** A string of digits is one run. */
  lemma DigitRunAll(s: string, base: nat)
    requires AllBaseDigits(s, base)
    ensures DigitRun(s, base) == |s|
  {
    if |s| > 0 {
      DigitRunAll(s[1..], base);
    }
  }

  /** `std::setw(width)` with `std::setfill(fill)` and the default right
      alignment: `fill` characters are put in front until the width is reached. */
  function PadLeft(s: string, width: nat, fill: char): (r: string)
    ensures |s| >= width ==> r == s
    ensures |s| < width ==> |r| == width
    ensures EndsWith(r, s)
    ensures forall i :: 0 <= i < |r| - |s| ==> r[i] == fill
  {
    if |s| >= width then s else seq(width - |s|, _ => fill) + s
  }
}

=== FILE: subitem_processor.dfy ===
/** The sub-item processor (`SubItemProcessor`): every sub-item element of
    an MDict page that has jukugo keys becomes an entry of its own, with
    the id "80<page><item>" that sub-item links point at, and content
    wrapped in a shell of the page's enclosing tags.

    The shell is built once, from the first sub-item that has keys, and
    kept by the processor for every later sub-item of every later page.
    Serialising a node (`print` with `format_raw`) is not part of this
    model: it is the parameter `serialise`.
 */
module SubItems {
  import opened Wrappers
  import opened Text
  import opened Numbers
  import opened XmlParser
  import opened MdictLinks
  import opened MdictExporter
  import IndexReader

  // ---------------------------------------------------------------------
  // Nodes with their ancestors

  /** A node of a document with its ancestors, innermost first: the
      parent links pugixml walks. */
  datatype Located = Located(node: XNode, parents: seq<XNode>)

  /** The nodes below `kids` in document order, each with its ancestors. */
  function LocatedNodes(kids: seq<XNode>, parents: seq<XNode>): seq<Located>
    decreases kids
  {
    if |kids| == 0 then []
    else [Located(kids[0], parents)] + LocatedNodes(kids[0].children, [kids[0]] + parents)
         + LocatedNodes(kids[1..], parents)
  }

  function NodesOf(ls: seq<Located>): seq<XNode> {
    if |ls| == 0 then [] else [ls[0].node] + NodesOf(ls[1..])
  }

  lemma {:induction false} NodesOfAppend(a: seq<Located>, b: seq<Located>)
    ensures NodesOf(a + b) == NodesOf(a) + NodesOf(b)
    decreases |a|
  {
    if |a| == 0 {
      assert a + b == b;
    } else {
      assert (a + b)[1..] == a[1..] + b;
      NodesOfAppend(a[1..], b);
    }
  }

  /** The located nodes are those of the depth-first order. */
  lemma {:induction false} LocatedNodesArePreorder(kids: seq<XNode>, parents: seq<XNode>)
    ensures NodesOf(LocatedNodes(kids, parents)) == Preorder(kids)
    decreases kids
  {
    if |kids| > 0 {
      var below := LocatedNodes(kids[0].children, [kids[0]] + parents);
      var after := LocatedNodes(kids[1..], parents);
      LocatedNodesArePreorder(kids[0].children, [kids[0]] + parents);
      LocatedNodesArePreorder(kids[1..], parents);
      NodesOfAppend([Located(kids[0], parents)], below + after);
      NodesOfAppend(below, after);
      assert [Located(kids[0], parents)] + below + after == [Located(kids[0], parents)] + (below + after);
    }
  }

  /** `parents` really is the ancestor chain of `node`: each is a child of
      the next. */
  predicate Ancestry(node: XNode, parents: seq<XNode>) {
    (|parents| > 0 ==> node in parents[0].children)
    && forall i :: 0 <= i < |parents| - 1 ==> parents[i] in parents[i + 1].children
  }

  /** Every located node carries its true ancestor chain. */
  lemma {:induction false} LocatedAncestry(kids: seq<XNode>, parents: seq<XNode>)
    requires forall k :: k in kids ==> Ancestry(k, parents)
    ensures forall l :: l in LocatedNodes(kids, parents) ==> Ancestry(l.node, l.parents)
    decreases kids
  {
    if |kids| > 0 {
      var k := kids[0];
      assert Ancestry(k, parents);
      forall c | c in k.children ensures Ancestry(c, [k] + parents) {
        var ps := [k] + parents;
        forall i | 0 <= i < |ps| - 1 ensures ps[i] in ps[i + 1].children {
          if i > 0 {
            assert ps[i] == parents[i - 1] && ps[i + 1] == parents[i];
          }
        }
      }
      LocatedAncestry(k.children, [k] + parents);
      assert forall x :: x in kids[1..] ==> x in kids;
      LocatedAncestry(kids[1..], parents);
    }
  }

  /** An element of the sub-item name. */
  predicate IsSubItem(n: XNode, subElement: string) {
    n.kind == ElementNode && n.name == subElement
  }

  /** Filtering located nodes on their node filters the nodes. */
  lemma {:induction false} NodesOfFilter(ls: seq<Located>, q: Located -> bool, p: XNode -> bool)
    requires forall l :: q(l) == p(l.node)
    ensures NodesOf(Filter(ls, q)) == Filter(NodesOf(ls), p)
    decreases |ls|
  {
    if |ls| > 0 {
      NodesOfFilter(ls[1..], q, p);
      var head := if q(ls[0]) then [ls[0]] else [];
      NodesOfAppend(head, Filter(ls[1..], q));
      assert NodesOf(ls)[0] == ls[0].node && NodesOf(ls)[1..] == NodesOf(ls[1..]);
    }
  }

  /** XPath "//name": the elements of that name, in document order. */
  function SubItemNodes(doc: XNode, subElement: string): (r: seq<Located>)
    ensures forall l :: l in r ==> IsSubItem(l.node, subElement)
    ensures forall l :: l in r ==> Ancestry(l.node, l.parents)
    ensures NodesOf(r) == Filter(Preorder(doc.children), (n: XNode) => IsSubItem(n, subElement))
  {
    LocatedAncestry(doc.children, [doc]);
    var q := (l: Located) => IsSubItem(l.node, subElement);
    var p := (n: XNode) => IsSubItem(n, subElement);
    NodesOfFilter(LocatedNodes(doc.children, [doc]), q, p);
    LocatedNodesArePreorder(doc.children, [doc]);
    Filter(LocatedNodes(doc.children, [doc]), q)
  }

  // ---------------------------------------------------------------------
  // The shell

  datatype Shell = Shell(prefix: string, suffix: string)

  function SerialiseAll(kids: seq<XNode>, serialise: XNode -> string): string {
    if |kids| == 0 then "" else serialise(kids[0]) + SerialiseAll(kids[1..], serialise)
  }

  /** `child(name)`: the first child of that name. */
  function FirstChildNamed(kids: seq<XNode>, name: string): (r: Option<XNode>)
    ensures r.Some? ==> r.value in kids && r.value.name == name
    ensures r.None? <==> forall k :: k in kids ==> k.name != name
  {
    if |kids| == 0 then None
    else if kids[0].name == name then Some(kids[0])
    else
      assert forall k :: k in kids ==> k == kids[0] || k in kids[1..];
      FirstChildNamed(kids[1..], name)
  }

  /** The head of the document: "<head>…</head>" around the serialised
      children of the first `head` of the first top-level `html`, or ""
      when there is none. */
  function HeadContent(doc: XNode, serialise: XNode -> string): (r: string)
    ensures r == "" || (StartsWith(r, "<head>") && EndsWith(r, "</head>"))
  {
    match FirstChildNamed(doc.children, "html")
    case None => ""
    case Some(html) =>
      match FirstChildNamed(html.children, "head")
      case None => ""
      case Some(head) =>
        var inner := SerialiseAll(head.children, serialise);
        var r := "<head>" + inner + "</head>";
        assert r[..6] == "<head>" && r[|r| - 7..] == "</head>";
        r
  }

  /** How many of `parents`, innermost first, are elements before the first
      that is not. */
  function ElementRun(parents: seq<XNode>): (n: nat)
    ensures n <= |parents|
    ensures forall i :: 0 <= i < n ==> parents[i].kind == ElementNode
    ensures n < |parents| ==> parents[n].kind != ElementNode
  {
    if |parents| == 0 || parents[0].kind != ElementNode then 0 else 1 + ElementRun(parents[1..])
  }

  function Names(xs: seq<XNode>): (r: seq<string>)
    ensures |r| == |xs| && forall i :: 0 <= i < |xs| ==> r[i] == xs[i].name
  {
    if |xs| == 0 then [] else [xs[0].name] + Names(xs[1..])
  }

  predicate NonEmpty(t: string) { t != "" }

  /** The names of the element ancestors up to the first non-element (the
      document node), innermost first, skipping empty names. */
  function ParentTags(parents: seq<XNode>): (r: seq<string>)
    ensures r == Filter(Names(parents[..ElementRun(parents)]), NonEmpty)
    decreases |parents|
  {
    if |parents| == 0 || parents[0].kind != ElementNode then []
    else
      var rest := ParentTags(parents[1..]);
      NamesOfRun(parents);
      (if parents[0].name != "" then [parents[0].name] else []) + rest
  }

  /** The names of a run that starts with an element: its name, then the
      names of the run of the rest. */
  lemma NamesOfRun(parents: seq<XNode>)
    requires |parents| > 0 && parents[0].kind == ElementNode
    ensures var ns := Names(parents[..ElementRun(parents)]);
            |ns| > 0 && ns[0] == parents[0].name && ns[1..] == Names(parents[1..][..ElementRun(parents[1..])])
  {
    var n: nat := ElementRun(parents);
    assert n == 1 + ElementRun(parents[1..]);
    assert parents[..n] == [parents[0]] + parents[1..][..n - 1];
  }

  /** Every tag is the non-empty name of an element ancestor below the first
      non-element. */
  lemma ParentTagsFromElements(parents: seq<XNode>)
    ensures forall t :: t in ParentTags(parents) ==>
              t != "" && exists i :: 0 <= i < ElementRun(parents) && parents[i].kind == ElementNode && parents[i].name == t
  {
    var n := ElementRun(parents);
    var ns := Names(parents[..n]);
    forall t | t in ParentTags(parents)
      ensures t != "" && exists i :: 0 <= i < n && parents[i].kind == ElementNode && parents[i].name == t
    {
      assert t in ns && NonEmpty(t);
      var i :| 0 <= i < |ns| && ns[i] == t;
      assert parents[..n][i] == parents[i];
    }
  }

  /** The opening tag of an ancestor; `html` also opens the head. */
  function OpenTag(tag: string, head: string): string {
    if tag == "html" then "<html>" + head else "<" + tag + ">"
  }

  function CloseTag(tag: string): string { "</" + tag + ">" }

  /** The opening tags, outermost first (the source walks the tags in
      reverse). */
  function ShellPrefix(tags: seq<string>, head: string): string {
    if |tags| == 0 then "" else ShellPrefix(tags[1..], head) + OpenTag(tags[0], head)
  }

  /** The closing tags, innermost first. */
  function ShellSuffix(tags: seq<string>): string {
    if |tags| == 0 then "" else CloseTag(tags[0]) + ShellSuffix(tags[1..])
  }

  /** `content` inside its ancestors, each element around the one below it. */
  function Nest(tags: seq<string>, head: string, content: string): string
    decreases |tags|
  {
    if |tags| == 0 then content else Nest(tags[1..], head, OpenTag(tags[0], head) + content + CloseTag(tags[0]))
  }

  /** Prefix and suffix nest: every opening tag is closed, innermost
      first. */
  lemma {:induction false} ShellNests(tags: seq<string>, head: string, content: string)
    ensures ShellPrefix(tags, head) + content + ShellSuffix(tags) == Nest(tags, head, content)
    decreases |tags|
  {
    if |tags| > 0 {
      var t := tags[0];
      var inner := OpenTag(t, head) + content + CloseTag(t);
      ShellNests(tags[1..], head, inner);
      Regroup5(ShellPrefix(tags[1..], head), OpenTag(t, head), content, CloseTag(t), ShellSuffix(tags[1..]));
    }
  }

  lemma Regroup5(a: string, b: string, c: string, d: string, e: string)
    ensures (a + b) + c + (d + e) == a + (b + c + d) + e
  {
  }

  /** `createSubItemShell` for the first sub-item with keys. */
  function CreateShell(item: Located, doc: XNode, serialise: XNode -> string): Shell {
    var tags := ParentTags(item.parents);
    var head := HeadContent(doc, serialise);
    Shell(ShellPrefix(tags, head), ShellSuffix(tags))
  }

  /** `wrapContent`: the serialised children of the sub-item inside the
      shell. */
  function WrapContent(shell: Shell, node: XNode, serialise: XNode -> string): (r: string)
    ensures StartsWith(r, shell.prefix) && EndsWith(r, shell.suffix)
    ensures |r| == |shell.prefix| + |SerialiseAll(node.children, serialise)| + |shell.suffix|
    ensures r[|shell.prefix|..|r| - |shell.suffix|] == SerialiseAll(node.children, serialise)
  {
    var inner := SerialiseAll(node.children, serialise);
    var r := shell.prefix + inner + shell.suffix;
    assert r[..|shell.prefix|] == shell.prefix && r[|r| - |shell.suffix|..] == shell.suffix;
    assert r[|shell.prefix|..|r| - |shell.suffix|] == inner;
    r
  }

  /** The first sub-item's entry holds its children nested in its
      enclosing elements, the `html` ancestor opening the head too. */
  lemma FirstShellNests(item: Located, doc: XNode, serialise: XNode -> string)
    ensures WrapContent(CreateShell(item, doc, serialise), item.node, serialise)
         == Nest(ParentTags(item.parents), HeadContent(doc, serialise), SerialiseAll(item.node.children, serialise))
  {
    ShellNests(ParentTags(item.parents), HeadContent(doc, serialise), SerialiseAll(item.node.children, serialise));
  }

  // ---------------------------------------------------------------------
  // Processing

  /** The configured sub-item element name and the shell, once built. */
  datatype SubItemProcessor = SubItemProcessor(subElement: string, shell: Option<Shell>)

  datatype Outcome = Outcome(count: nat, proc: SubItemProcessor, exporter: Exporter)

  /** The id of a sub-item's entry: `stol` of "80", the page and the item. */
  function EntryId(pageId: int, itemId: string): Result<int, ParseError> {
    StoL("80" + DecimalString(pageId) + itemId)
  }

  /** `r` holds the entries of `ex` followed by `count` new ones, each
      wrapped in the shell. */
  predicate AddedFrom(ex: Exporter, r: Exporter, count: nat, shell: Option<Shell>) {
    |r.entries| == |ex.entries| + count
    && r.entries[..|ex.entries|] == ex.entries
    && (count > 0 ==> shell.Some?)
    && forall k :: |ex.entries| <= k < |r.entries| ==>
         StartsWith(r.entries[k].content, shell.value.prefix) && EndsWith(r.entries[k].content, shell.value.suffix)
  }

  lemma AddedFromStep(ex: Exporter, ex1: Exporter, r: Exporter, count: nat, shell: Shell)
    requires |ex1.entries| == |ex.entries| + 1 && ex1.entries[..|ex.entries|] == ex.entries
    requires StartsWith(ex1.entries[|ex.entries|].content, shell.prefix)
    requires EndsWith(ex1.entries[|ex.entries|].content, shell.suffix)
    requires AddedFrom(ex1, r, count, Some(shell))
    ensures AddedFrom(ex, r, count + 1, Some(shell))
  {
    assert r.entries[..|ex.entries|] == ex1.entries[..|ex.entries|];
    assert r.entries[|ex.entries|] == ex1.entries[|ex.entries|];
  }

  /** The `id` attribute of a sub-item. */
  function SubItemId(item: Located): Option<string> {
    AttributeValue(item.node.attrs, "id")
  }

  /** The sub-item has an id whose item part `stoi` rejects. */
  predicate BadItemNumber(item: Located) {
    SubItemId(item).Some? && StoI(ExtractItemId(SubItemId(item).value)).Failure?
  }

  /** The sub-item has an id whose item number has jukugo keys. */
  predicate HasKeys(item: Located, keys: IndexReader.ItemMap) {
    SubItemId(item).Some?
    && var n := StoI(ExtractItemId(SubItemId(item).value));
       n.Success? && n.value in keys
  }

  /** The entry a sub-item with keys becomes: the id "80<page><item>", the
      keys of its item number, its children in the shell.  None for a
      sub-item without keys, or whose id `stol` rejects. */
  function KeyedEntry(item: Located, keys: IndexReader.ItemMap, pageId: int, shell: Shell,
                      serialise: XNode -> string): Option<MDictEntry> {
    if !HasKeys(item, keys) then None
    else
      var itemId := ExtractItemId(SubItemId(item).value);
      match EntryId(pageId, itemId)
      case Failure(_) => None
      case Success(entryId) => Some(MDictEntry(entryId, keys[StoI(itemId).value], WrapContent(shell, item.node, serialise)))
  }

  /** The entries of the sub-items with keys, in order. */
  function KeyedEntries(items: seq<Located>, keys: IndexReader.ItemMap, pageId: int, shell: Shell,
                        serialise: XNode -> string): seq<MDictEntry>
    decreases |items|
  {
    if |items| == 0 then []
    else
      (match KeyedEntry(items[0], keys, pageId, shell, serialise) case Some(e) => [e] case None => [])
      + KeyedEntries(items[1..], keys, pageId, shell, serialise)
  }

  /** No sub-item makes `stoi` or `stol` throw. */
  predicate NoThrow(items: seq<Located>, keys: IndexReader.ItemMap, pageId: int)
    decreases |items|
  {
    |items| == 0
    || (!BadItemNumber(items[0])
        && (HasKeys(items[0], keys) ==> EntryId(pageId, ExtractItemId(SubItemId(items[0]).value)).Success?)
        && NoThrow(items[1..], keys, pageId))
  }

  /** What one sub-item does: nothing, end the loop, or add an entry. */
  datatype Step = Skip | Abort(proc: SubItemProcessor) | Add(proc: SubItemProcessor, exporter: Exporter)

  /** One turn of the loop of `processSubItems`.  A sub-item without an
      `id`, or whose item has no keys, is skipped.  A `stoi` or `stol`
      failure, or an exporter that refuses the entry, ends the loop (the
      exception is caught outside it) after the shell has been built. */
  function ItemStep(item: Located, doc: XNode, keys: IndexReader.ItemMap, pageId: int,
                    proc: SubItemProcessor, ex: Exporter, serialise: XNode -> string): (s: Step)
    ensures SubItemId(item).None? ==> s.Skip?
    ensures s.Skip? <==> !HasKeys(item, keys) && !BadItemNumber(item)
    ensures BadItemNumber(item) ==> s == Abort(proc)
    ensures s.Add? <==> HasKeys(item, keys) && EntryId(pageId, ExtractItemId(SubItemId(item).value)).Success?
                        && !ex.finalized
    ensures !s.Skip? ==> s.proc.subElement == proc.subElement && (proc.shell.Some? ==> s.proc == proc)
    ensures s.Add? ==> s.proc.shell.Some?
                       && s.exporter.written == ex.written && s.exporter.buffer == ex.buffer
                       && s.exporter.finalized == ex.finalized
                       && |s.exporter.entries| == |ex.entries| + 1
                       && s.exporter.entries[..|ex.entries|] == ex.entries
                       && KeyedEntry(item, keys, pageId, s.proc.shell.value, serialise) == Some(s.exporter.entries[|ex.entries|])
  {
    match AttributeValue(item.node.attrs, "id")
    case None => Skip
    case Some(subItemId) =>
      var itemId := ExtractItemId(subItemId);
      match StoI(itemId)
      case Failure(_) => Abort(proc)
      case Success(itemVal) =>
        if itemVal !in keys then Skip
        else
          var shell := if proc.shell.Some? then proc.shell.value else CreateShell(item, doc, serialise);
          var proc1 := proc.(shell := Some(shell));
          var content := WrapContent(shell, item.node, serialise);
          match EntryId(pageId, itemId)
          case Failure(_) => Abort(proc1)
          case Success(entryId) =>
            var (added, ex1) := AddEntry(ex, MDictEntry(entryId, keys[itemVal], content));
            if !added then Abort(proc1)
            else
              assert ex1.entries[|ex.entries|] == MDictEntry(entryId, keys[itemVal], content);
              assert ex1.entries[..|ex.entries|] == ex.entries;
              Add(proc1, ex1)
  }

  /** The loop of `processSubItems`; the count is of the entries added. */
  function ProcessItems(items: seq<Located>, doc: XNode, keys: IndexReader.ItemMap, pageId: int,
                        proc: SubItemProcessor, ex: Exporter, serialise: XNode -> string): (r: Outcome)
    ensures r.count <= |items|
    ensures r.proc.subElement == proc.subElement
    ensures proc.shell.Some? ==> r.proc == proc
    decreases |items|
  {
    if |items| == 0 then Outcome(0, proc, ex)
    else
      match ItemStep(items[0], doc, keys, pageId, proc, ex, serialise)
      case Skip => ProcessItems(items[1..], doc, keys, pageId, proc, ex, serialise)
      case Abort(proc1) => Outcome(0, proc1, ex)
      case Add(proc1, ex1) =>
        var rest := ProcessItems(items[1..], doc, keys, pageId, proc1, ex1, serialise);
        Outcome(rest.count + 1, rest.proc, rest.exporter)
  }

  /** The entries the loop adds follow the ones already there, each wrapped
      in the shell. */
  lemma {:induction false} ProcessItemsAdds(items: seq<Located>, doc: XNode, keys: IndexReader.ItemMap, pageId: int,
                                            proc: SubItemProcessor, ex: Exporter, serialise: XNode -> string)
    ensures var r := ProcessItems(items, doc, keys, pageId, proc, ex, serialise);
            AddedFrom(ex, r.exporter, r.count, r.proc.shell)
    decreases |items|
  {
    if |items| > 0 {
      match ItemStep(items[0], doc, keys, pageId, proc, ex, serialise)
      case Skip =>
        ProcessItemsAdds(items[1..], doc, keys, pageId, proc, ex, serialise);
      case Abort(_) =>
      case Add(proc1, ex1) =>
        ProcessItemsAdds(items[1..], doc, keys, pageId, proc1, ex1, serialise);
        var rest := ProcessItems(items[1..], doc, keys, pageId, proc1, ex1, serialise);
        var e := ex1.entries[|ex.entries|];
        assert e.content == WrapContent(proc1.shell.value, items[0].node, serialise);
        AddedFromStep(ex, ex1, rest.exporter, rest.count, proc1.shell.value);
    }
  }

  /** The entries the loop adds from `ex` are the first of those of the
      sub-items with keys, in order, under the shell it ends with. */
  predicate AddsKeyedPrefix(items: seq<Located>, doc: XNode, keys: IndexReader.ItemMap, pageId: int,
                            proc: SubItemProcessor, ex: Exporter, serialise: XNode -> string) {
    var r := ProcessItems(items, doc, keys, pageId, proc, ex, serialise);
    !ex.finalized && r.proc.shell.Some? ==>
      var all := KeyedEntries(items, keys, pageId, r.proc.shell.value, serialise);
      r.count <= |all| && r.exporter.entries == ex.entries + all[..r.count]
  }

  /** The entries the loop adds are the first of those of the sub-items
      with keys, in order, under the shell it ends with. */
  lemma {:induction false} ProcessItemsEntries(items: seq<Located>, doc: XNode, keys: IndexReader.ItemMap, pageId: int,
                                               proc: SubItemProcessor, ex: Exporter, serialise: XNode -> string)
    ensures AddsKeyedPrefix(items, doc, keys, pageId, proc, ex, serialise)
    decreases |items|, 1
  {
    if |items| == 0 {
      assert ex.entries + [] == ex.entries;
    } else {
      EntriesAfterSkip(items, doc, keys, pageId, proc, ex, serialise);
      EntriesAfterAbort(items, doc, keys, pageId, proc, ex, serialise);
      EntriesAfterAdd(items, doc, keys, pageId, proc, ex, serialise);
    }
  }

  /** `ProcessItemsEntries` when the first sub-item ends the loop. */
  lemma EntriesAfterAbort(items: seq<Located>, doc: XNode, keys: IndexReader.ItemMap, pageId: int,
                          proc: SubItemProcessor, ex: Exporter, serialise: XNode -> string)
    ensures |items| > 0 && ItemStep(items[0], doc, keys, pageId, proc, ex, serialise).Abort? ==>
              AddsKeyedPrefix(items, doc, keys, pageId, proc, ex, serialise)
  {
    assert ex.entries + [] == ex.entries;
  }

  /** `ProcessItemsEntries` when the first sub-item is skipped. */
  lemma {:induction false} EntriesAfterSkip(items: seq<Located>, doc: XNode, keys: IndexReader.ItemMap, pageId: int,
                                            proc: SubItemProcessor, ex: Exporter, serialise: XNode -> string)
    ensures |items| > 0 && ItemStep(items[0], doc, keys, pageId, proc, ex, serialise).Skip? ==>
              AddsKeyedPrefix(items, doc, keys, pageId, proc, ex, serialise)
    decreases |items|, 0
  {
    if |items| > 0 && ItemStep(items[0], doc, keys, pageId, proc, ex, serialise).Skip? {
      var tail := items[1..];
      var r := ProcessItems(tail, doc, keys, pageId, proc, ex, serialise);
      assert r == ProcessItems(items, doc, keys, pageId, proc, ex, serialise);
      if r.proc.shell.Some? {
        KeyedEntriesCons(items, keys, pageId, r.proc.shell.value, serialise);
      }
      ProcessItemsEntries(tail, doc, keys, pageId, proc, ex, serialise);
    }
  }

  /** `ProcessItemsEntries` when the first sub-item adds an entry. */
  lemma {:induction false} EntriesAfterAdd(items: seq<Located>, doc: XNode, keys: IndexReader.ItemMap, pageId: int,
                                           proc: SubItemProcessor, ex: Exporter, serialise: XNode -> string)
    ensures |items| > 0 && ItemStep(items[0], doc, keys, pageId, proc, ex, serialise).Add? ==>
              AddsKeyedPrefix(items, doc, keys, pageId, proc, ex, serialise)
    decreases |items|, 0
  {
    if |items| > 0 && ItemStep(items[0], doc, keys, pageId, proc, ex, serialise).Add? {
      var s := ItemStep(items[0], doc, keys, pageId, proc, ex, serialise);
      var proc1, ex1 := s.proc, s.exporter;
      var tail := items[1..];
      var rest := ProcessItems(tail, doc, keys, pageId, proc1, ex1, serialise);
      var shell := proc1.shell.value;
      assert rest.proc == proc1;
      KeyedEntriesCons(items, keys, pageId, shell, serialise);
      ProcessItemsEntries(tail, doc, keys, pageId, proc1, ex1, serialise);
      var e := ex1.entries[|ex.entries|];
      assert ex1.entries == ex.entries + [e];
      AppendedPrefix(e, KeyedEntries(tail, keys, pageId, shell, serialise), ex.entries, ex1.entries,
                     rest.exporter.entries, rest.count);
    }
  }

  /** Entries appended one, then a prefix of more: a prefix of all. */
  lemma AppendedPrefix(e: MDictEntry, more: seq<MDictEntry>, before: seq<MDictEntry>, mid: seq<MDictEntry>,
                       after: seq<MDictEntry>, n: nat)
    requires n <= |more| && mid == before + [e] && after == mid + more[..n]
    ensures n + 1 <= |[e] + more| && after == before + ([e] + more)[..n + 1]
  {
    assert ([e] + more)[..n + 1] == [e] + more[..n];
  }

  /** One step of `KeyedEntries`. */
  lemma KeyedEntriesCons(items: seq<Located>, keys: IndexReader.ItemMap, pageId: int, shell: Shell,
                         serialise: XNode -> string)
    requires |items| > 0
    ensures !HasKeys(items[0], keys) ==>
              KeyedEntries(items, keys, pageId, shell, serialise) == KeyedEntries(items[1..], keys, pageId, shell, serialise)
    ensures KeyedEntry(items[0], keys, pageId, shell, serialise).Some? ==>
              KeyedEntries(items, keys, pageId, shell, serialise)
              == [KeyedEntry(items[0], keys, pageId, shell, serialise).value] + KeyedEntries(items[1..], keys, pageId, shell, serialise)
  {
  }

  /** When no `stoi` or `stol` throws and the exporter takes entries, the
      loop adds the entries of all the sub-items with keys; a shell that is
      never built then means that no sub-item had keys. */
  lemma {:induction false} ProcessItemsComplete(items: seq<Located>, doc: XNode, keys: IndexReader.ItemMap, pageId: int,
                                                proc: SubItemProcessor, ex: Exporter, serialise: XNode -> string)
    ensures var r := ProcessItems(items, doc, keys, pageId, proc, ex, serialise);
            !ex.finalized && NoThrow(items, keys, pageId) ==>
              (r.proc.shell.Some? ==> r.count == |KeyedEntries(items, keys, pageId, r.proc.shell.value, serialise)|)
              && (r.proc.shell.None? ==> forall l :: l in items ==> !HasKeys(l, keys))
    decreases |items|
  {
    var r := ProcessItems(items, doc, keys, pageId, proc, ex, serialise);
    if |items| > 0 && !ex.finalized && NoThrow(items, keys, pageId) {
      var tail := items[1..];
      match ItemStep(items[0], doc, keys, pageId, proc, ex, serialise)
      case Skip =>
        ProcessItemsComplete(tail, doc, keys, pageId, proc, ex, serialise);
        if r.proc.shell.Some? {
          KeyedEntriesCons(items, keys, pageId, r.proc.shell.value, serialise);
        } else {
          assert forall l :: l in items ==> l == items[0] || l in tail;
        }
      case Abort(proc1) =>
        assert false;
      case Add(proc1, ex1) =>
        ProcessItemsComplete(tail, doc, keys, pageId, proc1, ex1, serialise);
        var rest := ProcessItems(tail, doc, keys, pageId, proc1, ex1, serialise);
        assert rest.proc == proc1;
        KeyedEntriesCons(items, keys, pageId, proc1.shell.value, serialise);
    }
  }

  /** The first sub-item with keys builds the shell. */
  lemma ItemStepShell(item: Located, doc: XNode, keys: IndexReader.ItemMap, pageId: int,
                      proc: SubItemProcessor, ex: Exporter, serialise: XNode -> string)
    ensures var s := ItemStep(item, doc, keys, pageId, proc, ex, serialise);
            HasKeys(item, keys) && proc.shell.None? ==> !s.Skip? && s.proc.shell == Some(CreateShell(item, doc, serialise))
  {
  }

  /** The position of the first element that satisfies `p`, if any. */
  function FirstWhere<T>(xs: seq<T>, p: T -> bool): (r: Option<nat>)
    ensures r.Some? ==> r.value < |xs| && p(xs[r.value]) && forall j :: 0 <= j < r.value ==> !p(xs[j])
    ensures r.None? ==> forall j :: 0 <= j < |xs| ==> !p(xs[j])
    decreases |xs|
  {
    if |xs| == 0 then None
    else if p(xs[0]) then Some(0)
    else
      match FirstWhere(xs[1..], p)
      case None =>
        assert forall j :: 1 <= j < |xs| ==> xs[j] == xs[1..][j - 1];
        None
      case Some(i) =>
        assert xs[i + 1] == xs[1..][i];
        assert forall j :: 1 <= j < i + 1 ==> xs[j] == xs[1..][j - 1];
        Some(i + 1)
  }

  /** The position of the first sub-item with keys, if any. */
  function FirstKeyed(items: seq<Located>, keys: IndexReader.ItemMap): (r: Option<nat>)
    ensures r.Some? ==> r.value < |items| && HasKeys(items[r.value], keys)
                        && forall j :: 0 <= j < r.value ==> !HasKeys(items[j], keys)
    ensures r.None? ==> forall j :: 0 <= j < |items| ==> !HasKeys(items[j], keys)
  {
    FirstWhere(items, (l: Located) => HasKeys(l, keys))
  }

  /** Skipping a first sub-item without keys moves the first keyed one by
      one place. */
  lemma FirstKeyedTail(items: seq<Located>, keys: IndexReader.ItemMap, i: nat)
    requires |items| > 0 && !HasKeys(items[0], keys) && FirstKeyed(items[1..], keys) == Some(i)
    ensures FirstKeyed(items, keys) == Some(i + 1)
  {
  }

  /** The loop that starts without a shell and ends with one built it from
      the first sub-item with keys. */
  predicate ShellFromFirstKeyed(items: seq<Located>, doc: XNode, keys: IndexReader.ItemMap, pageId: int,
                                proc: SubItemProcessor, ex: Exporter, serialise: XNode -> string) {
    var r := ProcessItems(items, doc, keys, pageId, proc, ex, serialise);
    proc.shell.None? && r.proc.shell.Some? ==>
      FirstKeyed(items, keys).Some?
      && r.proc.shell == Some(CreateShell(items[FirstKeyed(items, keys).value], doc, serialise))
  }

  /** The shell the loop ends with is the one it started with, or the one
      built from the first sub-item with keys. */
  lemma {:induction false} ProcessItemsShell(items: seq<Located>, doc: XNode, keys: IndexReader.ItemMap, pageId: int,
                                             proc: SubItemProcessor, ex: Exporter, serialise: XNode -> string)
    ensures ShellFromFirstKeyed(items, doc, keys, pageId, proc, ex, serialise)
    decreases |items|, 1
  {
    var r := ProcessItems(items, doc, keys, pageId, proc, ex, serialise);
    if |items| > 0 && proc.shell.None? && r.proc.shell.Some? {
      match ItemStep(items[0], doc, keys, pageId, proc, ex, serialise)
      case Skip =>
        ShellAfterSkip(items, doc, keys, pageId, proc, ex, serialise);
      case Abort(proc1) =>
        ItemStepShell(items[0], doc, keys, pageId, proc, ex, serialise);
      case Add(proc1, ex1) =>
        ItemStepShell(items[0], doc, keys, pageId, proc, ex, serialise);
        assert r.proc == proc1;
    }
  }

  /** `ProcessItemsShell` when the first sub-item is skipped. */
  lemma {:induction false} ShellAfterSkip(items: seq<Located>, doc: XNode, keys: IndexReader.ItemMap, pageId: int,
                                          proc: SubItemProcessor, ex: Exporter, serialise: XNode -> string)
    ensures |items| > 0 && ItemStep(items[0], doc, keys, pageId, proc, ex, serialise).Skip? ==>
              ShellFromFirstKeyed(items, doc, keys, pageId, proc, ex, serialise)
    decreases |items|, 0
  {
    if |items| > 0 && ItemStep(items[0], doc, keys, pageId, proc, ex, serialise).Skip? {
      SkipStep(items, doc, keys, pageId, proc, ex, serialise);
      ProcessItemsShell(items[1..], doc, keys, pageId, proc, ex, serialise);
      ShellFromTail(items, doc, keys, pageId, proc, ex, serialise);
    }
  }

  /** After a first sub-item without keys that leaves the loop unchanged,
      the first keyed sub-item of the rest is the first of all. */
  lemma ShellFromTail(items: seq<Located>, doc: XNode, keys: IndexReader.ItemMap, pageId: int,
                      proc: SubItemProcessor, ex: Exporter, serialise: XNode -> string)
    requires |items| > 0 && !HasKeys(items[0], keys)
    requires ProcessItems(items, doc, keys, pageId, proc, ex, serialise)
             == ProcessItems(items[1..], doc, keys, pageId, proc, ex, serialise)
    requires ShellFromFirstKeyed(items[1..], doc, keys, pageId, proc, ex, serialise)
    ensures ShellFromFirstKeyed(items, doc, keys, pageId, proc, ex, serialise)
  {
    var r := ProcessItems(items[1..], doc, keys, pageId, proc, ex, serialise);
    if proc.shell.None? && r.proc.shell.Some? {
      FirstKeyedShell(items, keys, doc, serialise, r.proc.shell);
    }
  }

  /** A shell built from the first keyed sub-item of the rest is built from
      the first keyed sub-item of all when the first has no keys. */
  lemma FirstKeyedShell(items: seq<Located>, keys: IndexReader.ItemMap, doc: XNode, serialise: XNode -> string,
                        shell: Option<Shell>)
    requires |items| > 0 && !HasKeys(items[0], keys)
    requires FirstKeyed(items[1..], keys).Some?
    requires shell == Some(CreateShell(items[1..][FirstKeyed(items[1..], keys).value], doc, serialise))
    ensures FirstKeyed(items, keys).Some?
    ensures shell == Some(CreateShell(items[FirstKeyed(items, keys).value], doc, serialise))
  {
    var i: nat := FirstKeyed(items[1..], keys).value;
    FirstKeyedTail(items, keys, i);
    assert items[i + 1] == items[1..][i];
  }

  /** A skipped first sub-item has no keys, and the loop goes on with the
      rest unchanged. */
  lemma SkipStep(items: seq<Located>, doc: XNode, keys: IndexReader.ItemMap, pageId: int,
                 proc: SubItemProcessor, ex: Exporter, serialise: XNode -> string)
    requires |items| > 0 && ItemStep(items[0], doc, keys, pageId, proc, ex, serialise).Skip?
    ensures !HasKeys(items[0], keys)
    ensures ProcessItems(items, doc, keys, pageId, proc, ex, serialise)
            == ProcessItems(items[1..], doc, keys, pageId, proc, ex, serialise)
  {
  }

  /** `processSubItems`: the loop over the document's sub-item elements.
      An empty element name makes the query "//", which pugixml rejects
      with an exception that is caught: nothing is processed. */
  function ProcessSubItems(proc: SubItemProcessor, doc: XNode, keys: IndexReader.ItemMap, pageId: int,
                           ex: Exporter, serialise: XNode -> string): (r: Outcome)
    ensures proc.subElement == "" ==> r == Outcome(0, proc, ex)
    ensures r.proc.subElement == proc.subElement
    ensures proc.shell.Some? ==> r.proc == proc
    ensures r.exporter.written == ex.written && r.exporter.buffer == ex.buffer
    ensures r.exporter.finalized == ex.finalized
    ensures AddedFrom(ex, r.exporter, r.count, r.proc.shell)
    ensures proc.subElement != "" && !ex.finalized && r.proc.shell.Some? ==>
      var all := KeyedEntries(SubItemNodes(doc, proc.subElement), keys, pageId, r.proc.shell.value, serialise);
      r.count <= |all| && r.exporter.entries == ex.entries + all[..r.count]
    ensures proc.subElement != "" && !ex.finalized && NoThrow(SubItemNodes(doc, proc.subElement), keys, pageId) ==>
      (r.proc.shell.Some? ==>
         r.exporter.entries == ex.entries + KeyedEntries(SubItemNodes(doc, proc.subElement), keys, pageId, r.proc.shell.value, serialise))
      && (r.proc.shell.None? ==> r.count == 0 && forall l :: l in SubItemNodes(doc, proc.subElement) ==> !HasKeys(l, keys))
    ensures proc.subElement != "" && proc.shell.None? && r.proc.shell.Some? ==>
      var items := SubItemNodes(doc, proc.subElement);
      FirstKeyed(items, keys).Some? && r.proc.shell == Some(CreateShell(items[FirstKeyed(items, keys).value], doc, serialise))
  {
    if proc.subElement == "" then Outcome(0, proc, ex)
    else
      var items := SubItemNodes(doc, proc.subElement);
      ProcessItemsKeepsOutput(items, doc, keys, pageId, proc, ex, serialise);
      ProcessItemsAdds(items, doc, keys, pageId, proc, ex, serialise);
      ProcessItemsEntries(items, doc, keys, pageId, proc, ex, serialise);
      ProcessItemsComplete(items, doc, keys, pageId, proc, ex, serialise);
      ProcessItemsShell(items, doc, keys, pageId, proc, ex, serialise);
      var r := ProcessItems(items, doc, keys, pageId, proc, ex, serialise);
      assert r.proc.shell.Some? && !ex.finalized ==>
        r.count <= |KeyedEntries(items, keys, pageId, r.proc.shell.value, serialise)|;
      assert r.proc.shell.Some? && !ex.finalized && NoThrow(items, keys, pageId) ==>
        KeyedEntries(items, keys, pageId, r.proc.shell.value, serialise)[..r.count]
        == KeyedEntries(items, keys, pageId, r.proc.shell.value, serialise);
      r
  }

  /** The loop only adds entries: nothing is written, and a finalized
      exporter is left as it is. */
  lemma {:induction false} ProcessItemsKeepsOutput(items: seq<Located>, doc: XNode, keys: IndexReader.ItemMap, pageId: int,
                                                   proc: SubItemProcessor, ex: Exporter, serialise: XNode -> string)
    ensures var r := ProcessItems(items, doc, keys, pageId, proc, ex, serialise);
            r.exporter.written == ex.written && r.exporter.buffer == ex.buffer
            && r.exporter.finalized == ex.finalized
            && (ex.finalized ==> r.count == 0 && r.exporter == ex)
    decreases |items|
  {
    if |items| > 0 {
      match ItemStep(items[0], doc, keys, pageId, proc, ex, serialise)
      case Skip =>
        ProcessItemsKeepsOutput(items[1..], doc, keys, pageId, proc, ex, serialise);
      case Abort(_) =>
      case Add(proc1, ex1) =>
        ProcessItemsKeepsOutput(items[1..], doc, keys, pageId, proc1, ex1, serialise);
    }
  }

  /** Without jukugo keys no sub-item is added and no shell is built. */
  lemma {:induction false} NoKeysNoEntries(items: seq<Located>, doc: XNode, pageId: int,
                                           proc: SubItemProcessor, ex: Exporter, serialise: XNode -> string)
    ensures ProcessItems(items, doc, map[], pageId, proc, ex, serialise) == Outcome(0, proc, ex)
    decreases |items|
  {
    if |items| > 0 {
      NoKeysNoEntries(items[1..], doc, pageId, proc, ex, serialise);
    }
  }

  // ---------------------------------------------------------------------
  // Sub-item links reach sub-item entries

  function Pow10(n: nat): (r: nat)
    ensures r >= 1
  {
    if n == 0 then 1 else 10 * Pow10(n - 1)
  }

  lemma {:induction false} Pow10Grows(n: nat, m: nat)
    requires n <= m
    ensures Pow10(n) <= Pow10(m)
    decreases m
  {
    if n < m {
      Pow10Grows(n, m - 1);
    }
  }

  /** A string of n decimal digits denotes less than 10^n. */
  lemma {:induction false} DigitsBelowPow10(s: string)
    requires AllBaseDigits(s, 10)
    ensures DigitsValue(s, 10) < Pow10(|s|)
    decreases |s|
  {
    if |s| > 0 {
      var init := s[..|s| - 1];
      assert AllBaseDigits(init, 10);
      DigitsBelowPow10(init);
      assert DigitsValue(s, 10) == DigitsValue(init, 10) * 10 + DigitValue(s[|s| - 1]);
    }
  }

  /** A number below 10^k has at most k digits. */
  lemma {:induction false} NatStringShort(n: nat, k: nat)
    requires 1 <= k && n < Pow10(k)
    ensures |NatString(n)| <= k
    decreases k
  {
    if n >= 10 {
      if k == 1 {
        assert false;
      }
      NatStringShort(n / 10, k - 1);
    }
  }

  /** The decimal id "80<page><item>" of a sub-item is read back by `stol`
      and printed as itself. */
  lemma EntryIdDigits(page: nat, itemId: string)
    requires page <= INT_MAX && |itemId| <= 4 && AllDigits(itemId)
    ensures var d := "80" + NatString(page) + itemId;
            Canonical(d) && AllBaseDigits(d, 10)
            && EntryId(page, itemId) == Success(DigitsValue(d, 10))
            && DecimalString(DigitsValue(d, 10)) == d
  {
    var d := "80" + NatString(page) + itemId;
    assert Pow10(10) == 10000000000 by {
      assert Pow10(5) == 100000;
    }
    NatStringShort(page, 10);
    assert Canonical(d) by {
      assert d[0] == '8';
      AllDigitsConcat("80", NatString(page));
      AllDigitsConcat("80" + NatString(page), itemId);
    }
    ValueNatString(d);
    DigitsBelowPow10(d);
    Pow10Grows(|d|, 16);
    assert Pow10(16) == 10000000000000000 by {
      assert Pow10(8) == 100000000;
    }
    assert DigitsValue(d, 10) <= LONG_MAX;
    ScanSignedDigits(false, d);
    assert "" + d == d;
    ParseDigits(d, 10, LONG_MIN, LONG_MAX, false, d);
  }

  /** A sub-item whose id "<page>-…<hhh>" ends in three hex digits gets the
      entry id that its rewritten links point at: "entry://" followed by
      the entry id is `getSubItemHref` of the id, when the page being
      processed is the page in the id. */
  lemma LinksReachSubItems(subItemId: string, dash: nat, h: string, pageId: int)
    ensures Find(subItemId, '-') == Some(dash)
         && |subItemId| - dash - 1 >= 3 && h == subItemId[|subItemId| - 3..]
         && (forall i :: 0 <= i < 3 ==> IsHexDigit(h[i]))
         && pageId == PageId(subItemId) && pageId >= 0
         ==> EntryId(pageId, ExtractItemId(subItemId)).Success?
             && "entry://" + DecimalString(EntryId(pageId, ExtractItemId(subItemId)).value) == SubItemHref(subItemId)
  {
    if Find(subItemId, '-') == Some(dash)
       && |subItemId| - dash - 1 >= 3 && h == subItemId[|subItemId| - 3..]
       && (forall i :: 0 <= i < 3 ==> IsHexDigit(h[i]))
       && pageId == PageId(subItemId) && pageId >= 0
    {
      var itemId := ExtractItemId(subItemId);
      assert AllDigits(itemId) && |itemId| <= 4 by {
        ItemIdOfHex(subItemId, dash, h);
        PaddedValue(DigitsValue(h, 16));
      }
      var d := "80" + NatString(pageId) + itemId;
      assert AllBaseDigits(d, 10) && EntryId(pageId, itemId) == Success(DigitsValue(d, 10))
             && DecimalString(DigitsValue(d, 10)) == d by {
        EntryIdDigits(pageId, itemId);
      }
      assert SubItemHref(subItemId) == "entry://80" + (NatString(pageId) + itemId);
      EntryEighty();
      Regroup4("entry://", "80", NatString(pageId), itemId, "entry://80");
    }
  }

  lemma EntryEighty()
    ensures "entry://" + "80" == "entry://80"
  {
  }

  lemma Regroup4(a: string, b: string, x: string, y: string, ab: string)
    requires ab == a + b
    ensures a + (b + x + y) == ab + (x + y)
  {
  }
}

=== FILE: text.dfy ===
/** Character and string helpers shared by the model: prefix and substring
    search, splitting on a separator, whitespace tokens, and the C character
    classes the source relies on (`isdigit`, `isxdigit`, `isspace`,
    `isalpha` in the "C" locale).
 */
module Text {
  import opened Wrappers

  predicate IsAsciiDigit(c: char) { '0' <= c <= '9' }

  predicate IsHexDigit(c: char) { '0' <= c <= '9' || 'a' <= c <= 'f' || 'A' <= c <= 'F' }

  /** `isspace` in the "C" locale: space, \t, \n, \v, \f, \r. */
  predicate IsCSpace(c: char) { c == ' ' || c == '\t' || c == '\n' || c == '\U{B}' || c == '\U{C}' || c == '\r' }

  predicate IsAsciiAlpha(c: char) { 'a' <= c <= 'z' || 'A' <= c <= 'Z' }

  predicate AllDigits(s: string) { forall i :: 0 <= i < |s| ==> IsAsciiDigit(s[i]) }

  lemma AllDigitsConcat(a: string, b: string)
    requires AllDigits(a) && AllDigits(b)
    ensures AllDigits(a + b)
  {
    forall i | 0 <= i < |a + b| ensures IsAsciiDigit((a + b)[i]) {
      if i < |a| {
        assert (a + b)[i] == a[i];
      } else {
        assert (a + b)[i] == b[i - |a|];
      }
    }
  }

  predicate StartsWith(s: string, p: string) { |p| <= |s| && s[..|p|] == p }

  predicate EndsWith(s: string, p: string) { |p| <= |s| && s[|s| - |p|..] == p }

  /** `sub` occurs in `s` starting at index `i`. */
  predicate OccursAt(s: string, sub: string, i: nat) { i + |sub| <= |s| && s[i..i + |sub|] == sub }

  /** First index of the character `c` in `s` (`std::string::find(char)`). */
  function Find(s: string, c: char): (r: Option<nat>)
    ensures r.Some? ==> r.value < |s| && s[r.value] == c && c !in s[..r.value]
    ensures r.None? <==> c !in s
  {
    if |s| == 0 then None
    else if s[0] == c then Some(0)
    else match Find(s[1..], c)
      case None => None
      case Some(i) => assert s[1..][..i] == s[1..i + 1]; Some(i + 1)
  }

  /** First index at which `sub` occurs in `s`, at or after `from`. */
  function FindSubFrom(s: string, sub: string, from: nat): (r: Option<nat>)
    ensures r.Some? ==> from <= r.value && OccursAt(s, sub, r.value)
    ensures r.Some? ==> forall j :: from <= j < r.value ==> !OccursAt(s, sub, j)
    ensures r.None? ==> forall j :: from <= j ==> !OccursAt(s, sub, j)
    decreases |s| - from
  {
    if from + |sub| > |s| then None
    else if s[from..from + |sub|] == sub then Some(from)
    else FindSubFrom(s, sub, from + 1)
  }

  /** First index of the substring `sub` in `s` (`std::string::find(string)`). */
  function FindSub(s: string, sub: string): (r: Option<nat>)
    ensures r.Some? ==> OccursAt(s, sub, r.value) && forall j :: 0 <= j < r.value ==> !OccursAt(s, sub, j)
    ensures r.None? ==> forall j: nat :: !OccursAt(s, sub, j)
  {
    FindSubFrom(s, sub, 0)
  }

  predicate Contains(s: string, sub: string) { FindSub(s, sub).Some? }

  /** `s` with every `a` replaced by `b` (`std::replace`). */
  function ReplaceChar(s: string, a: char, b: char): (r: string)
    ensures |r| == |s|
    ensures forall i :: 0 <= i < |s| ==> r[i] == (if s[i] == a then b else s[i])
  {
    seq(|s|, i requires 0 <= i < |s| => if s[i] == a then b else s[i])
  }

  /** The elements of `xs` that satisfy `p`, in order (`std::copy_if`). */
  function Filter<T(!new)>(xs: seq<T>, p: T -> bool): (r: seq<T>)
    ensures |r| <= |xs|
    ensures forall x :: x in r <==> x in xs && p(x)
  {
    if |xs| == 0 then [] else (if p(xs[0]) then [xs[0]] else []) + Filter(xs[1..], p)
  }

  /** Filtering keeps every element when all of them pass. */
  lemma FilterAll<T(!new)>(xs: seq<T>, p: T -> bool)
    requires forall x :: x in xs ==> p(x)
    ensures Filter(xs, p) == xs
  {
    if |xs| > 0 {
      assert xs == [xs[0]] + xs[1..];
      FilterAll(xs[1..], p);
    }
  }

  /** Filtering keeps nothing when no element passes. */
  lemma FilterNone<T(!new)>(xs: seq<T>, p: T -> bool)
    requires forall x :: x in xs ==> !p(x)
    ensures Filter(xs, p) == []
  {
  }

  /** The concatenation of all parts. */
  function Concat(parts: seq<string>): (r: string)
    ensures |parts| == 1 ==> r == parts[0]
  {
    if |parts| == 0 then [] else parts[0] + Concat(parts[1..])
  }

  lemma ConcatAppend(a: seq<string>, b: seq<string>)
    ensures Concat(a + b) == Concat(a) + Concat(b)
  {
    if |a| > 0 {
      assert (a + b)[0] == a[0];
      assert (a + b)[1..] == a[1..] + b;
      ConcatAppend(a[1..], b);
    } else {
      assert a + b == b;
    }
  }

  /** The parts joined with `sep` between neighbours. */
  function Join(parts: seq<string>, sep: string): string {
    if |parts| == 0 then []
    else if |parts| == 1 then parts[0]
    else parts[0] + sep + Join(parts[1..], sep)
  }

  /** `s` cut at every `sep`: one more field than there are separators, empty
      fields kept (the tab splitting of the index readers). */
  function Split(s: string, sep: char): (r: seq<string>)
    ensures |r| >= 1
    ensures forall i :: 0 <= i < |r| ==> sep !in r[i]
    decreases |s|
  {
    match Find(s, sep)
    case None => [s]
    case Some(i) => [s[..i]] + Split(s[i + 1..], sep)
  }

  /** Splitting and joining again with the same separator is the identity. */
  lemma {:induction false} JoinSplit(s: string, sep: char)
    ensures Join(Split(s, sep), [sep]) == s
    decreases |s|
  {
    match Find(s, sep)
    case None =>
    case Some(i) =>
      var rest := Split(s[i + 1..], sep);
      assert Split(s, sep) == [s[..i]] + rest;
      assert ([s[..i]] + rest)[1..] == rest;
      assert Join(Split(s, sep), [sep]) == s[..i] + [sep] + Join(rest, [sep]);
      JoinSplit(s[i + 1..], sep);
      assert s == s[..i] + [sep] + s[i + 1..];
  }

  /** Joining separator-free parts and splitting again gives the parts back. */
  lemma {:induction false} SplitJoin(parts: seq<string>, sep: char)
    requires |parts| >= 1
    requires forall i :: 0 <= i < |parts| ==> sep !in parts[i]
    ensures Split(Join(parts, [sep]), sep) == parts
    decreases |parts|
  {
    if |parts| > 1 {
      var rest := Join(parts[1..], [sep]);
      var s := parts[0] + [sep] + rest;
      assert s[..|parts[0]|] == parts[0];
      assert s[|parts[0]|] == sep;
      assert Find(s, sep) == Some(|parts[0]|);
      assert s[|parts[0]| + 1..] == rest;
      SplitJoin(parts[1..], sep);
    } else {
      assert Find(parts[0], sep).None?;
    }
  }

  /** Length of the run of non-space characters at the start of `s`. */
  function WordLength(s: string): (n: nat)
    ensures n <= |s|
    ensures forall j :: 0 <= j < n ==> !IsCSpace(s[j])
    ensures n < |s| ==> IsCSpace(s[n])
  {
    if |s| == 0 || IsCSpace(s[0]) then 0 else 1 + WordLength(s[1..])
  }

  /** The whitespace-separated words of `s`, as `operator>>` on an
      `istringstream` reads them. */
  function Tokens(s: string): (r: seq<string>)
    ensures forall i :: 0 <= i < |r| ==> |r[i]| > 0
    ensures forall i, j :: 0 <= i < |r| && 0 <= j < |r[i]| ==> !IsCSpace(r[i][j])
    decreases |s|
  {
    if |s| == 0 then []
    else if IsCSpace(s[0]) then Tokens(s[1..])
    else
      var n := WordLength(s);
      [s[..n]] + Tokens(s[n..])
  }

  /** `s` without its whitespace characters. */
  function Unspaced(s: string): string {
    if |s| == 0 then [] else (if IsCSpace(s[0]) then [] else [s[0]]) + Unspaced(s[1..])
  }

  lemma UnspacedAppend(a: string, b: string)
    ensures Unspaced(a + b) == Unspaced(a) + Unspaced(b)
  {
    if |a| > 0 {
      assert (a + b)[0] == a[0];
      assert (a + b)[1..] == a[1..] + b;
      UnspacedAppend(a[1..], b);
    } else {
      assert a + b == b;
    }
  }

  lemma UnspacedWord(s: string)
    requires forall j :: 0 <= j < |s| ==> !IsCSpace(s[j])
    ensures Unspaced(s) == s
  {
    if |s| > 0 {
      UnspacedWord(s[1..]);
    }
  }

  /** The words together hold exactly the non-space characters of `s`. */
  lemma {:induction false} TokensCoverText(s: string)
    ensures Concat(Tokens(s)) == Unspaced(s)
    decreases |s|
  {
    if |s| == 0 {
    } else if IsCSpace(s[0]) {
      TokensCoverText(s[1..]);
    } else {
      var n := WordLength(s);
      TokensCoverText(s[n..]);
      assert s == s[..n] + s[n..];
      UnspacedAppend(s[..n], s[n..]);
      UnspacedWord(s[..n]);
    }
  }
}

=== FILE: wrappers.dfy ===
/** Option and Result: the optional values and the error paths of the model.
    A `std::optional` of the source is an `Option`; an operation that can
    throw or report failure returns a `Result` whose `Failure` carries the
    reason.
 */
module Wrappers {

  datatype Option<+T> = None | Some(value: T) {

    /** The encapsulated value, or `default` when there is none. */
    function GetOr(default: T): T {
      match this
      case Some(v) => v
      case None => default
    }
  }

  datatype Result<+T, +E> = Success(value: T) | Failure(error: E) {

    /** Forgets the error reason. */
    function ToOption(): Option<T> {
      match this
      case Success(v) => Some(v)
      case Failure(_) => None
    }
  }
}

=== FILE: xml_parser.dfy ===
/** Conversion of a parsed XML entry into structured content (`XMLParser`).
    The XML tree is an abstract `XNode`: a kind, a name, a text value,
    attributes in document order and children in document order.  The
    ancestors of a node are passed alongside it as a chain, nearest first,
    because pugixml reaches them through parent links.

    The tag mapping is the map read from the dictionary's tag-mapping file;
    it is a parameter here, as is the flag the loader derives from it.
 */
module XmlParser {
  import opened Wrappers
  import opened Text
  import opened HtmlContent

  datatype NodeKind = ElementNode | PCData | CData | DocumentNode | OtherNode

  datatype Attr = Attr(name: string, value: string)

  datatype XNode = XNode(kind: NodeKind, name: string, value: string, attrs: seq<Attr>, children: seq<XNode>)

  /** Attribute names that never reach the data map (`ignoredAttributes`). */
  const IGNORED_ATTRIBUTES: set<string> := {"rel", "http-equiv", "xmlns", "hmhtml", "content", "media", "alt", "rowspan"}

  /** Value of the first attribute called `name` (`xml_node::attribute`). */
  function AttributeValue(attrs: seq<Attr>, name: string): (r: Option<string>)
    ensures r.Some? <==> exists i :: 0 <= i < |attrs| && attrs[i].name == name
    ensures r.Some? ==> exists i :: 0 <= i < |attrs| && attrs[i].name == name && attrs[i].value == r.value
                          && forall j :: 0 <= j < i ==> attrs[j].name != name
  {
    if |attrs| == 0 then None
    else if attrs[0].name == name then Some(attrs[0].value)
    else
      var r := AttributeValue(attrs[1..], name);
      if r.Some? then
        ghost var k :| 1 <= k < |attrs| && attrs[k].name == name && attrs[k].value == r.value
                       && forall j :: 1 <= j < k ==> attrs[j].name != name;
        r
      else r
  }

  /** The last whitespace-separated word of `s`, or "" when there is none:
      the variable the extraction loop leaves behind. */
  function LastWord(s: string): (w: string)
    ensures Tokens(s) == [] ==> w == ""
    ensures Tokens(s) != [] ==> w == Tokens(s)[|Tokens(s)| - 1]
  {
    var words := Tokens(s);
    if |words| == 0 then "" else words[|words| - 1]
  }

  /** `getClassList`: nothing when the class attribute is missing or empty;
      otherwise a one-element list holding the LAST class with '-' turned
      into '_', because the element is added after the loop has run. */
  function ClassList(n: XNode): (r: Option<seq<string>>)
    ensures r.None? <==> AttributeValue(n.attrs, "class") in {None, Some("")}
    ensures r.Some? ==> |r.value| == 1 && '-' !in r.value[0]
    ensures r.Some? && Tokens(AttributeValue(n.attrs, "class").value) == [] ==> r.value == [""]
  {
    match AttributeValue(n.attrs, "class")
    case None => None
    case Some(v) => if v == "" then None else Some([ReplaceChar(LastWord(v), '-', '_')])
  }

  /** The data-map key of an attribute name. */
  function DataName(name: string): string { ReplaceChar(name, '-', '_') }

  /** An attribute that reaches the data map.  The source compares the
      VALUE with "class" here, so a `class` attribute itself is kept. */
  predicate KeptAttribute(a: Attr) {
    a.name != "" && a.value != "class" && !Contains(a.value, ".css") && a.value != "viewport"
    && a.name !in IGNORED_ATTRIBUTES
  }

  /** `getAttributeData`: the kept attributes under their data names; when
      two share a name the first one wins (`emplace` does not overwrite). */
  function AttributeData(attrs: seq<Attr>): (r: map<string, string>)
    ensures forall k :: k in r <==> exists i :: 0 <= i < |attrs| && KeptAttribute(attrs[i]) && DataName(attrs[i].name) == k
    ensures forall i :: 0 <= i < |attrs| && KeptAttribute(attrs[i])
              && (forall j :: 0 <= j < i && KeptAttribute(attrs[j]) ==> DataName(attrs[j].name) != DataName(attrs[i].name))
              ==> r[DataName(attrs[i].name)] == attrs[i].value
  {
    if |attrs| == 0 then map[]
    else
      var rest := AttributeData(attrs[1..]);
      assert forall i :: 1 <= i < |attrs| ==> attrs[i] == attrs[1..][i - 1];
      if KeptAttribute(attrs[0]) then rest[DataName(attrs[0].name) := attrs[0].value] else rest
  }

  /** Each class set to "" in the data map, overriding an attribute of the
      same name. */
  function WithClasses(data: map<string, string>, classes: seq<string>): (r: map<string, string>)
    ensures forall c :: c in classes ==> c in r && r[c] == ""
    ensures forall k :: k in r <==> k in data || k in classes
    ensures forall k :: k in data && k !in classes ==> r[k] == data[k]
    decreases |classes|
  {
    if |classes| == 0 then data else WithClasses(data[classes[0] := ""], classes[1..])
  }

  /** `hasParentSelectors`: some mapping key holds a '.' or a ' '. */
  predicate HasParentSelectors(mapping: map<string, string>) {
    exists k :: k in mapping && ('.' in k || ' ' in k)
  }

  /** The image of the first key the mapping holds. */
  function FirstMapped(mapping: map<string, string>, keys: seq<string>): (r: Option<string>)
    ensures r.None? <==> forall i :: 0 <= i < |keys| ==> keys[i] !in mapping
    ensures r.Some? ==> exists i :: 0 <= i < |keys| && keys[i] in mapping && mapping[keys[i]] == r.value
                          && forall j :: 0 <= j < i ==> keys[j] !in mapping
    ensures r.Some? ==> r.value in mapping.Values
  {
    if |keys| == 0 then None
    else if keys[0] in mapping then Some(mapping[keys[0]])
    else
      var r := FirstMapped(mapping, keys[1..]);
      assert forall i :: 1 <= i < |keys| ==> keys[i] == keys[1..][i - 1];
      r
  }

  /** Keys the mapping misses can be skipped. */
  lemma {:induction false} FirstMappedSkip(mapping: map<string, string>, missed: seq<string>, keys: seq<string>)
    requires forall i :: 0 <= i < |missed| ==> missed[i] !in mapping
    ensures FirstMapped(mapping, missed + keys) == FirstMapped(mapping, keys)
    decreases |missed|
  {
    if |missed| > 0 {
      assert (missed + keys)[0] == missed[0];
      assert (missed + keys)[1..] == missed[1..] + keys;
      FirstMappedSkip(mapping, missed[1..], keys);
    } else {
      assert missed + keys == keys;
    }
  }

  /** The name of the parent, "" for the null node past the root. */
  function ParentName(parents: seq<XNode>): string {
    if |parents| == 0 then "" else parents[0].name
  }

  /** The selectors tried against the parent, in order: `parent.class tag`
      for each class of the parent, then `parent tag`. */
  function ParentSelectors(parents: seq<XNode>, tag: string): (r: seq<string>)
    ensures |r| >= 1 && r[|r| - 1] == ParentName(parents) + " " + tag
  {
    var pn := ParentName(parents);
    var classes := if |parents| == 0 then [] else ClassList(parents[0]).GetOr([]);
    seq(|classes|, i requires 0 <= i < |classes| => pn + "." + classes[i] + " " + tag) + [pn + " " + tag]
  }

  /** The selectors `tag.class` for each class, then the bare `tag`. */
  function OwnSelectors(tag: string, classList: Option<seq<string>>): (r: seq<string>)
    ensures |r| >= 1 && r[|r| - 1] == tag
    ensures forall i :: 0 <= i < |r| - 1 ==> |tag| < |r[i]| && r[i][|tag|] == '.'
  {
    var classes := classList.GetOr([]);
    seq(|classes|, i requires 0 <= i < |classes| => tag + "." + classes[i]) + [tag]
  }

  /** `getTargetTag`: an allowed tag is kept; otherwise the parent selectors
      are tried when the mapping has any and a parent is supplied, then (only
      when a depth below 5 is supplied and the parent has a parent) the
      lookup is repeated one level up; otherwise the node's own selectors,
      and "span" when nothing matches.  `parent` is the chain of ancestors,
      nearest first; `Some([])` is the null node above the document. */
  function GetTargetTag(mapping: map<string, string>, tag: string, classList: Option<seq<string>>,
                        parent: Option<seq<XNode>>, depth: Option<int>): (r: string)
    ensures tag in ALLOWED_ELEMENTS ==> r == tag
    ensures r == tag || r in mapping.Values || r == "span"
    decreases if parent.Some? then |parent.value| else 0
  {
    if tag in ALLOWED_ELEMENTS then tag
    else
      var nested := HasParentSelectors(mapping) && parent.Some?;
      var parentHit := if nested then FirstMapped(mapping, ParentSelectors(parent.value, tag)) else None;
      if parentHit.Some? then parentHit.value
      else if nested && depth.Some? && depth.value < 5 && |parent.value| > 1 then
        GetTargetTag(mapping, tag, classList, Some(parent.value[1..]), Some(depth.value + 1))
      else FirstMapped(mapping, OwnSelectors(tag, classList)).GetOr("span")
  }

  /** Without parent selectors only the bare tag is looked up: no key of the
      mapping holds a '.', so no `tag.class` selector can match. */
  lemma NoSelectorsBareLookup(mapping: map<string, string>, tag: string, classList: Option<seq<string>>,
                              parent: Option<seq<XNode>>, depth: Option<int>)
    requires !HasParentSelectors(mapping)
    ensures GetTargetTag(mapping, tag, classList, parent, depth)
         == if tag in ALLOWED_ELEMENTS then tag else if tag in mapping then mapping[tag] else "span"
  {
    if tag !in ALLOWED_ELEMENTS {
      var own := OwnSelectors(tag, classList);
      var missed := own[..|own| - 1];
      forall i | 0 <= i < |missed|
        ensures missed[i] !in mapping
      {
        assert missed[i][|tag|] == '.';
        assert '.' in missed[i];
      }
      assert own == missed + [tag];
      FirstMappedSkip(mapping, missed, [tag]);
    }
  }

  /** With no depth supplied the lookup never looks past the parent. */
  lemma DepthlessLookupStopsAtParent(mapping: map<string, string>, tag: string, classList: Option<seq<string>>,
                                     parents: seq<XNode>)
    requires |parents| >= 1
    ensures GetTargetTag(mapping, tag, classList, Some(parents), None)
         == GetTargetTag(mapping, tag, classList, Some(parents[..1]), None)
  {
    assert ParentSelectors(parents, tag) == ParentSelectors(parents[..1], tag);
  }

  /** The tag `convertElementToYomitan` resolves for a node: with parent
      selectors the class list and the parent go to the lookup, without them
      only the name does; no depth is ever supplied. */
  function ResolvedTag(mapping: map<string, string>, n: XNode, parents: seq<XNode>): (r: string)
    ensures n.name in ALLOWED_ELEMENTS ==> r == n.name
    ensures r == n.name || r in mapping.Values || r == "span"
  {
    if HasParentSelectors(mapping) then GetTargetTag(mapping, n.name, ClassList(n), Some(parents), None)
    else GetTargetTag(mapping, n.name, None, None, None)
  }

  /** The data map an element ends with, before its children are added:
      the kept attributes with the classes set to "". */
  function NodeData(n: XNode): map<string, string> {
    WithClasses(AttributeData(n.attrs), ClassList(n).GetOr([]))
  }

  /** `convertElementToYomitan` on a node: an element with the resolved tag,
      or a span marked with the resolved tag when that tag is not allowed; a
      non-empty data map replaces the marker; non-empty text and CDATA
      children become text runs and element children are converted in turn,
      all in document order. */
  function Convert(mapping: map<string, string>, n: XNode, parents: seq<XNode>): (r: HtmlElement)
    ensures r.tag in ALLOWED_ELEMENTS
    ensures var t := ResolvedTag(mapping, n, parents); r.tag == if t in ALLOWED_ELEMENTS then t else "span"
    ensures forall k :: k in NodeData(n) ==> r.data.Some? && k in r.data.value && r.data.value[k] == NodeData(n)[k]
    ensures |NodeData(n)| > 0 ==> r.data == Some(NodeData(n))
    ensures r.data.None? <==> ResolvedTag(mapping, n, parents) in ALLOWED_ELEMENTS && |NodeData(n)| == 0
    ensures var t := ResolvedTag(mapping, n, parents);
      t !in ALLOWED_ELEMENTS && |NodeData(n)| == 0 ==> r.data == Some(map[t := ""])
    ensures r.href.None?
    decreases n
  {
    var tag := ResolvedTag(mapping, n, parents);
    var base := if tag in ALLOWED_ELEMENTS then NewElement(tag) else SetData(NewElement("span"), map[tag := ""]);
    var data := NodeData(n);
    var e := if |data| > 0 then SetData(base, data) else base;
    AddContents(e, ConvertChildren(mapping, n.children, [n] + parents))
  }

  /** The content items the children of a node become. */
  function ConvertChildren(mapping: map<string, string>, kids: seq<XNode>, parents: seq<XNode>): seq<Content>
    decreases kids
  {
    if |kids| == 0 then []
    else
      var kid := kids[0];
      var item :=
        if (kid.kind == PCData || kid.kind == CData) && kid.value != "" then [Text(kid.value)]
        else if kid.kind == ElementNode then [Elem(Convert(mapping, kid, parents))]
        else [];
      item + ConvertChildren(mapping, kids[1..], parents)
  }

  /** The null node converts to nothing, any other node to an element. */
  function ConvertElement(mapping: map<string, string>, node: Option<XNode>, parents: seq<XNode>): (r: Option<HtmlElement>)
    ensures r.None? <==> node.None?
    ensures r.Some? ==> AllTagsAllowed(r.value)
  {
    match node
    case None => None
    case Some(n) => ConvertTagsAllowed(mapping, n, parents); Some(Convert(mapping, n, parents))
  }

  /** The nodes below `kids`, each before its own descendants, siblings in
      document order: the order of a depth-first search, in which
      XPath's `//` and `find_node` visit them. */
  function Preorder(kids: seq<XNode>): seq<XNode>
    decreases kids
  {
    if |kids| == 0 then [] else [kids[0]] + Preorder(kids[0].children) + Preorder(kids[1..])
  }

  /** `getElementText`: the text and CDATA of the descendants in document
      order, skipping every child whose name is ignored. */
  function ElementTextOf(n: XNode, ignored: set<string>): string
    decreases n
  {
    ChildrenText(n.children, ignored)
  }

  function ChildrenText(kids: seq<XNode>, ignored: set<string>): string
    decreases kids
  {
    if |kids| == 0 then ""
    else
      var kid := kids[0];
      var text :=
        if kid.name in ignored then ""
        else if kid.kind == PCData || kid.kind == CData then kid.value
        else if kid.kind == ElementNode then ElementTextOf(kid, ignored)
        else "";
      text + ChildrenText(kids[1..], ignored)
  }

  /** Every element of a converted tree has an allowed tag. */
  lemma {:induction false} ConvertTagsAllowed(mapping: map<string, string>, n: XNode, parents: seq<XNode>)
    ensures AllTagsAllowed(Convert(mapping, n, parents))
    decreases n, 1
  {
    var items := ConvertChildren(mapping, n.children, [n] + parents);
    ChildrenTagsAllowed(mapping, n.children, [n] + parents);
    var tag := ResolvedTag(mapping, n, parents);
    var base := if tag in ALLOWED_ELEMENTS then NewElement(tag) else SetData(NewElement("span"), map[tag := ""]);
    var data := NodeData(n);
    var e := if |data| > 0 then SetData(base, data) else base;
    AddContentsAppends(e, items);
    assert Items(e) == [];
    assert Items(Convert(mapping, n, parents)) == items;
  }

  lemma SingleItemAllowed(item: Content)
    requires ItemAllowed(item)
    ensures ItemsAllowed([item])
  {
    assert [item][1..] == [];
  }

  lemma {:induction false} ChildrenTagsAllowed(mapping: map<string, string>, kids: seq<XNode>, parents: seq<XNode>)
    ensures ItemsAllowed(ConvertChildren(mapping, kids, parents))
    decreases kids, 0
  {
    if |kids| > 0 {
      var kid := kids[0];
      if kid.kind == ElementNode {
        ConvertTagsAllowed(mapping, kid, parents);
      }
      var item :=
        if (kid.kind == PCData || kid.kind == CData) && kid.value != "" then [Text(kid.value)]
        else if kid.kind == ElementNode then [Elem(Convert(mapping, kid, parents))]
        else [];
      if (kid.kind == PCData || kid.kind == CData) && kid.value != "" {
        SingleItemAllowed(Text(kid.value));
      } else if kid.kind == ElementNode {
        SingleItemAllowed(Elem(Convert(mapping, kid, parents)));
      }
      ChildrenTagsAllowed(mapping, kids[1..], parents);
      ItemsAllowedAppend(item, ConvertChildren(mapping, kids[1..], parents));
    }
  }

  /** Conversion keeps the text: the text runs of the converted tree are the
      node's text as `getElementText` collects it with nothing ignored. */
  lemma {:induction false} ConvertKeepsText(mapping: map<string, string>, n: XNode, parents: seq<XNode>)
    ensures ElementText(Convert(mapping, n, parents)) == ElementTextOf(n, {})
    decreases n, 1
  {
    var items := ConvertChildren(mapping, n.children, [n] + parents);
    ChildrenKeepText(mapping, n.children, [n] + parents);
    var tag := ResolvedTag(mapping, n, parents);
    var base := if tag in ALLOWED_ELEMENTS then NewElement(tag) else SetData(NewElement("span"), map[tag := ""]);
    var data := NodeData(n);
    var e := if |data| > 0 then SetData(base, data) else base;
    AddContentsAppends(e, items);
    assert Items(e) == [];
    var r := Convert(mapping, n, parents);
    assert Items(r) == items;
    if r.content.Absent? {
      assert items == [];
    }
  }

  lemma {:induction false} ChildrenKeepText(mapping: map<string, string>, kids: seq<XNode>, parents: seq<XNode>)
    ensures ItemsText(ConvertChildren(mapping, kids, parents)) == ChildrenText(kids, {})
    decreases kids, 0
  {
    if |kids| > 0 {
      var kid := kids[0];
      if kid.kind == ElementNode {
        ConvertKeepsText(mapping, kid, parents);
      }
      var item :=
        if (kid.kind == PCData || kid.kind == CData) && kid.value != "" then [Text(kid.value)]
        else if kid.kind == ElementNode then [Elem(Convert(mapping, kid, parents))]
        else [];
      ChildrenKeepText(mapping, kids[1..], parents);
      ItemsTextAppend(item, ConvertChildren(mapping, kids[1..], parents));
    }
  }

  /** A child that conversion keeps: a non-empty text or CDATA run, or an
      element.  Comments, processing instructions and empty runs are
      dropped. */
  predicate KeptChild(k: XNode) {
    ((k.kind == PCData || k.kind == CData) && k.value != "") || k.kind == ElementNode
  }

  /** The content item a kept child becomes: its text as it stands, or the
      converted element. */
  function ChildItem(mapping: map<string, string>, k: XNode, parents: seq<XNode>): Content {
    if k.kind == ElementNode then Elem(Convert(mapping, k, parents)) else Text(k.value)
  }

  /** The children convert to one item per kept child, in document order. */
  lemma {:induction false} ConvertChildrenKept(mapping: map<string, string>, kids: seq<XNode>, parents: seq<XNode>)
    ensures var kept := Filter(kids, KeptChild);
            var r := ConvertChildren(mapping, kids, parents);
            |r| == |kept| && forall i :: 0 <= i < |r| ==> r[i] == ChildItem(mapping, kept[i], parents)
    decreases kids
  {
    if |kids| > 0 {
      ConvertChildrenKept(mapping, kids[1..], parents);
      var restKept := Filter(kids[1..], KeptChild);
      var rest := ConvertChildren(mapping, kids[1..], parents);
      if KeptChild(kids[0]) {
        assert Filter(kids, KeptChild) == [kids[0]] + restKept;
        assert ConvertChildren(mapping, kids, parents) == [ChildItem(mapping, kids[0], parents)] + rest;
      } else {
        assert Filter(kids, KeptChild) == restKept;
        assert ConvertChildren(mapping, kids, parents) == rest;
      }
    }
  }

  /** The content of a converted element: one item per kept child, in
      document order, and no list at all when no child is kept. */
  lemma ConvertContent(mapping: map<string, string>, n: XNode, parents: seq<XNode>)
    ensures var r := Convert(mapping, n, parents);
            var kept := Filter(n.children, KeptChild);
            |Items(r)| == |kept|
            && (forall i :: 0 <= i < |kept| ==> Items(r)[i] == ChildItem(mapping, kept[i], [n] + parents))
            && (r.content.Absent? <==> |kept| == 0)
  {
    var items := ConvertChildren(mapping, n.children, [n] + parents);
    ConvertChildrenKept(mapping, n.children, [n] + parents);
    var tag := ResolvedTag(mapping, n, parents);
    var base := if tag in ALLOWED_ELEMENTS then NewElement(tag) else SetData(NewElement("span"), map[tag := ""]);
    var data := NodeData(n);
    var e := if |data| > 0 then SetData(base, data) else base;
    AddContentsAppends(e, items);
    assert Items(e) == [];
  }
}

=== FILE: ydp_parser.dfy ===
/** The YDP parser (`YDP::Parser`): one XML file becomes one dictionary
    entry per key pair.  The file's keys come from the index under the
    file's stem; they are normalised with the headword as context, paired
    by the key matcher, and each pair decides the term and reading of an
    entry built from the whole document.

    Key normalisation is not part of this model: it is a parameter.
    Loading the file is too: a failed load leaves an empty document, whose
    document element is the null node (`None`).
 */
module YdpParser {
  import opened Wrappers
  import opened HtmlContent
  import opened XmlParser
  import opened KeyPairs
  import opened KeyMatcher
  import opened Entries
  import opened YomitanDictionary
  import opened YomitanParser
  import IndexReader

  // ---------------------------------------------------------------------
  // The headword

  /** `find_node`'s predicate: a `headword` whose class is "見出". */
  predicate IsHeadword(n: XNode) {
    n.name == "headword" && AttributeValue(n.attrs, "class").GetOr("") == "見出"
  }

  /** The first node of a sequence satisfying the predicate. */
  function FirstHeadword(xs: seq<XNode>): (r: Option<XNode>)
    ensures r.Some? ==> r.value in xs && IsHeadword(r.value)
    ensures r.None? <==> forall x :: x in xs ==> !IsHeadword(x)
  {
    if |xs| == 0 then None
    else if IsHeadword(xs[0]) then Some(xs[0])
    else
      assert forall x :: x in xs ==> x == xs[0] || x in xs[1..];
      FirstHeadword(xs[1..])
  }

  lemma {:induction false} FirstHeadwordAppend(a: seq<XNode>, b: seq<XNode>)
    ensures FirstHeadword(a + b) == if FirstHeadword(a).Some? then FirstHeadword(a) else FirstHeadword(b)
    decreases |a|
  {
    if |a| == 0 {
      assert a + b == b;
    } else {
      assert (a + b)[0] == a[0];
      assert (a + b)[1..] == a[1..] + b;
      FirstHeadwordAppend(a[1..], b);
    }
  }

  /** The search through the children, as pugixml runs it: each child is
      examined, then searched, before its next sibling. */
  function FindIn(kids: seq<XNode>): Option<XNode>
    decreases kids
  {
    if |kids| == 0 then None
    else if IsHeadword(kids[0]) then Some(kids[0])
    else match FindIn(kids[0].children)
      case Some(found) => Some(found)
      case None => FindIn(kids[1..])
  }

  /** The search finds the first headword of the depth-first order. */
  lemma {:induction false} FindInIsFirstInPreorder(kids: seq<XNode>)
    ensures FindIn(kids) == FirstHeadword(Preorder(kids))
    decreases kids
  {
    if |kids| > 0 {
      var below := Preorder(kids[0].children);
      var after := Preorder(kids[1..]);
      assert Preorder(kids) == [kids[0]] + (below + after);
      FirstHeadwordAppend([kids[0]], below + after);
      assert [kids[0]][1..] == [];
      if !IsHeadword(kids[0]) {
        FindInIsFirstInPreorder(kids[0].children);
        FindInIsFirstInPreorder(kids[1..]);
        FirstHeadwordAppend(below, after);
      }
    }
  }

  /** `extractHeadword`: the text of the first headword below the document
      element, with `lang` elements left out; "" when there is none (the
      text of the null node) and when the document is empty. */
  function ExtractHeadword(root: Option<XNode>): (r: string)
    ensures root.None? ==> r == ""
    ensures root.Some? ==>
      match FirstHeadword(Preorder(root.value.children))
      case None => r == ""
      case Some(h) => r == ElementTextOf(h, {"lang"})
  {
    match root
    case None => ""
    case Some(n) =>
      FindInIsFirstInPreorder(n.children);
      match FindIn(n.children)
      case None => ""
      case Some(h) => ElementTextOf(h, {"lang"})
  }

  // ---------------------------------------------------------------------
  // The pair-to-entry rule

  /** The arguments of one `parseEntry` call: term, reading, search rank. */
  datatype Call = Call(term: string, reading: string, rank: int)

  /** The reading is the kana slot or ""; the term the kanji slot or the
      reading.  Distinct non-empty term and reading give an entry ranked
      -1; a term without reading, or a term equal to its reading, gives an
      entry without reading ranked 0 (`&&` binds tighter than `||`). */
  function CallFor(p: Pair): (r: Option<Call>)
    ensures var reading := p.kana.GetOr("");
            var term := p.kanji.GetOr(reading);
            r.Some? ==> (r.value.term == term
              && (r.value.rank == -1 <==> term != "" && reading != "" && term != reading)
              && (r.value.rank == -1 ==> r.value.reading == reading)
              && (r.value.rank != -1 ==> r.value.rank == 0 && r.value.reading == ""))
  {
    var reading := p.kana.GetOr("");
    var term := p.kanji.GetOr(reading);
    if term != "" && reading != "" && term != reading then Some(Call(term, reading, -1))
    else if (term != "" && reading == "") || term == reading then Some(Call(term, "", 0))
    else None
  }

  /** A pair yields no call exactly when its term is empty and its reading
      is not, i.e. when the kanji slot holds "" next to a reading. */
  lemma SkippedPairs(p: Pair)
    ensures CallFor(p).None? <==> p.kanji.GetOr(p.kana.GetOr("")) == "" && p.kana.GetOr("") != ""
    ensures CallFor(p).None? ==> p.kanji == Some("")
  {
  }

  /** The entry a call asks `parseEntry` for: empty tags, the call's rank
      and no sequence number, holding the converted document. */
  function CallEntry(c: Call, tree: HtmlElement): DicEntry {
    TaggedEntry(c.term, c.reading, Some(""), Some(""), Some(c.rank), None).(content := [tree])
  }

  /** The calls the pairs make, in order. */
  function Calls(pairs: seq<Pair>): (r: seq<Call>)
    ensures |r| <= |pairs|
    decreases |pairs|
  {
    if |pairs| == 0 then []
    else (match CallFor(pairs[0]) case None => [] case Some(c) => [c]) + Calls(pairs[1..])
  }

  function CallEntries(calls: seq<Call>, tree: HtmlElement): (r: seq<DicEntry>)
    ensures |r| == |calls|
    decreases |calls|
  {
    if |calls| == 0 then [] else [CallEntry(calls[0], tree)] + CallEntries(calls[1..], tree)
  }

  /** The loop over the pairs: each call is made on the whole document with
      its own file-system outcome `ios(k)` for the k-th call, and the count
      adds one for each call that returns true.  A call returns false only
      when the flush it triggers fails, so the count is every call when no
      flush is triggered or every flush succeeds. */
  function ProcessPairs(d: Dictionary, mapping: map<string, string>, root: Option<XNode>,
                        calls: seq<Call>, ios: nat -> FlushIo, k: nat): (r: (nat, Dictionary))
    ensures r.0 <= |calls|
    ensures root.None? ==> r == (0, d)
    ensures r.1.chunkSize == d.chunkSize
    ensures root.Some? && |d.currentChunk| + |calls| < d.chunkSize ==>
      r.0 == |calls| && r.1.written == d.written && r.1.currentChunk == d.currentChunk + CallEntries(calls, ConvertedRoot(mapping, root).value)
    ensures root.Some? && (forall j :: k <= j < k + |calls| ==> FlushOk(ios(j))) ==> r.0 == |calls|
    decreases |calls|
  {
    if |calls| == 0 then (0, d)
    else
      var c := calls[0];
      var (ok, d1) := ParseEntry(d, mapping, c.term, c.reading, root, Some(""), Some(""), Some(c.rank), None, ios(k));
      var (n, d2) := ProcessPairs(d1, mapping, root, calls[1..], ios, k + 1);
      CallOutcome(d, mapping, root, c, ios(k));
      if root.Some? then CallEntriesAfter(d.currentChunk, calls, ConvertedRoot(mapping, root).value); ((if ok then 1 else 0) + n, d2)
      else ((if ok then 1 else 0) + n, d2)
  }

  /** One call keeps the chunk size; with a document it returns true exactly
      when it triggers no flush or the flush succeeds, and without a flush
      it only buffers its entry. */
  lemma CallOutcome(d: Dictionary, mapping: map<string, string>, root: Option<XNode>, c: Call, io: FlushIo)
    ensures var r := ParseEntry(d, mapping, c.term, c.reading, root, Some(""), Some(""), Some(c.rank), None, io);
            r.1.chunkSize == d.chunkSize
            && (root.Some? ==> (r.0 <==> |d.currentChunk| + 1 < d.chunkSize || FlushOk(io)))
            && (root.Some? && |d.currentChunk| + 1 < d.chunkSize ==>
                  r.1.written == d.written && r.1.currentChunk == d.currentChunk + [CallEntry(c, ConvertedRoot(mapping, root).value)])
  {
  }

  /** With a document element, every call adds its entry to the dictionary,
      in order, whether or not the flush it triggers succeeds. */
  lemma {:induction false} ProcessPairsAccounts(d: Dictionary, mapping: map<string, string>, root: Option<XNode>,
                                                 calls: seq<Call>, ios: nat -> FlushIo, k: nat)
    requires root.Some?
    ensures var r := ProcessPairs(d, mapping, root, calls, ios, k);
            Accepted(r.1) == Accepted(d) + CallEntries(calls, ConvertedRoot(mapping, root).value)
            && EntryCount(r.1) == EntryCount(d) + |calls|
    decreases |calls|
  {
    if |calls| > 0 {
      var tree := ConvertedRoot(mapping, root).value;
      var c := calls[0];
      var d1 := ParseEntry(d, mapping, c.term, c.reading, root, Some(""), Some(""), Some(c.rank), None, ios(k)).1;
      ProcessPairsAccounts(d1, mapping, root, calls[1..], ios, k + 1);
      CallStep(d, mapping, root, c, ios(k));
      ProcessPairsHead(d, mapping, root, calls, ios, k);
      CallEntriesAfter(Accepted(d), calls, tree);
    }
  }

  /** A call whose flush fails is not counted, though its entry is: the
      returned count and the dictionary's entry count then differ. */
  lemma FailedFlushNotCounted(d: Dictionary, mapping: map<string, string>, root: Option<XNode>,
                              c: Call, ios: nat -> FlushIo, k: nat)
    requires root.Some? && |d.currentChunk| + 1 >= d.chunkSize && !FlushOk(ios(k))
    ensures var r := ProcessPairs(d, mapping, root, [c], ios, k);
            r.0 == 0 && EntryCount(r.1) == EntryCount(d) + 1
  {
    CallOutcome(d, mapping, root, c, ios(k));
    ProcessPairsAccounts(d, mapping, root, [c], ios, k);
  }

  /** The dictionary after the calls is the one after the rest of them,
      started from the dictionary after the first. */
  lemma ProcessPairsHead(d: Dictionary, mapping: map<string, string>, root: Option<XNode>,
                         calls: seq<Call>, ios: nat -> FlushIo, k: nat)
    requires |calls| > 0
    ensures var c := calls[0];
            var d1 := ParseEntry(d, mapping, c.term, c.reading, root, Some(""), Some(""), Some(c.rank), None, ios(k)).1;
            ProcessPairs(d, mapping, root, calls, ios, k).1 == ProcessPairs(d1, mapping, root, calls[1..], ios, k + 1).1
  {
  }

  lemma CallEntriesAfter(prefix: seq<DicEntry>, calls: seq<Call>, tree: HtmlElement)
    requires |calls| > 0
    ensures prefix + [CallEntry(calls[0], tree)] + CallEntries(calls[1..], tree) == prefix + CallEntries(calls, tree)
  {
  }

  /** One call adds its entry and counts it. */
  lemma CallStep(d: Dictionary, mapping: map<string, string>, root: Option<XNode>, c: Call, io: FlushIo)
    requires root.Some?
    ensures var d1 := ParseEntry(d, mapping, c.term, c.reading, root, Some(""), Some(""), Some(c.rank), None, io).1;
            Accepted(d1) == Accepted(d) + [CallEntry(c, ConvertedRoot(mapping, root).value)]
            && EntryCount(d1) == EntryCount(d) + 1
  {
  }

  /** `processFile`: the keys stored under the file's stem, normalised with
      the headword as context, paired at recursion level 0; the calls of
      the pairs are made and their successes counted, which is every call
      when no flush is triggered or every flush succeeds.  A failed load
      does not stop the loop: every call then fails. */
  function ProcessFile(d: Dictionary, mapping: map<string, string>, index: IndexReader.KeyMap, stem: string,
                       root: Option<XNode>, normalizeKeys: (seq<string>, string) -> seq<string>,
                       ios: nat -> FlushIo): (r: (nat, Dictionary))
    ensures root.None? ==> r == (0, d)
    ensures r.0 <= |MatchKanaWithKanji(normalizeKeys(IndexReader.KeysForFile(index, stem), ExtractHeadword(root)), 0)|
    ensures var calls := Calls(MatchKanaWithKanji(normalizeKeys(IndexReader.KeysForFile(index, stem), ExtractHeadword(root)), 0));
            root.Some? && (|d.currentChunk| + |calls| < d.chunkSize || forall j :: 0 <= j < |calls| ==> FlushOk(ios(j))) ==> r.0 == |calls|
  {
    var keys := normalizeKeys(IndexReader.KeysForFile(index, stem), ExtractHeadword(root));
    var pairs := MatchKanaWithKanji(keys, 0);
    ProcessPairs(d, mapping, root, Calls(pairs), ios, 0)
  }

  /** With a document, the file adds one entry per pair that makes a call,
      in pair order. */
  lemma ProcessFileAccounts(d: Dictionary, mapping: map<string, string>, index: IndexReader.KeyMap, stem: string,
                            root: Option<XNode>, normalizeKeys: (seq<string>, string) -> seq<string>,
                            ios: nat -> FlushIo)
    requires root.Some?
    ensures var pairs := MatchKanaWithKanji(normalizeKeys(IndexReader.KeysForFile(index, stem), ExtractHeadword(root)), 0);
            Accepted(ProcessFile(d, mapping, index, stem, root, normalizeKeys, ios).1)
              == Accepted(d) + CallEntries(Calls(pairs), ConvertedRoot(mapping, root).value)
  {
    var keys := normalizeKeys(IndexReader.KeysForFile(index, stem), ExtractHeadword(root));
    ProcessPairsAccounts(d, mapping, root, Calls(MatchKanaWithKanji(keys, 0)), ios, 0);
  }
}

=== FILE: yomitan_dictionary.dfy ===
/** The chunked term-bank sink (`YomitanDictionary`): entries are buffered
    and written as `term_bank_<n>.json` files whenever the buffer reaches
    the chunk size, and once more on export.

    The file system is not modelled.  Each flush is given the outcomes of
    its steps (`FlushIo`), and what a successful flush writes is appended
    to the `written` log.
 */
module YomitanDictionary {
  import opened Wrappers
  import opened Numbers
  import opened FileUtils
  import opened Entries

  /** One term-bank file: its name and the entries it holds. */
  datatype TermBank = TermBank(fileName: string, entries: seq<DicEntry>)

  datatype Dictionary = Dictionary(
    chunkSize: nat,
    currentChunk: seq<DicEntry>,
    totalEntries: nat,
    tempDirIsCleaned: bool,
    written: seq<TermBank>)

  /** What the file system does during one flush: whether the temp directory
      exists or can be created, what the numbering sees in it, whether the
      bank file opens, and whether the JSON serialisation succeeds. */
  datatype FlushIo = FlushIo(tempDirOk: bool, isDirectory: bool, listing: seq<DirEntry>, openOk: bool, jsonOk: bool)

  /** A fresh dictionary with the configured chunk size. */
  function NewDictionary(chunkSize: nat): (d: Dictionary)
    ensures d.chunkSize == chunkSize && d.currentChunk == [] && d.totalEntries == 0
    ensures !d.tempDirIsCleaned && d.written == []
  {
    Dictionary(chunkSize, [], 0, false, [])
  }

  /** The name of the term bank numbered `n`. */
  function TermBankFileName(n: int): string {
    "term_bank_" + DecimalString(n) + ".json"
  }

  /** The entries of the written banks, in write order. */
  function WrittenEntries(banks: seq<TermBank>): seq<DicEntry> {
    if |banks| == 0 then [] else banks[0].entries + WrittenEntries(banks[1..])
  }

  lemma {:induction false} WrittenEntriesAppend(banks: seq<TermBank>, bank: TermBank)
    ensures WrittenEntries(banks + [bank]) == WrittenEntries(banks) + bank.entries
    decreases |banks|
  {
    if |banks| == 0 {
      assert banks + [bank] == [bank];
    } else {
      assert (banks + [bank])[1..] == banks[1..] + [bank];
      WrittenEntriesAppend(banks[1..], bank);
    }
  }

  /** Every entry ever accepted: what was written, then what is buffered. */
  function Accepted(d: Dictionary): seq<DicEntry> {
    WrittenEntries(d.written) + d.currentChunk
  }

  /** The file system lets a flush of a non-empty buffer write its bank:
      the temp directory is there, the numbering succeeds, the file opens
      and the JSON serialises. */
  predicate FlushOk(io: FlushIo) {
    io.tempDirOk && NextTermBankNumber(io.isDirectory, io.listing).Success? && io.openOk && io.jsonOk
  }

  /** `flushChunkToDisk`: an empty buffer is a success that writes nothing.
      Otherwise the temp directory must be there; it is cleaned before the
      first write only; the bank is numbered after the banks present; the
      buffer is cleared only once the bank has been written, and on every
      failure the entries stay buffered. */
  function FlushChunk(d: Dictionary, io: FlushIo): (r: (bool, Dictionary))
    ensures Accepted(r.1) == Accepted(d)
    ensures r.1.chunkSize == d.chunkSize && r.1.totalEntries == d.totalEntries
    ensures r.0 ==> r.1.currentChunk == []
    ensures !r.0 ==> r.1.currentChunk == d.currentChunk && r.1.written == d.written
    ensures d.currentChunk == [] ==> r == (true, d)
    ensures r.1.written == d.written || (r.0 && |r.1.written| == |d.written| + 1 && r.1.written[..|d.written|] == d.written
      && r.1.written[|d.written|].entries == d.currentChunk)
    ensures r.1.tempDirIsCleaned == (d.tempDirIsCleaned || (d.currentChunk != [] && io.tempDirOk))
    ensures r.0 <==> d.currentChunk == [] || FlushOk(io)
    ensures r.0 && d.currentChunk != [] ==>
      NextTermBankNumber(io.isDirectory, io.listing).Success? && |r.1.written| == |d.written| + 1
      && r.1.written[|d.written|].fileName == TermBankFileName(NextTermBankNumber(io.isDirectory, io.listing).value)
  {
    if d.currentChunk == [] then (true, d)
    else if !io.tempDirOk then (false, d)
    else
      var cleaned := d.(tempDirIsCleaned := true);
      match NextTermBankNumber(io.isDirectory, io.listing)
      case Failure(_) => (false, cleaned)
      case Success(n) =>
        if !io.openOk || !io.jsonOk then (false, cleaned)
        else
          var bank := TermBank(TermBankFileName(n), d.currentChunk);
          WrittenEntriesAppend(d.written, bank);
          (true, cleaned.(currentChunk := [], written := d.written + [bank]))
  }

  /** The name a flush gives its bank is one the numbering recognises, with
      the number it was given: the next flush numbers past it. */
  lemma BankNameRecognised(n: int)
    requires n >= 1
    ensures TermBankDigits(TermBankFileName(n)) == Some(DecimalString(n))
    ensures DigitsValue(DecimalString(n), 10) == n
  {
    var digits := DecimalString(n);
    var name := TermBankFileName(n);
    assert digits == NatString(n);
    NatStringValue(n);
    assert name[..10] == "term_bank_";
    assert name[|name| - 5..] == ".json";
    assert name[10..|name| - 5] == digits;
  }

  /** The name of a negative bank number, which the wrapped increment past
      `INT_MAX` gives, is not one the numbering recognises: the next flush
      does not number past it. */
  lemma NegativeBankNameUnrecognised(n: int)
    requires n < 0
    ensures TermBankDigits(TermBankFileName(n)).None?
  {
    var name := TermBankFileName(n);
    assert name[10..|name| - 5][0] == '-';
  }

  /** A bank the folder lists as `e`, numbered 1 to `INT_MAX`, never gets
      the name of the next bank: the numbering goes past it, or wraps to a
      negative number whose name has a sign. */
  lemma NextBankNameIsNew(isDirectory: bool, listing: seq<DirEntry>, m: int, e: DirEntry)
    requires isDirectory && 1 <= m <= INT_MAX
    requires e in listing && e.isRegularFile && FileName(e.path) == TermBankFileName(m)
    requires NextTermBankNumber(isDirectory, listing).Success?
    ensures TermBankFileName(NextTermBankNumber(isDirectory, listing).value) != TermBankFileName(m)
  {
    var n := NextTermBankNumber(isDirectory, listing).value;
    BankNameRecognised(m);
    assert IsTermBank(e) && BankNumber(e) == m;
    if n == INT_MIN {
      NegativeBankNameUnrecognised(n);
    } else {
      assert m < n;
      BankNameRecognised(n);
    }
  }

  /** When the folder lists every bank written so far (the i-th as
      `files[i]`), each named after a number `numbers[i]` from 1 to
      `INT_MAX`, a successful flush writes a bank whose name is new. */
  lemma FlushNameIsNew(d: Dictionary, io: FlushIo, numbers: seq<int>, files: seq<DirEntry>)
    requires d.currentChunk != [] && FlushOk(io) && io.isDirectory
    requires |numbers| == |d.written| && |files| == |d.written|
    requires forall i :: 0 <= i < |d.written| ==>
               1 <= numbers[i] <= INT_MAX && d.written[i].fileName == TermBankFileName(numbers[i])
               && files[i] in io.listing && files[i].isRegularFile && FileName(files[i].path) == d.written[i].fileName
    ensures FlushChunk(d, io).0
    ensures forall i :: 0 <= i < |d.written| ==> FlushChunk(d, io).1.written[|d.written|].fileName != d.written[i].fileName
  {
    forall i | 0 <= i < |d.written|
      ensures FlushChunk(d, io).1.written[|d.written|].fileName != d.written[i].fileName
    {
      NextBankNameIsNew(io.isDirectory, io.listing, numbers[i], files[i]);
    }
  }

  /** `addEntry`: a null entry is refused and changes nothing; any other is
      buffered and counted, and the buffer is flushed once it holds
      `chunkSize` entries, the result then being the flush's. */
  function AddEntry(d: Dictionary, entry: Option<DicEntry>, io: FlushIo): (r: (bool, Dictionary))
    ensures entry.None? ==> r == (false, d)
    ensures entry.Some? ==> Accepted(r.1) == Accepted(d) + [entry.value]
    ensures entry.Some? ==> r.1.totalEntries == d.totalEntries + 1
    ensures r.1.chunkSize == d.chunkSize
    ensures r.0 && d.chunkSize >= 1 ==> |r.1.currentChunk| < d.chunkSize
    ensures entry.Some? && |d.currentChunk| + 1 < d.chunkSize ==> r == (true, d.(currentChunk := d.currentChunk + [entry.value], totalEntries := d.totalEntries + 1))
    ensures entry.Some? ==> (r.0 <==> |d.currentChunk| + 1 < d.chunkSize || FlushOk(io))
  {
    match entry
    case None => (false, d)
    case Some(e) =>
      var buffered := d.(currentChunk := d.currentChunk + [e], totalEntries := d.totalEntries + 1);
      assert Accepted(buffered) == Accepted(d) + [e];
      if |buffered.currentChunk| >= d.chunkSize then FlushChunk(buffered, io) else (true, buffered)
  }

  /** `getEntryCount`. */
  function EntryCount(d: Dictionary): nat { d.totalEntries }

  /** The non-null entries, in order. */
  function Present(entries: seq<Option<DicEntry>>): seq<DicEntry> {
    if |entries| == 0 then []
    else (if entries[0].Some? then [entries[0].value] else []) + Present(entries[1..])
  }

  /** `addEntry` called once per entry, each call with its own file-system
      outcomes. */
  function AddAll(d: Dictionary, entries: seq<Option<DicEntry>>, ios: seq<FlushIo>): Dictionary
    requires |ios| == |entries|
    decreases |entries|
  {
    if |entries| == 0 then d
    else AddAll(AddEntry(d, entries[0], ios[0]).1, entries[1..], ios[1..])
  }

  /** Whatever the flushes do, the written banks followed by the buffer are
      the non-null entries added, in order, and the count is their number. */
  lemma {:induction false} AddAllAccounts(d: Dictionary, entries: seq<Option<DicEntry>>, ios: seq<FlushIo>)
    requires |ios| == |entries|
    ensures Accepted(AddAll(d, entries, ios)) == Accepted(d) + Present(entries)
    ensures EntryCount(AddAll(d, entries, ios)) == EntryCount(d) + |Present(entries)|
    decreases |entries|
  {
    if |entries| > 0 {
      var d1 := AddEntry(d, entries[0], ios[0]).1;
      AddAllAccounts(d1, entries[1..], ios[1..]);
      var head := if entries[0].Some? then [entries[0].value] else [];
      assert Present(entries) == head + Present(entries[1..]);
      assert Accepted(d1) == Accepted(d) + head;
      assert Accepted(d) + head + Present(entries[1..]) == Accepted(d) + Present(entries);
    }
  }

  /** The destructor: the source flushes only when the buffer is EMPTY, so
      it never writes anything and a non-empty tail is lost. */
  function Destroy(d: Dictionary, io: FlushIo): (r: Dictionary)
    ensures r.written == d.written
  {
    if d.currentChunk == [] then FlushChunk(d, io).1 else d
  }

  /** What the file system does during an export: the final flush, the
      index file, and the copy of the banks to the output directory. */
  datatype ExportIo = ExportIo(flush: FlushIo, indexOk: bool, moveOk: bool)

  datatype ExportStep = FlushStep | IndexStep | MoveStep

  /** `exportDictionary`: flush a non-empty buffer, write the index, then
      copy the banks when asked to; the first failure ends the export.  The
      steps attempted are returned in order. */
  function ExportDictionary(d: Dictionary, io: ExportIo, moveTermBanks: bool): (r: (bool, Dictionary, seq<ExportStep>))
    ensures r.0 ==> r.1.currentChunk == []
    ensures Accepted(r.1) == Accepted(d)
    ensures IndexStep in r.2 <==> d.currentChunk == [] || FlushChunk(d, io.flush).0
    ensures MoveStep in r.2 <==> IndexStep in r.2 && io.indexOk && moveTermBanks
    ensures r.0 <==> IndexStep in r.2 && io.indexOk && (moveTermBanks ==> io.moveOk)
    ensures FlushStep in r.2 <==> d.currentChunk != []
  {
    var flushSteps := if d.currentChunk != [] then [FlushStep] else [];
    var (flushed, d1) := if d.currentChunk != [] then FlushChunk(d, io.flush) else (true, d);
    if !flushed then (false, d1, flushSteps)
    else if !io.indexOk then (false, d1, flushSteps + [IndexStep])
    else if moveTermBanks && !io.moveOk then (false, d1, flushSteps + [IndexStep, MoveStep])
    else (true, d1, flushSteps + [IndexStep] + (if moveTermBanks then [MoveStep] else []))
  }

  /** The author the index records: the configured one, or else the user
      name of the home directory. */
  function IndexAuthor(configAuthor: string, home: Option<string>): (a: string)
    ensures configAuthor != "" ==> a == configAuthor
    ensures configAuthor == "" ==> a == UsernameFolder(home).GetOr("")
  {
    if configAuthor != "" then configAuthor else UsernameFolder(home).GetOr("")
  }
}

=== FILE: yomitan_parser.dfy ===
/** Turning one XML entry into a dictionary entry (`YomitanParser`): the
    entry is built from the term and reading, tagged, given the converted
    XML tree as its single content element, and handed to the dictionary.
 */
module YomitanParser {
  import opened Wrappers
  import opened HtmlContent
  import opened XmlParser
  import opened Entries
  import opened YomitanDictionary

  /** The parent of the document element: the document node.  Only its name
      (empty) and its attributes (none) are ever consulted. */
  const DOCUMENT_PARENT: XNode := XNode(DocumentNode, "", "", [], [])

  /** The entry before its content: the term-promotion rule of the
      constructor, the tags only when present and non-empty, the rank and
      sequence number whenever present. */
  function TaggedEntry(term: string, reading: string, infoTag: Option<string>, posTag: Option<string>,
                       searchRank: Option<int>, sequenceNumber: Option<int>): (e: DicEntry)
    ensures e.term == NewDicEntry(term, reading).term && e.reading == NewDicEntry(term, reading).reading
    ensures e.infoTag == (if infoTag.Some? && infoTag.value != "" then infoTag.value else "")
    ensures e.posTag == (if posTag.Some? && posTag.value != "" then posTag.value else "")
    ensures e.searchRank == searchRank.GetOr(0) && e.sequenceNumber == sequenceNumber.GetOr(0)
    ensures e.content == []
  {
    var e0 := NewDicEntry(term, reading);
    var e1 := if infoTag.Some? && infoTag.value != "" then SetInfoTag(e0, infoTag.value) else e0;
    var e2 := if posTag.Some? && posTag.value != "" then SetPosTag(e1, posTag.value) else e1;
    var e3 := if searchRank.Some? then SetSearchRank(e2, searchRank.value) else e2;
    if sequenceNumber.Some? then SetSequenceNumber(e3, sequenceNumber.value) else e3
  }

  /** The converted tree of the document element, when there is one. */
  function ConvertedRoot(mapping: map<string, string>, root: Option<XNode>): (r: Option<HtmlElement>)
    ensures r.None? <==> root.None?
    ensures r.Some? ==> r.value == Convert(mapping, root.value, [DOCUMENT_PARENT]) && AllTagsAllowed(r.value)
  {
    ConvertElement(mapping, root, [DOCUMENT_PARENT])
  }

  /** `parseEntry`: without a document element nothing is added and the
      result is false; otherwise the entry, holding the converted tree as
      its one element, goes to `addEntry`, whose result is returned.  Adding
      the element cannot fail, because a converted tree's tag is allowed. */
  function ParseEntry(d: Dictionary, mapping: map<string, string>, term: string, reading: string,
                      root: Option<XNode>, infoTag: Option<string>, posTag: Option<string>,
                      searchRank: Option<int>, sequenceNumber: Option<int>, io: FlushIo): (r: (bool, Dictionary))
    ensures root.None? ==> r == (false, d)
    ensures root.Some? ==>
      var entry := TaggedEntry(term, reading, infoTag, posTag, searchRank, sequenceNumber)
                     .(content := [ConvertedRoot(mapping, root).value]);
      r == AddEntry(d, Some(entry), io) && Accepted(r.1) == Accepted(d) + [entry]
  {
    var entry := TaggedEntry(term, reading, infoTag, posTag, searchRank, sequenceNumber);
    match ConvertedRoot(mapping, root)
    case None => (false, d)
    case Some(tree) =>
      AddConvertedTree(entry, tree);
      AddEntry(d, Some(AddElement(entry, tree).value), io)
  }

  /** A tree whose tags are all allowed is always accepted by `addElement`;
      added to an entry without content it becomes the one element. */
  lemma AddConvertedTree(e: DicEntry, tree: HtmlElement)
    requires AllTagsAllowed(tree)
    ensures AddElement(e, tree) == Success(e.(content := e.content + [tree]))
    ensures e.content == [] ==> AddElement(e, tree).value == e.(content := [tree])
  {
    assert tree.tag in ALLOWED_ELEMENTS;
    assert e.content == [] ==> e.content + [tree] == [tree];
  }

  /** `exportDictionary`: the dictionary's export, banks moved to the output. */
  function ExportDictionary(d: Dictionary, io: ExportIo): (r: (bool, Dictionary))
    ensures r.0 ==> r.1.currentChunk == []
    ensures r.0 == YomitanDictionary.ExportDictionary(d, io, true).0
    ensures Accepted(r.1) == Accepted(d)
  {
    var (ok, d1, _) := YomitanDictionary.ExportDictionary(d, io, true);
    (ok, d1)
  }
}
